=== FILE: README.md ===
# Ziggurat template engine: parser and renderer in Dafny

Ziggurat is a small Python template engine.
- A template is plain text with `{name|transform}` lookups.
- It has `{!macro arg=value}` calls.
- It has `@if@`/`@else@`/`@endif@`, `@for x in xs@`/`@endfor@`, `@include file@` and `@macro name(params)@`/`@endmacro@` directives.

`Parser` turns a source string into a tree of `ast` nodes by recursive descent over a cursor. `Renderer` walks that tree against a context dict and appends text to `result`.

This project models three parts of the engine:
- the parser: ziggurat/parser.py;
- the node classes: ziggurat/ast.py;
- the `Renderer` class: ziggurat/visitor.py.

It proves the following:
- The parser reads back everything a printer writes.
- The parser fails or truncates its result exactly where the code does.
- The renderer's output and context effects are given for each kind of node.

Modules, one per concern:

| file | module | what it holds |
|---|---|---|
| results.dfy | `Results` | `Option` and `Result`. Every Python exception becomes an `Err`. |
| cursor.dfy | `Cursor` | The cursor primitives of `Parser`: `current`, `peek`, `next`, `match`, `peek_match`, `eat_whitespace`, `maybe_eat_newline`, `word`, `string_literal`. Each is a pure function of the source and the cursor position. |
| ast.dfy | `Ast` | One datatype `Node` for the closed `AST` class hierarchy, and `Arg` for macro-call arguments. |
| parser.dfy | `Parser` | One function per grammar production. Each returns the node it builds and the position after it, or the error the code raises. |
| printer.dfy | `Printer` | A printer from trees back to source. It is the partner the parser is checked against. |
| roundtrip.dfy | `RoundTrip` | `Parse(PrintNodes(nodes)) == Ok(Block(nodes))`, proved production by production. |
| parsefacts.dfy | `ParseFacts` | How the parser treats sources the printer never writes: missing closing tags, a stray `@`, a trailing `@`, a comma or a repeated name among call arguments. |
| values.dfy | `Values` | The run-time values a context holds. Python truthiness, iteration, `str()`, `str.split`. |
| renderer.dfy | `Renderer` | The `visit_*` methods of `Renderer`. Each returns the text it appends and the context as it leaves it. |
| renderfacts.dfy | `RenderFacts` | Output and context properties of the renderer, each checked against an independent reference definition. |

Where the Python code and its accompanying tests disagree, the model follows the code:
- The tests construct `Renderer(context, transforms=...)` and expect `macros` and `visit_macro`/`visit_call`. The `Renderer` in visitor.py takes `filters` and has neither.
- The tests expect lookups with transforms to work. The code reads `node.filter`; see "## Findings".

## Model

| member | source | states |
|---|---|---|
| Cursor.Current | ziggurat/parser.py:12-17 | None exactly at or past the end; otherwise the character under the cursor |
| Cursor.Peek | ziggurat/parser.py:19-23 | None exactly when one past the cursor is out of range; otherwise that character |
| Cursor.Next | ziggurat/parser.py:25-30 | the cursor always advances by one, even past the end; the character read is None exactly past the end |
| Cursor.MatchFrom | ziggurat/parser.py:37-43 | Ok iff the tokens occur at the cursor, ending just after them; an error names the tokens and the first mismatching position |
| Cursor.Match | ziggurat/parser.py:32-43 | in both modes: Ok iff the tokens occur where matching starts (the cursor, or the end of the whitespace run after it), and the cursor ends after them; a mismatch names the tokens and the first differing position, with no rollback; whitespace running to the end gives the TypeError case |
| Cursor.PeekMatchFrom | ziggurat/parser.py:45-54 | Ok(true) iff prefix; an error iff the comparison runs off the end, raising IndexError |
| Cursor.PeekMatch | ziggurat/parser.py:45-54 | three-way characterisation, each an iff: prefix gives true; an in-range mismatch gives false; running off the end gives IndexError at the source length |
| Cursor.FirstMismatch | ziggurat/parser.py:47-52 | when `peek_match` answers false, some in-range position differs from the tokens |
| Cursor.EatWhitespace | ziggurat/parser.py:56-58 | skips the maximal whitespace run to a non-whitespace character; reaching the end raises TypeError (`None in string.whitespace`) |
| Cursor.MaybeEatNewline | ziggurat/parser.py:60-62 | advances by one iff a newline is under the cursor, otherwise stays |
| Cursor.ScanWordChars | ziggurat/parser.py:71-72 | ends at the first non-word character or the end, with only word characters before |
| Cursor.Word | ziggurat/parser.py:64-73 | the result is the maximal `[A-Za-z0-9_./]` run at the cursor, a leading digit, `_`, `.` or `/` included |
| Cursor.ScanUntil | ziggurat/parser.py:80-81 | stops at the first occurrence of the quote or the end, with no quote before |
| Cursor.StringLiteral | ziggurat/parser.py:75-87 | the literal is the text between the opening quote and the next same quote, both consumed; fails iff there is no closing quote |
| Parser.Parse | ziggurat/parser.py:250-251 | a success is a block of well-shaped children (every name a word, every text non-empty, bodies are blocks) |
| Parser.BlockNodes | ziggurat/parser.py:89-106 | the loop stops at the end or at an `@`; every child is a non-block, well-shaped node |
| Parser.BlockStep | ziggurat/parser.py:91-105 | each iteration consumes at least one character and yields a child, or breaks only on `@` |
| Parser.StepFor | ziggurat/parser.py:94-95 | same progress and break guarantee for the `@for ` branch onward |
| Parser.StepInclude | ziggurat/parser.py:96-97 | same progress and break guarantee for the `@include ` branch onward |
| Parser.StepMacro | ziggurat/parser.py:98-99 | same progress and break guarantee for the `@macro ` branch onward |
| Parser.StepOther | ziggurat/parser.py:100-105 | same progress and break guarantee for the lookup and text branches; None only on `@` |
| Parser.ParseIf | ziggurat/parser.py:108-132 | a success is a well-shaped `If` that consumed input |
| Parser.TagWord | ziggurat/parser.py:117-118 | the value is the word at the cursor, then only whitespace up to the closing `@`, which is the last character consumed |
| Parser.IfBranches | ziggurat/parser.py:121-130 | the node carries the given condition and consequence; the alternative is a block of children |
| Parser.EndIf | ziggurat/parser.py:129-132 | after `@endif@` the node is exactly `If(condition, consequence, alternative)` |
| Parser.ParseFor | ziggurat/parser.py:134-154 | a success is a well-shaped `For` that consumed input |
| Parser.EndFor | ziggurat/parser.py:150-154 | after `@endfor@` the node is exactly `For(name, iterable, body)` |
| Parser.ForHeader | ziggurat/parser.py:140-147 | `@for ` occurs at the cursor; the name is the word after it; both names are words; the tag ends with `@` |
| Parser.ForClause | ziggurat/parser.py:141-147 | the name is the word at the cursor, `in` follows it after optional whitespace, both names are words, and the tag ends with `@` |
| Parser.ParseInclude | ziggurat/parser.py:156-160 | a success is an `Include` of a word that consumed input |
| Parser.ParseMacro | ziggurat/parser.py:162-191 | a success is a well-shaped `Macro` that consumed input |
| Parser.MacroHeader | ziggurat/parser.py:171-187 | the macro name and every parameter are words |
| Parser.MacroSignature | ziggurat/parser.py:172-187 | the macro name and every parameter are words |
| Parser.ParameterList | ziggurat/parser.py:174-187 | every parameter is a word |
| Parser.Parameters | ziggurat/parser.py:175-184 | every parameter is a word, and the cursor ends at or after where it started |
| Parser.MoreParameters | ziggurat/parser.py:180-184 | every parameter is a word; an empty result consumes nothing |
| Parser.ParseLookup | ziggurat/parser.py:193-215 | a success starts at `{` and is a well-shaped `Lookup` or `Call`; it is a `Call` exactly when the first character after `{` and whitespace is `!` |
| Parser.Transforms | ziggurat/parser.py:206-211 | every transform is a word |
| Parser.ParseCall | ziggurat/parser.py:217-237 | a success is a well-shaped `Call` that consumed input |
| Parser.Arguments | ziggurat/parser.py:223-236 | stops at `}` or the end; keeps arguments well-shaped |
| Parser.Argument | ziggurat/parser.py:225-234 | one `word = value` pass consumes input; the key is a word |
| Parser.ArgumentValue | ziggurat/parser.py:229-233 | the value is a literal iff the cursor is on a quote, otherwise a deferred lookup |
| Parser.TextFrom | ziggurat/parser.py:239-248 | stops at `@`, `{` or the end; never longer than what it consumed; non-empty when it starts on text |
| Parser.ParseText | ziggurat/parser.py:239-248 | a `Text` node, non-empty when it starts on text |
| Printer.Escape | ziggurat/parser.py:244-245 | the escaped form of non-empty text does not start with an escapable character |
| RoundTrip.TextFromEscape | ziggurat/parser.py:239-248 | `text` reads the escaped form of any text back to the text itself |
| RoundTrip.StringLiteralPrinted | ziggurat/parser.py:75-87 | a quoted literal without that quote inside is read back exactly |
| RoundTrip.TransformsPrinted | ziggurat/parser.py:206-211 | printed transforms, each a bar and a word, are read back in order |
| RoundTrip.LookupPrinted | ziggurat/parser.py:193-215 | a printed lookup is read back as the same node |
| RoundTrip.AssignArgumentList | ziggurat/parser.py:223-233 | assigning the printed arguments one by one rebuilds the argument map |
| RoundTrip.ArgumentsPrinted | ziggurat/parser.py:224-234 | printed arguments are read back, each assigned in turn |
| RoundTrip.CallPrinted | ziggurat/parser.py:217-237 | a printed macro call is read back as the same node |
| RoundTrip.IncludePrinted | ziggurat/parser.py:156-160 | a printed include is read back |
| RoundTrip.ParametersPrinted | ziggurat/parser.py:175-184 | printed comma-separated parameters are read back in order |
| RoundTrip.SignaturePrinted | ziggurat/parser.py:172-187 | a printed `name(params)@` is read back |
| RoundTrip.IfPrinted | ziggurat/parser.py:108-132 | a printed `@if@` with or without `@else@` is read back as the same node |
| RoundTrip.ForPrinted | ziggurat/parser.py:134-154 | a printed `@for@` is read back as the same node |
| RoundTrip.MacroPrinted | ziggurat/parser.py:162-191 | a printed `@macro@` is read back as the same node |
| RoundTrip.StepAtStop | ziggurat/parser.py:102-105 | an `@` followed by anything but `i`, `f`, `m` breaks the block loop |
| RoundTrip.NodesPrinted | ziggurat/parser.py:89-106 | printed children are read back one by one up to where the loop stops |
| RoundTrip.ParsePrinted | ziggurat/parser.py:250-251 | for every printable block, parsing its printed source returns that block |
| ParseFacts.StrayAtDropsRest | ziggurat/parser.py:102-106 | text then `@` then anything not starting with `i`/`f`/`m` parses to the text alone; the rest is dropped without error |
| ParseFacts.TrailingAtFails | ziggurat/parser.py:45-54 | text ending in `@` raises IndexError from `peek_match("@if ")` |
| ParseFacts.StrayAtExamples | ziggurat/parser.py:102-106 | `a@b` parses to the text `a`; `a@` fails |
| ParseFacts.MissingEndIf | ziggurat/parser.py:124-129 | an `@if@` whose branch runs to the end fails with IndexError from `peek_match("@else@")` |
| ParseFacts.MissingEndFor | ziggurat/parser.py:150-151 | a `@for@` whose body runs to the end fails at `match("@endfor@")` |
| ParseFacts.MissingEndMacro | ziggurat/parser.py:189-190 | a `@macro@` whose body runs to the end fails at `match("@endmacro@")` |
| ParseFacts.CallAssignsInOrder | ziggurat/parser.py:223-236 | a call whose arguments are written out as a list, names possibly repeated, is read as the map that stores them in list order |
| ParseFacts.RepeatedArgumentOverwrites | ziggurat/parser.py:231-233 | a name given twice keeps the later value |
| ParseFacts.TextVerbatim | ziggurat/parser.py:239-248 | text without `@` or `{` whose backslashes precede none of `@`, `{`, `}` is read exactly as it stands, raw `}` included, up to the `@`, `{` or end after it |
| ParseFacts.TextVerbatimExample | ziggurat/parser.py:242-246 | in `a}\b@` both the `}` and the backslash are kept |
| ParseFacts.CommaRejected | ziggurat/parser.py:224-227 | arguments are separated by whitespace only: in any source starting `!name key=value,`, the comma is read as a nameless argument and `match("=")` fails at the comma |
| Values.DictGet | ziggurat/visitor.py:52-53 | `dict[key]` finds a value iff the key is present, and the value is one stored under it |
| Values.Iterate | ziggurat/visitor.py:67 | lists yield their items, strings their characters, dicts their keys; other values are not iterable |
| Values.NatToString | ziggurat/visitor.py:101-102 | decimal digits, no leading zero |
| Values.NatToStringValue | ziggurat/visitor.py:101-102 | reading the written digits back gives the number |
| Values.IntToString | ziggurat/visitor.py:101-102 | a minus sign exactly for negative numbers, then decimal digits with no leading zero whose value is the absolute value |
| Values.ToStr | ziggurat/visitor.py:101-102 | strings are kept, ints are written in decimal (`IntToString`), booleans are `True`/`False`, None is `None`, containers and objects use their `repr` |
| Values.SplitJoin | ziggurat/visitor.py:88 | the parts of `split(".")` hold no dot, and joining them with dots gives the name back |
| Values.SplitWithoutSep | ziggurat/visitor.py:88-91 | a name without a dot is one part |
| Renderer.Descend | ziggurat/visitor.py:95-98 | a dict step succeeds iff the key is present (else KeyError); a non-dict step succeeds iff the attribute exists (else AttributeError) |
| Renderer.Resolve | ziggurat/visitor.py:88-99 | a plain name succeeds iff it is in the context, with its value, else KeyError |
| Renderer.ApplyTransforms | ziggurat/visitor.py:104-106 | Ok iff every transform name is a known filter; an error names a missing one |
| Renderer.RenderLookup | ziggurat/visitor.py:87-108 | resolution errors propagate; with no transforms the output is `str(value)`; with transforms it succeeds iff all are known |
| Renderer.RenderLookupAsWritten | ziggurat/visitor.py:104 | as written, every lookup that resolves raises AttributeError(`filter`) |
| Renderer.Restore | ziggurat/visitor.py:71-74 | the loop variable is rebound to its previous value iff that is truthy, else deleted; no other key changes |
| Renderer.Render | ziggurat/visitor.py:40-85 | a successful render leaves the context as it found it, except that loop variables with a falsy previous value may be gone |
| Renderer.RenderNodes | ziggurat/visitor.py:40-42 | the same context guarantee over a run of children |
| Renderer.RenderLoop | ziggurat/visitor.py:67-69 | only the loop variable and falsy nested loop variables change; an empty list renders nothing |
| RenderFacts.RenderLoopAppend | ziggurat/visitor.py:67-69 | for any body, nested loops included: looping over `a + b` loops over `a`, then over `b` from the context `a` left; the outputs concatenate in item order |
| RenderFacts.RenderLoopOne | ziggurat/visitor.py:67-69 | for any body, one item renders the body once with the variable bound to it |
| RenderFacts.RenderNodesAppend | ziggurat/visitor.py:40-42 | rendering `a + b` renders `a`, then `b` from the context `a` left; the outputs concatenate |
| RenderFacts.TextAppendsVerbatim | ziggurat/visitor.py:84-85 | a trailing text node appends its text unchanged and leaves the context alone |
| RenderFacts.IfSelectsBranch | ziggurat/visitor.py:44-61 | for any condition, dotted ones included: a resolution error is the render's error; otherwise exactly the branch chosen by the truthiness of the resolved value is rendered; an unbound plain name raises KeyError |
| RenderFacts.IncludeNeedsBase | ziggurat/visitor.py:79-80 | without a base path `@include@` raises ValueError |
| RenderFacts.SplitAppend | ziggurat/visitor.py:88 | splitting `a.b` gives the parts of `a` followed by the parts of `b` |
| RenderFacts.WalkAppend | ziggurat/visitor.py:94-99 | the lookup loop over two runs of parts continues from where the first stopped |
| RenderFacts.ResolveDotted | ziggurat/visitor.py:88-99 | `a.b` resolves `a`, then walks the parts of `b` from its value |
| RenderFacts.ResolveChild | ziggurat/visitor.py:94-98 | `a.b` with a dot-free `b` is one dict-or-attribute step from the value of `a` |
| RenderFacts.DottedDictExample | tests/test_visitors.py:32-34 | `foo.bar` through a dict renders "baz" |
| RenderFacts.FortyTwo | tests/test_visitors.py:29-30 | `str(42)` is "42" |
| RenderFacts.DottedObjectExample | tests/test_visitors.py:36-39 | `foo.bar` through an object attribute renders "42" |
| RenderFacts.TransformsAppend | ziggurat/visitor.py:104-106 | a split chain of transforms applies the second part to the first part's result |
| RenderFacts.TransformsChain | ziggurat/visitor.py:104-106 | with all names known, the transforms equal the reference composition `Chain`, applied first to last |
| RenderFacts.UpperThenLower | tests/test_visitors.py:45-47 | `upper` then `lower` on "BaR" renders "bar" |
| RenderFacts.LoopWithoutNesting | ziggurat/visitor.py:67-69 | with a loop-free body, the loop output is the reference `EachItem`: the body rendered with each item bound in turn; the variable ends on the last item |
| RenderFacts.ForWithoutNesting | ziggurat/visitor.py:63-74 | with a loop-free body, `@for@` outputs `EachItem` and leaves exactly `Restore(ctx, name, previous)` |
| RenderFacts.ForRestoresVariable | ziggurat/visitor.py:65-74 | after any completed loop, the variable holds its previous value if that was truthy, otherwise it is unbound |
| RenderFacts.ForErrors | ziggurat/visitor.py:63-67 | an unbound iterable key raises KeyError; a bound value that cannot be iterated raises TypeError |
| RenderFacts.ForDottedExample | ziggurat/visitor.py:64 | the iterable is a plain key: `a.b` raises KeyError although a lookup of `a.b` resolves |
| RenderFacts.ForEmptyExample | tests/test_visitors.py:82-83 | a loop over an empty list renders nothing and leaves the context unchanged |
| RenderFacts.LookupAsWrittenFails | ziggurat/visitor.py:87-108 | for every bound plain name, the code as written raises AttributeError and the intended lookup renders `str(value)` |
| RenderFacts.LookupExample | tests/test_visitors.py:24-27 | `{foo}` with `foo` = "bar": as written it raises; the intended render gives "bar" |

## Left out

- I/O is left out. `Template` reading a file, the `Path` arithmetic of `base / source` and the text encoding are not modelled. `@include` calls `Env.load`, which receives the base path and the name and returns the included render's text or an error.
- Include context effects are left out. The included template is rendered against the same context dict, and its `@for` loops can delete falsy bindings from it. The model's `load` returns text only, and the context after an `Include` is the context before it. So `Render`'s context guarantee covers `Include` only because this effect is dropped.
- Include filters and base are not modelled. The included render uses `Template.filters` and its own file's directory as base. The model leaves both inside `load` and does not relate them to `Env.filters` and `Env.base`.
- There is no include cache. visitor.py has none either; the tests mention one only as a TODO.
- Macros and calls: visitor.py has no `visit_macro` or `visit_call`. Rendering a `Macro` or `Call` raises the AttributeError of the missing method, and the model stops there. The tests' macro semantics (a `macros` table, argument binding) belong to a different version of the renderer and are not modelled.
- `getattr` and `str()` on Python objects are abstracted:
  - An object is a record of named attributes, and a missing attribute is AttributeError.
  - Python attributes of built-in values are not modelled: `{s.upper}` on a string yields a bound method in Python, but the model raises AttributeError.
  - `str()` of lists, dicts and objects is the parameter `Env.repr`. Float values and Python's `__str__`/`__bool__`/`__len__` overrides are not modelled; an object is always truthy.
- Dict values are association lists. A Python dict cannot have duplicate keys, and the model does not require distinct keys. Lookup takes the first entry, but `Iterate` would yield a repeated key twice. Every dict a Python program can build has distinct keys, so this only admits more inputs.
- Filters are functions from string to string. `str.upper`/`str.lower` on non-ASCII text are not modelled; the examples use ASCII case mapping.
- Parse properties about sources a printer cannot write are partial. `ParseFacts` covers a missing closing tag, a stray `@`, a trailing `@` after plain text, a comma between call arguments and a repeated argument name. Other malformed inputs, such as an unterminated `{`, follow from the same functions but carry no lemma of their own.
- The round trip covers the printable trees (`PrintableNodes`). Adjacent text nodes, text ending in a backslash, a literal holding both quote characters, and empty parameter, call or argument names are read back differently, so they are outside it.

## Findings

| source | as written | input that shows it | evidently intended | confidence | as-written member | corrected member |
|---|---|---|---|---|---|---|
| ziggurat/visitor.py:104-106 | `visit_lookup` tests `node.filter` and indexes `self.filters[node.filter]`. `ast.Lookup` (ziggurat/ast.py:70-73) has only `name` and `transforms`, so every lookup whose name resolves raises AttributeError | `Lookup("foo", [])` with context `{"foo": "bar"}` raises instead of rendering "bar" | apply each name in `node.transforms` in order, as tests/test_visitors.py:24-47 expects | not executed | Renderer.RenderLookupAsWritten (shown by RenderFacts.LookupAsWrittenFails and RenderFacts.LookupExample) | Renderer.RenderLookup (used by Renderer.Render; RenderFacts.TransformsChain and RenderFacts.UpperThenLower) |

=== FILE: ast.dfy ===
/** The syntax tree shared by the parser and the renderer
    (ziggurat/ast.py).  The Python class hierarchy under `AST` is a closed
    set of node kinds, so it becomes one datatype; `accept` double dispatch
    becomes a `match` on the constructor in the renderer. */
module Ast {

  /** A macro-call argument (`Union[str, ast.Lookup]`): a literal string
      fixed at parse time, or a lookup deferred to render time. */
  datatype Arg =
    | Literal(text: string)
    | Deferred(name: string, transforms: seq<string>)

  datatype Node =
      /** A sequence of nodes, kept in the order given. */
    | Block(nodes: seq<Node>)
      /** `@if condition@ ... [@else@ ...] @endif@`; both branches are always present. */
    | If(condition: string, consequence: Node, alternative: Node)
      /** `@for name in iterable@ ... @endfor@` (`iterator` in the source, a reserved word here) */
    | For(name: string, iterable: string, body: Node)
      /** `@include source@` */
    | Include(source: string)
      /** `@macro name(parameters)@ ... @endmacro@` */
    | Macro(name: string, parameters: seq<string>, body: Node)
      /** Literal output, escapes already resolved. */
    | Text(text: string)
      /** `{name|transform|...}`: a dotted name and its transforms in order. */
    | Lookup(name: string, transforms: seq<string>)
      /** `{!name param=value ...}` */
    | Call(name: string, arguments: map<string, Arg>)

  /** The empty block the parser supplies when an `@if@` has no `@else@`. */
  const EmptyBlock: Node := Block([])

  /** The loop variables bound by the `@for@` nodes a render can reach
      (a macro body is never rendered by the renderer modelled here). */
  function ForNames(n: Node): set<string> {
    match n
    case Block(nodes) => ForNamesOf(nodes)
    case If(_, consequence, alternative) => ForNames(consequence) + ForNames(alternative)
    case For(name, _, body) => {name} + ForNames(body)
    case _ => {}
  }

  function ForNamesOf(nodes: seq<Node>): set<string> {
    if nodes == [] then {} else ForNames(nodes[0]) + ForNamesOf(nodes[1..])
  }
}

=== FILE: cursor.dfy ===
/** The lexical primitives of the template parser: a cursor over an
    immutable source string (ziggurat/parser.py, class `Parser`).

    The cursor is an explicit `pos: nat`; a primitive that moves it returns
    the new position, one that only looks returns no position at all, so
    "the cursor is unchanged" holds by construction.  Every exception a
    primitive can raise becomes an `Err` tagged with its kind. */
module Cursor {
  import opened Results

  /** The exceptions raised while parsing, by kind; `pos` is the cursor
      position at which the exception is raised. */
  datatype ParseError =
    | Expected(tokens: string, pos: nat)   // `match` met a character other than the next token
    | IndexOutOfRange(pos: nat)            // `peek_match` indexed the source past its end
    | WhitespaceAtEnd(pos: nat)            // `eat_whitespace` tested `None in string.whitespace`
    | UnterminatedString(pos: nat)         // `string_literal` ran out of input before the quote

  /** A parsed value together with the cursor position after it. */
  datatype Parsed<+T> = Parsed(value: T, pos: nat)

  /** Python's `string.whitespace`: space, tab, newline, return, vertical tab, form feed. */
  predicate IsWhitespace(c: char) {
    c == ' ' || c == '\t' || c == '\n' || c == '\r' || c == '\U{000B}' || c == '\U{000C}'
  }

  /** `string.ascii_letters` */
  predicate IsAsciiLetter(c: char) {
    ('a' <= c <= 'z') || ('A' <= c <= 'Z')
  }

  /** `string.digits` */
  predicate IsDigit(c: char) {
    '0' <= c <= '9'
  }

  /** The characters `word` accepts after its first letter:
      `string.ascii_letters + string.digits + "_./"`. */
  predicate IsWordChar(c: char) {
    IsAsciiLetter(c) || IsDigit(c) || c == '_' || c == '.' || c == '/'
  }

  predicate IsWord(s: string) {
    forall i {:trigger IsWordChar(s[i])} | 0 <= i < |s| :: IsWordChar(s[i])
  }

  predicate AllWhitespace(src: string, from: nat, to: nat)
    requires from <= to <= |src|
  {
    forall i {:trigger IsWhitespace(src[i])} | from <= i < to :: IsWhitespace(src[i])
  }

  /** The first `k` characters of `tokens` occur in `src` at `pos`. */
  predicate AgreeAt(src: string, pos: nat, tokens: string, k: nat) {
    && k <= |tokens|
    && pos + k <= |src|
    && forall i | 0 <= i < k :: src[pos + i] == tokens[i]
  }

  /** `tokens` occurs in `src` at `pos`. */
  predicate PrefixAt(src: string, pos: nat, tokens: string) {
    AgreeAt(src, pos, tokens, |tokens|)
  }

  /** `tokens` agrees with `src` at `pos` for `m` characters and then
      differs, either by a different character or by the end of `src`. */
  predicate MismatchAt(src: string, pos: nat, tokens: string, m: nat) {
    && AgreeAt(src, pos, tokens, m)
    && m < |tokens|
    && (pos + m == |src| || src[pos + m] != tokens[m])
  }

  /** The rest of `src` from `pos` is a proper prefix of `tokens`: a
      character-by-character read of `tokens` runs off the end of `src`. */
  predicate RunsOffEnd(src: string, pos: nat, tokens: string) {
    && pos <= |src|
    && |src| - pos < |tokens|
    && AgreeAt(src, pos, tokens, |src| - pos)
  }

  /** `current`: the character under the cursor, None at or past the end. */
  function Current(src: string, pos: nat): (c: Option<char>)
    ensures c.None? <==> |src| <= pos
    ensures c.Some? ==> c.value == src[pos]
  {
    if pos < |src| then Some(src[pos]) else None
  }

  /** `peek`: the character one past the cursor, None at or past the end. */
  function Peek(src: string, pos: nat): (c: Option<char>)
    ensures c.None? <==> |src| <= pos + 1
    ensures c.Some? ==> c.value == src[pos + 1]
  {
    Current(src, pos + 1)
  }

  /** `next`: the character under the cursor (None past the end) and a
      cursor moved on by one, even past the end. */
  function Next(src: string, pos: nat): (r: Parsed<Option<char>>)
    ensures r.pos == pos + 1
    ensures r.value.None? <==> |src| <= pos
    ensures r.value.Some? ==> r.value.value == src[pos]
  {
    Parsed(Current(src, pos), pos + 1)
  }

  /** The loop of `match` once `k` tokens have been consumed. */
  function MatchFrom(src: string, pos: nat, tokens: string, k: nat): (r: Result<nat, ParseError>)
    requires AgreeAt(src, pos, tokens, k)
    ensures r.Ok? <==> PrefixAt(src, pos, tokens)
    ensures r.Ok? ==> r.value == pos + |tokens|
    ensures r.Err? ==> && r.error.Expected? && r.error.tokens == tokens
                       && pos + k <= r.error.pos
                       && MismatchAt(src, pos, tokens, r.error.pos - pos)
    decreases |tokens| - k
  {
    if k == |tokens| then Ok(pos + k)
    else if pos + k < |src| && src[pos + k] == tokens[k] then MatchFrom(src, pos, tokens, k + 1)
    else Err(Expected(tokens, pos + k))
  }

  /** `match(tokens, after_whitespace)`: optionally skip whitespace, then
      consume `tokens` character by character.  On a mismatch the error
      carries the position of the first differing character: what was
      consumed is not given back. */
  function Match(src: string, pos: nat, tokens: string, afterWhitespace: bool): (r: Result<nat, ParseError>)
    requires pos <= |src|
    ensures r.Ok? ==> && pos + |tokens| <= r.value <= |src|
                      && PrefixAt(src, r.value - |tokens|, tokens)
                      && AllWhitespace(src, pos, r.value - |tokens|)
    ensures r.Ok? && !afterWhitespace ==> r.value == pos + |tokens|
    ensures r.Ok? && afterWhitespace ==> r.value - |tokens| < |src| && !IsWhitespace(src[r.value - |tokens|])
    ensures !afterWhitespace ==> (r.Ok? <==> PrefixAt(src, pos, tokens))
    ensures r.Err? && !afterWhitespace ==> && r.error.Expected? && r.error.tokens == tokens && pos <= r.error.pos
                                           && MismatchAt(src, pos, tokens, r.error.pos - pos)
    ensures afterWhitespace && EatWhitespace(src, pos).Err? ==> r == Err(WhitespaceAtEnd(|src|))
    ensures afterWhitespace && EatWhitespace(src, pos).Ok? ==>
              var q := EatWhitespace(src, pos).value;
              && (r.Ok? <==> PrefixAt(src, q, tokens))
              && (r.Err? ==> && r.error.Expected? && r.error.tokens == tokens && q <= r.error.pos
                             && MismatchAt(src, q, tokens, r.error.pos - q))
  {
    var start :- if afterWhitespace then EatWhitespace(src, pos) else Ok(pos);
    MatchFrom(src, start, tokens, 0)
  }

  /** The loop of `peek_match` once `k` tokens have been compared. */
  function PeekMatchFrom(src: string, pos: nat, tokens: string, k: nat): (r: Result<bool, ParseError>)
    requires AgreeAt(src, pos, tokens, k)
    ensures r == Ok(true) <==> PrefixAt(src, pos, tokens)
    ensures r.Err? <==> RunsOffEnd(src, pos, tokens)
    ensures r.Err? ==> r.error == IndexOutOfRange(|src|)
    decreases |tokens| - k
  {
    if k == |tokens| then Ok(true)
    else if pos + k == |src| then Err(IndexOutOfRange(pos + k))
    else if src[pos + k] == tokens[k] then PeekMatchFrom(src, pos, tokens, k + 1)
    else Ok(false)
  }

  /** `peek_match(tokens)`: whether `tokens` occurs at the cursor.  The
      source reads `source[cursor]` without a bounds check, so a read that
      runs off the end raises IndexError. */
  function PeekMatch(src: string, pos: nat, tokens: string): (r: Result<bool, ParseError>)
    requires pos <= |src|
    ensures r == Ok(true) <==> PrefixAt(src, pos, tokens)
    ensures r == Ok(false) <==> exists m :: MismatchAt(src, pos, tokens, m) && pos + m < |src|
    ensures r.Err? <==> RunsOffEnd(src, pos, tokens)
    ensures r.Err? ==> r.error == IndexOutOfRange(|src|)
  {
    var r := PeekMatchFrom(src, pos, tokens, 0);
    match r
    case Ok(found) =>
      if found then
        NoMismatchWhenPrefix(src, pos, tokens);
        r
      else
        var m := FirstMismatch(src, pos, tokens, 0);
        r
    case Err(_) =>
      NoMismatchWhenRunsOff(src, pos, tokens);
      r
  }

  /** The first index at which `tokens` and `src` from `pos` differ. */
  function FirstMismatch(src: string, pos: nat, tokens: string, k: nat): (m: nat)
    requires AgreeAt(src, pos, tokens, k)
    requires PeekMatchFrom(src, pos, tokens, k) == Ok(false)
    ensures MismatchAt(src, pos, tokens, m) && pos + m < |src|
    decreases |tokens| - k
  {
    if src[pos + k] == tokens[k] then FirstMismatch(src, pos, tokens, k + 1) else k
  }

  lemma NoMismatchWhenPrefix(src: string, pos: nat, tokens: string)
    requires PrefixAt(src, pos, tokens)
    ensures forall m :: !MismatchAt(src, pos, tokens, m)
  {
  }

  lemma NoMismatchWhenRunsOff(src: string, pos: nat, tokens: string)
    requires RunsOffEnd(src, pos, tokens)
    ensures forall m :: MismatchAt(src, pos, tokens, m) ==> pos + m == |src|
  {
  }

  /** `eat_whitespace`: skip a maximal run of whitespace.  Reaching the end
      of the source raises TypeError, because the loop test becomes
      `None in string.whitespace`. */
  function EatWhitespace(src: string, pos: nat): (r: Result<nat, ParseError>)
    requires pos <= |src|
    ensures r.Ok? ==> pos <= r.value < |src| && AllWhitespace(src, pos, r.value) && !IsWhitespace(src[r.value])
    ensures r.Err? ==> AllWhitespace(src, pos, |src|)
    ensures r.Err? ==> r.error == WhitespaceAtEnd(|src|)
    decreases |src| - pos
  {
    if pos == |src| then Err(WhitespaceAtEnd(pos))
    else if IsWhitespace(src[pos]) then EatWhitespace(src, pos + 1)
    else Ok(pos)
  }

  /** `maybe_eat_newline`: consume one newline if the cursor is on one. */
  function MaybeEatNewline(src: string, pos: nat): (p: nat)
    requires pos <= |src|
    ensures p <= |src|
    ensures p == pos + 1 <==> pos < |src| && src[pos] == '\n'
    ensures p != pos + 1 ==> p == pos
  {
    if pos < |src| && src[pos] == '\n' then pos + 1 else pos
  }

  /** The `while` loop of `word`: the end of the run of word characters. */
  function ScanWordChars(src: string, pos: nat): (end: nat)
    requires pos <= |src|
    ensures pos <= end <= |src|
    ensures forall i {:trigger IsWordChar(src[i])} | pos <= i < end :: IsWordChar(src[i])
    ensures end == |src| || !IsWordChar(src[end])
    decreases |src| - pos
  {
    if pos < |src| && IsWordChar(src[pos]) then ScanWordChars(src, pos + 1) else pos
  }

  /** `word`: an optional ASCII letter, then a run of word characters.  The
      first-letter step admits nothing the loop would not, so the result is
      the maximal run of `[A-Za-z0-9_./]` at the cursor (a leading digit,
      `_`, `.` or `/` is accepted). */
  function Word(src: string, pos: nat): (r: Parsed<string>)
    requires pos <= |src|
    ensures pos <= r.pos <= |src|
    ensures r.value == src[pos..r.pos]
    ensures IsWord(r.value)
    ensures r.pos == |src| || !IsWordChar(src[r.pos])
  {
    var afterFirst := if pos < |src| && IsAsciiLetter(src[pos]) then pos + 1 else pos;
    var end := ScanWordChars(src, afterFirst);
    Parsed(src[pos..end], end)
  }

  /** The loop of `string_literal`: the first position at or after `pos`
      holding `quote`, or the end of the source. */
  function ScanUntil(src: string, pos: nat, quote: char): (end: nat)
    requires pos <= |src|
    ensures pos <= end <= |src|
    ensures quote !in src[pos..end]
    ensures end < |src| ==> src[end] == quote
    decreases |src| - pos
  {
    if pos == |src| || src[pos] == quote then pos else ScanUntil(src, pos + 1, quote)
  }

  /** `string_literal`: the character under the cursor is the quote; the
      literal is everything up to the next occurrence of that character,
      which is consumed too.  No closing quote raises. */
  function StringLiteral(src: string, pos: nat): (r: Result<Parsed<string>, ParseError>)
    requires pos <= |src|
    ensures r.Ok? ==> && pos + 2 <= r.value.pos <= |src|
                      && r.value.value == src[pos + 1..r.value.pos - 1]
                      && src[r.value.pos - 1] == src[pos]
                      && src[pos] !in r.value.value
    ensures r.Err? <==> pos == |src| || src[pos] !in src[pos + 1..]
  {
    if pos == |src| then
      Err(UnterminatedString(pos + 2))
    else
      var quote := src[pos];
      var close := ScanUntil(src, pos + 1, quote);
      if close == |src| then
        Err(UnterminatedString(close + 1))
      else
        assert quote in src[pos + 1..] by { assert src[pos + 1..][close - pos - 1] == quote; }
        Ok(Parsed(src[pos + 1..close], close + 1))
  }
}

=== FILE: parsefacts.dfy ===
/** How ziggurat/parser.py treats sources the printer never writes: a
    directive whose closing tag is missing, an `@` that opens nothing, an
    `@` at the very end.  Each lemma holds for every text or body in front
    of the offending spot. */
module ParseFacts {
  import opened Results
  import opened Cursor
  import opened Ast
  import opened Parser
  import opened Printer
  import opened RoundTrip

  /** An error in one iteration of the block loop is the loop's error. */
  lemma {:induction false} NodesStepErr(src: string, pos: nat)
    requires pos < |src| && BlockStep(src, pos).Err?
    ensures BlockNodes(src, pos) == Err(BlockStep(src, pos).error)
  {
  }

  /** An error after a node has been read is the loop's error. */
  lemma {:induction false} NodesRestErr(src: string, pos: nat, n: Node, mid: nat)
    requires pos < |src| && StepYields(BlockStep(src, pos), n, mid)
    requires mid <= |src| && BlockNodes(src, mid).Err?
    ensures BlockNodes(src, pos) == Err(BlockNodes(src, mid).error)
  {
  }

  /** `x + y` starts with `x`, and `y` follows it. */
  lemma {:induction false} HasParts(x: string, y: string)
    ensures Has(x + y, 0, x) && Has(x + y, |x|, y)
  {
    HasWhole(x + y);
    HasSplit(x + y, 0, x, y);
  }

  /** Text read up to an `@` at `end`. */
  lemma {:induction false} TextBefore(src: string, s: string, end: nat)
    requires s != [] && s[|s| - 1] != '\\'
    requires Has(src, 0, Escape(s)) && end == |Escape(s)|
    requires end < |src| && src[end] == '@'
    ensures StepYields(BlockStep(src, 0), Text(s), end)
  {
    TextFromEscape(src, 0, s, end);
    HasFirst(src, 0, Escape(s));
    StepAtText(src, 0, s, end);
  }

  /** `block` breaks on an `@` followed by anything but `i`, `f` or `m`
      (which covers `@else@` and the `@end...@` tags), and `parse` returns
      the block read so far: the rest of the source is dropped without
      an error. */
  lemma {:induction false} StrayAtDropsRest(s: string, u: string)
    requires s == [] || s[|s| - 1] != '\\'
    requires u != [] && u[0] != 'i' && u[0] != 'f' && u[0] != 'm'
    ensures Parse(Escape(s) + "@" + u) == Ok(Block(if s == [] then [] else [Text(s)]))
  {
    var src := Escape(s) + "@" + u;
    var end := |Escape(s)|;
    assert src == Escape(s) + ("@" + u);
    HasParts(Escape(s), "@" + u);
    HasFirst(src, end, "@" + u);
    HasCharAt(src, end, "@" + u, 1);
    NodesEnd(src, end);
    if s != [] {
      TextBefore(src, s, end);
      NodesCons(src, 0, Text(s), end, [], end);
      assert [Text(s)] + [] == [Text(s)];
    }
  }

  /** An `@` as the last character raises IndexError: `peek_match("@if ")`
      reads past the end of the source. */
  lemma {:induction false} TrailingAtFails(s: string)
    requires s == [] || s[|s| - 1] != '\\'
    ensures var src := Escape(s) + "@"; Parse(src) == Err(IndexOutOfRange(|src|))
  {
    var src := Escape(s) + "@";
    var end := |Escape(s)|;
    HasParts(Escape(s), "@");
    HasFirst(src, end, "@");
    assert RunsOffEnd(src, end, "@if ");
    NodesStepErr(src, end);
    if s != [] {
      TextBefore(src, s, end);
      NodesRestErr(src, 0, Text(s), end);
    }
  }

  /** Two instances: `a@b` parses to the text `a`, and `a@` fails. */
  lemma {:induction false} StrayAtExamples()
    ensures Parse("a@b") == Ok(Block([Text("a")]))
    ensures Parse("a@").Err?
  {
    assert Escape("a") == "a";
    assert "a@b" == Escape("a") + "@" + "b";
    assert "a@" == Escape("a") + "@";
    StrayAtDropsRest("a", "b");
    TrailingAtFails("a");
  }

  /** When `@if ` opens the source, the block loop's first iteration is
      `if_stmt`. */
  lemma {:induction false} IfFirst(src: string)
    requires PrefixAt(src, 0, "@if ") && 0 < |src|
    ensures ParseIf(src, 0).Err? ==> BlockStep(src, 0) == Err(ParseIf(src, 0).error)
  {
  }

  /** An `@if` whose branch runs to the end of the source without
      `@else@` or `@endif@`: `peek_match("@else@")` at the end raises
      IndexError before `match("@endif@")` is reached. */
  lemma {:induction false} MissingEndIf(condition: string, nodes: seq<Node>)
    requires IsWord(condition) && PrintableNodes(nodes)
    ensures var src := "@if " + condition + "@\n" + PrintNodes(nodes);
            Parse(src) == Err(IndexOutOfRange(|src|))
  {
    var head := "@if " + condition + "@\n";
    var src := head + PrintNodes(nodes);
    var e := 5 + |condition|;
    HasParts(head, PrintNodes(nodes));
    IfHead(src, 0, 4, condition, e);
    NewlineAt(src, e, e + 1);
    NodesPrinted(src, e + 1, nodes, |src|);
    assert RunsOffEnd(src, |src|, "@else@");
    IfFirst(src);
    NodesStepErr(src, 0);
  }

  /** An opening tag on a line of its own, then a body to the end. */
  lemma {:induction false} UnclosedLayout(src: string, tag: string, body: string, q1: nat)
    requires src == tag + "\n" + body && q1 == |tag|
    ensures Has(src, 0, tag) && q1 < |src| && src[q1] == '\n'
    ensures Has(src, q1 + 1, body) && q1 + 1 + |body| == |src|
  {
    HasParts(tag + "\n", body);
    HasSplit(src, 0, tag, "\n");
    HasFirst(src, q1, "\n");
  }

  /** `match` of a closing tag at the end of the source fails there. */
  lemma {:induction false} TagAtEnd(src: string, tag: string)
    requires tag != []
    ensures Match(src, |src|, tag, false) == Err(Expected(tag, |src|))
  {
  }

  /** `for_loop` fails at `match("@endfor@")` once its body has reached the end. */
  lemma {:induction false} ForUnclosed(src: string, pos: nat, q1: nat, b: nat, name: string, iterable: string, body: seq<Node>)
    requires pos <= |src| && q1 <= |src|
    requires Yields(ForHeader(src, pos), (name, iterable), q1)
    requires MaybeEatNewline(src, q1) == b
    requires Yields(BlockNodes(src, b), body, |src|)
    ensures ParseFor(src, pos) == Err(Expected("@endfor@", |src|))
  {
    TagAtEnd(src, "@endfor@");
  }

  /** `macro` fails at `match("@endmacro@")` once its body has reached the end. */
  lemma {:induction false} MacroUnclosed(src: string, pos: nat, q1: nat, b: nat, name: string, parameters: seq<string>, body: seq<Node>)
    requires pos <= |src| && q1 <= |src|
    requires Yields(MacroHeader(src, pos), (name, parameters), q1)
    requires MaybeEatNewline(src, q1) == b
    requires Yields(BlockNodes(src, b), body, |src|)
    ensures ParseMacro(src, pos) == Err(Expected("@endmacro@", |src|))
  {
    TagAtEnd(src, "@endmacro@");
  }

  /** Where the pieces of an unclosed `@for` sit in its source. */
  lemma {:induction false} ForLayout(src: string, name: string, iterable: string, nodes: seq<Node>, q1: nat)
    requires IsWord(name) && IsWord(iterable) && PrintableNodes(nodes)
    requires src == "@for " + name + " in " + iterable + "@" + "\n" + PrintNodes(nodes)
    requires q1 == 10 + |name| + |iterable|
    ensures PrefixAt(src, 0, "@for ") && Yields(ForHeader(src, 0), (name, iterable), q1)
    ensures q1 < |src| && src[q1] == '\n'
    ensures Yields(BlockNodes(src, q1 + 1), nodes, |src|)
  {
    UnclosedLayout(src, "@for " + name + " in " + iterable + "@", PrintNodes(nodes), q1);
    ForParts(src, name, iterable, nodes, q1);
  }

  /** The header and body of a `@for`, each read where it is printed. */
  lemma {:induction false} ForParts(src: string, name: string, iterable: string, nodes: seq<Node>, q1: nat)
    requires IsWord(name) && IsWord(iterable) && PrintableNodes(nodes)
    requires Has(src, 0, "@for " + name + " in " + iterable + "@") && q1 == 10 + |name| + |iterable|
    requires Has(src, q1 + 1, PrintNodes(nodes)) && q1 + 1 + |PrintNodes(nodes)| == |src|
    ensures PrefixAt(src, 0, "@for ") && Yields(ForHeader(src, 0), (name, iterable), q1)
    ensures Yields(BlockNodes(src, q1 + 1), nodes, |src|)
  {
    assert Yields(BlockNodes(src, q1 + 1), nodes, |src|) by {
      NodesPrinted(src, q1 + 1, nodes, |src|);
    }
    ForHeaderPrinted(src, 0, name, iterable, q1);
  }

  /** Where the pieces of an unclosed `@macro` sit in its source. */
  lemma {:induction false} MacroLayout(src: string, name: string, parameters: seq<string>, nodes: seq<Node>, q1: nat)
    requires IsWord(name) && PrintableNodes(nodes)
    requires forall i | 0 <= i < |parameters| :: IsWord(parameters[i]) && parameters[i] != []
    requires src == "@macro " + name + "(" + PrintParameters(parameters) + ")@" + "\n" + PrintNodes(nodes)
    requires q1 == 10 + |name| + |PrintParameters(parameters)|
    ensures PrefixAt(src, 0, "@macro ") && Yields(MacroHeader(src, 0), (name, parameters), q1)
    ensures q1 < |src| && src[q1] == '\n'
    ensures Yields(BlockNodes(src, q1 + 1), nodes, |src|)
  {
    UnclosedLayout(src, "@macro " + name + "(" + PrintParameters(parameters) + ")@", PrintNodes(nodes), q1);
    MacroParts(src, name, parameters, nodes, q1);
  }

  /** The header and body of a `@macro`, each read where it is printed. */
  lemma {:induction false} MacroParts(src: string, name: string, parameters: seq<string>, nodes: seq<Node>, q1: nat)
    requires IsWord(name) && PrintableNodes(nodes)
    requires forall i | 0 <= i < |parameters| :: IsWord(parameters[i]) && parameters[i] != []
    requires Has(src, 0, "@macro " + name + "(" + PrintParameters(parameters) + ")@")
    requires q1 == 10 + |name| + |PrintParameters(parameters)|
    requires Has(src, q1 + 1, PrintNodes(nodes)) && q1 + 1 + |PrintNodes(nodes)| == |src|
    ensures PrefixAt(src, 0, "@macro ") && Yields(MacroHeader(src, 0), (name, parameters), q1)
    ensures Yields(BlockNodes(src, q1 + 1), nodes, |src|)
  {
    assert Yields(BlockNodes(src, q1 + 1), nodes, |src|) by {
      NodesPrinted(src, q1 + 1, nodes, |src|);
    }
    MacroOpen(src, name, parameters, q1);
  }

  /** The `@macro` header alone, apart from the body that follows it. */
  lemma {:induction false} MacroOpen(src: string, name: string, parameters: seq<string>, q1: nat)
    requires IsWord(name)
    requires forall i | 0 <= i < |parameters| :: IsWord(parameters[i]) && parameters[i] != []
    requires Has(src, 0, "@macro " + name + "(" + PrintParameters(parameters) + ")@")
    requires q1 == 10 + |name| + |PrintParameters(parameters)|
    ensures PrefixAt(src, 0, "@macro ") && Yields(MacroHeader(src, 0), (name, parameters), q1)
  {
    MacroHeaderPrinted(src, 0, name, parameters, q1);
  }

  /** A `@for` at the start whose body runs to the end of the source. */
  lemma {:induction false} ForToEnd(src: string, q1: nat, name: string, iterable: string, body: seq<Node>)
    requires PrefixAt(src, 0, "@for ") && Yields(ForHeader(src, 0), (name, iterable), q1)
    requires q1 < |src| && src[q1] == '\n'
    requires Yields(BlockNodes(src, q1 + 1), body, |src|)
    ensures Parse(src) == Err(Expected("@endfor@", |src|))
  {
    NewlineAt(src, q1, q1 + 1);
    ForUnclosed(src, 0, q1, q1 + 1, name, iterable, body);
    ForDirective(src, 0);
    NodesStepErr(src, 0);
  }

  /** A `@macro` at the start whose body runs to the end of the source. */
  lemma {:induction false} MacroToEnd(src: string, q1: nat, name: string, parameters: seq<string>, body: seq<Node>)
    requires PrefixAt(src, 0, "@macro ") && Yields(MacroHeader(src, 0), (name, parameters), q1)
    requires q1 < |src| && src[q1] == '\n'
    requires Yields(BlockNodes(src, q1 + 1), body, |src|)
    ensures Parse(src) == Err(Expected("@endmacro@", |src|))
  {
    NewlineAt(src, q1, q1 + 1);
    MacroUnclosed(src, 0, q1, q1 + 1, name, parameters, body);
    MacroDirective(src, 0);
    NodesStepErr(src, 0);
  }

  /** A `@for` body that runs to the end of the source: `match("@endfor@")`
      fails at the end. */
  lemma {:induction false} MissingEndFor(name: string, iterable: string, nodes: seq<Node>)
    requires IsWord(name) && IsWord(iterable) && PrintableNodes(nodes)
    ensures var src := "@for " + name + " in " + iterable + "@" + "\n" + PrintNodes(nodes);
            Parse(src) == Err(Expected("@endfor@", |src|))
  {
    var src := "@for " + name + " in " + iterable + "@" + "\n" + PrintNodes(nodes);
    var q1 := 10 + |name| + |iterable|;
    ForLayout(src, name, iterable, nodes, q1);
    ForToEnd(src, q1, name, iterable, nodes);
  }

  /** A `@macro` body that runs to the end of the source:
      `match("@endmacro@")` fails at the end. */
  lemma {:induction false} MissingEndMacro(name: string, parameters: seq<string>, nodes: seq<Node>)
    requires IsWord(name) && PrintableNodes(nodes)
    requires forall i | 0 <= i < |parameters| :: IsWord(parameters[i]) && parameters[i] != []
    ensures var src := "@macro " + name + "(" + PrintParameters(parameters) + ")@" + "\n" + PrintNodes(nodes);
            Parse(src) == Err(Expected("@endmacro@", |src|))
  {
    var src := "@macro " + name + "(" + PrintParameters(parameters) + ")@" + "\n" + PrintNodes(nodes);
    var q1 := 10 + |name| + |PrintParameters(parameters)|;
    MacroLayout(src, name, parameters, nodes, q1);
    MacroToEnd(src, q1, name, parameters, nodes);
  }

  // ---- call_macro arguments

  /** A call whose arguments are written out as `list`, names possibly
      repeated, is read as the map that stores them one after another
      (`Assign`). */
  lemma {:induction false} CallAssignsInOrder(src: string, name: string, list: seq<(string, Arg)>)
    requires IsWord(name) && name != []
    requires forall i | 0 <= i < |list| :: IsWord(list[i].0) && PrintableArg(list[i].1)
    requires src == "{!" + name + PrintArguments(list) + "}"
    ensures Yields(ParseLookup(src, 0), Call(name, Assign(map[], list)), |src|)
  {
    var q := 2 + |name|;
    var end := q + |PrintArguments(list)|;
    assert src == ("{!" + name) + (PrintArguments(list) + "}");
    HasParts("{!" + name, PrintArguments(list) + "}");
    ArgumentsOpen(src, q, list);
    CallHead(src, 0, 1, 2, name, q);
    ArgumentsPrinted(src, q, list, map[], end);
    HasLast(src, q, PrintArguments(list), '}');
    CallRead(src, 0, 1, 2, name, q, ArgsStart(list, q), Assign(map[], list), end, end + 1);
  }

  /** Two arguments under the same name, printed one after the other. */
  lemma {:induction false} PrintTwoArguments(key: string, a: Arg, b: Arg)
    ensures PrintArguments([(key, a), (key, b)]) == " " + key + "=" + PrintArg(a) + (" " + key + "=" + PrintArg(b))
  {
    var list := [(key, a), (key, b)];
    assert list[1..] == [(key, b)] && list[1..][1..] == [];
    assert PrintArguments(list[1..]) == " " + key + "=" + PrintArg(b) + [];
  }

  /** Storing two values under the same name keeps the second. */
  lemma {:induction false} AssignTwice(key: string, a: Arg, b: Arg)
    ensures Assign(map[], [(key, a), (key, b)]) == map[key := b]
  {
    var list := [(key, a), (key, b)];
    assert list[1..] == [(key, b)] && list[1..][1..] == [];
    assert Assign(map[key := a][key := b], []) == map[key := a][key := b];
    assert Assign(map[key := a], [(key, b)]) == map[key := a][key := b];
    assert Assign(map[], list) == map[key := a][key := b];
    assert map[key := a][key := b] == map[key := b];
  }

  /** A name given twice keeps the later value: `args[arg] = ...`
      overwrites. */
  lemma {:induction false} RepeatedArgumentOverwrites(name: string, key: string, a: Arg, b: Arg)
    requires IsWord(name) && name != [] && IsWord(key)
    requires PrintableArg(a) && PrintableArg(b)
    ensures var src := "{!" + name + (" " + key + "=" + PrintArg(a)) + (" " + key + "=" + PrintArg(b)) + "}";
            Yields(ParseLookup(src, 0), Call(name, map[key := b]), |src|)
  {
    var src := "{!" + name + (" " + key + "=" + PrintArg(a)) + (" " + key + "=" + PrintArg(b)) + "}";
    var list := [(key, a), (key, b)];
    RepeatedText(src, name, key, a, b);
    AssignTwice(key, a, b);
    CallAssignsInOrder(src, name, list);
  }

  /** The two arguments as the printer writes a list of them. */
  lemma {:induction false} RepeatedText(src: string, name: string, key: string, a: Arg, b: Arg)
    requires src == "{!" + name + (" " + key + "=" + PrintArg(a)) + (" " + key + "=" + PrintArg(b)) + "}"
    ensures src == "{!" + name + PrintArguments([(key, a), (key, b)]) + "}"
  {
    PrintTwoArguments(key, a, b);
    var x, y := " " + key + "=" + PrintArg(a), " " + key + "=" + PrintArg(b);
    assert "{!" + name + x + y == "{!" + name + (x + y);
  }

  /** Where the pieces of `!name key=value,` sit. */
  lemma {:induction false} CommaChars(src: string, name: string, key: string, value: string, q: nat, k: nat, c: nat)
    requires Has(src, 0, "!" + name + " " + key + "=" + value + ",")
    requires IsWord(name) && name != [] && IsWord(key) && key != [] && IsWord(value) && value != []
    requires q == 1 + |name| && k == q + 1 + |key| && c == k + 1 + |value|
    ensures && c < |src| && src[0] == '!' && !IsWhitespace(src[1]) && Has(src, 1, name)
            && src[q] == ' ' && !IsWhitespace(src[q + 1]) && Has(src, q + 1, key)
            && src[k] == '=' && !IsWhitespace(src[k + 1]) && Has(src, k + 1, value)
            && src[c] == ','
  {
    assert "!" + name + " " + key + "=" + value + "," == ("!" + name) + (" " + key + "=" + value + ",");
    HasSplit(src, 0, "!" + name, " " + key + "=" + value + ",");
    HasSplit(src, 0, "!", name);
    HasFirst(src, 0, "!");
    HasCharAt(src, 1, name, 0);
    assert IsWordChar(name[0]);
    ArgumentText(src, q, q + 1, key, k, k + 1, value, ",", c);
    HasFirst(src, c, ",");
    HasCharAt(src, k + 1, value, 0);
    assert IsWordChar(value[0]);
  }

  /** The call up to the comma: `!name key=value` is read as far as the
      first argument, which ends on the comma. */
  lemma {:induction false} CommaHead(src: string, name: string, key: string, value: string, q: nat, k: nat, c: nat)
    requires IsWord(name) && name != [] && IsWord(key) && key != [] && IsWord(value) && value != []
    requires q == 1 + |name| && k == q + 1 + |key| && c == k + 1 + |value|
    requires && c < |src| && src[0] == '!' && !IsWhitespace(src[1]) && Has(src, 1, name)
             && src[q] == ' ' && !IsWhitespace(src[q + 1]) && Has(src, q + 1, key)
             && src[k] == '=' && !IsWhitespace(src[k + 1]) && Has(src, k + 1, value)
             && src[c] == ','
    ensures Match(src, 0, "!", false) == Ok(1) && EatWhitespace(src, 1) == Ok(1)
    ensures Word(src, 1) == Parsed(name, q) && EatWhitespace(src, q) == Ok(q + 1)
    ensures Yields(Argument(src, q + 1), (key, Deferred(value, [])), c)
  {
    MatchChar(src, 0, "!", 1);
    EatNothing(src, 1);
    WordAt(src, 1, name, q);
    SpaceAt(src, q, q + 1);
    CommaArgument(src, key, value, q + 1, k, c);
  }

  /** The argument `key=value` before the comma. */
  lemma {:induction false} CommaArgument(src: string, key: string, value: string, p: nat, k: nat, c: nat)
    requires IsWord(key) && IsWord(value) && value != []
    requires k == p + |key| && c == k + 1 + |value| && c < |src|
    requires Has(src, p, key) && src[k] == '=' && !IsWhitespace(src[k + 1]) && Has(src, k + 1, value)
    requires src[c] == ','
    ensures Yields(Argument(src, p), (key, Deferred(value, [])), c)
  {
    WordAt(src, p, key, k);
    EqualsAt(src, k, k + 1);
    DeferredPrinted(src, k + 1, value, c);
    EatNothing(src, c);
    ArgumentStep(src, p, key, k, k + 1, Deferred(value, []), c, c);
  }

  /** The argument loop on a comma: the argument name is empty and
      `match("=")` fails there. */
  lemma {:induction false} CommaStops(src: string, c: nat, acc: map<string, Arg>)
    requires c < |src| && src[c] == ','
    ensures Arguments(src, c, acc) == Err(Expected("=", c))
  {
    WordAt(src, c, "", c);
    EatNothing(src, c);
    assert Argument(src, c) == Err(Expected("=", c));
  }

  /** Arguments are separated by whitespace only: after `key=value` a
      comma is taken as the start of a nameless argument, and
      `match("=")` fails on the comma itself, whatever follows it. */
  lemma {:induction false} CommaRejected(src: string, name: string, key: string, value: string)
    requires IsWord(name) && name != [] && IsWord(key) && key != [] && IsWord(value) && value != []
    requires Has(src, 0, "!" + name + " " + key + "=" + value + ",")
    ensures ParseCall(src, 0) == Err(Expected("=", 3 + |name| + |key| + |value|))
  {
    var q := 1 + |name|;
    var k := q + 1 + |key|;
    var c := 3 + |name| + |key| + |value|;
    CommaLayout(src, name, key, value, q, k, c);
    CallStopsAt(src, name, q, (key, Deferred(value, [])), c);
  }

  /** `!name key=value,` read as far as the comma. */
  lemma {:induction false} CommaLayout(src: string, name: string, key: string, value: string, q: nat, k: nat, c: nat)
    requires Has(src, 0, "!" + name + " " + key + "=" + value + ",")
    requires IsWord(name) && name != [] && IsWord(key) && key != [] && IsWord(value) && value != []
    requires q == 1 + |name| && k == q + 1 + |key| && c == k + 1 + |value|
    ensures c < |src| && src[c] == ','
    ensures Match(src, 0, "!", false) == Ok(1) && EatWhitespace(src, 1) == Ok(1)
    ensures Word(src, 1) == Parsed(name, q) && EatWhitespace(src, q) == Ok(q + 1)
    ensures Yields(Argument(src, q + 1), (key, Deferred(value, [])), c)
  {
    CommaChars(src, name, key, value, q, k, c);
    CommaHead(src, name, key, value, q, k, c);
  }

  /** `call_macro` whose first argument ends on a comma fails there. */
  lemma {:induction false} CallStopsAt(src: string, name: string, q: nat, argument: (string, Arg), c: nat)
    requires c < |src| && src[c] == ',' && q + 1 <= |src|
    requires Match(src, 0, "!", false) == Ok(1) && EatWhitespace(src, 1) == Ok(1)
    requires Word(src, 1) == Parsed(name, q) && EatWhitespace(src, q) == Ok(q + 1)
    requires Yields(Argument(src, q + 1), argument, c)
    ensures ParseCall(src, 0) == Err(Expected("=", c))
  {
    CommaStops(src, c, map[argument.0 := argument.1]);
  }

  // ---- text

  /** Text the printer would have escaped is read as it stands: a `}`
      without a backslash is kept, and so is a backslash that does not
      come before `@`, `{` or `}`; the loop stops at the `@`, `{` or end
      that follows. */
  lemma {:induction false} TextVerbatim(src: string, pos: nat, s: string)
    requires pos + |s| <= |src| && src[pos..pos + |s|] == s
    requires pos + |s| == |src| || src[pos + |s|] == '@' || src[pos + |s|] == '{'
    requires forall i | 0 <= i < |s| :: s[i] != '@' && s[i] != '{'
    requires forall i | 0 <= i < |s| :: s[i] == '\\' ==> i + 1 < |s| && !IsEscapable(s[i + 1])
    ensures TextFrom(src, pos) == Parsed(s, pos + |s|)
    decreases |s|
  {
    if s != [] {
      assert src[pos] == s[0];
      if s[0] == '\\' {
        assert src[pos + 1] == s[1];
      }
      var t := s[1..];
      assert src[pos + 1..pos + 1 + |t|] == t;
      forall i | 0 <= i < |t|
        ensures t[i] == '\\' ==> i + 1 < |t| && !IsEscapable(t[i + 1])
      {
        assert t[i] == s[i + 1];
        if i + 1 < |t| { assert t[i + 1] == s[i + 2]; }
      }
      TextVerbatim(src, pos + 1, t);
      assert [s[0]] + t == s;
    }
  }

  /** An instance: in `a}\b@` the `}` and the backslash are both kept. */
  lemma {:induction false} TextVerbatimExample()
    ensures TextFrom("a}\\b@", 0) == Parsed("a}\\b", 4)
  {
    var src := "a}\\b@";
    assert src[0..4] == "a}\\b";
    TextVerbatim(src, 0, "a}\\b");
  }
}

=== FILE: parser.dfy ===
/** The recursive-descent grammar of ziggurat/parser.py on top of the
    cursor primitives.  Each production is a pure function from a source
    and a cursor position to the node it builds and the position after it,
    or the error it raises.  Termination follows from the cursor: every
    production that `BlockNodes` dispatches to consumes at least one
    character before it recurses. */
module Parser {
  import opened Results
  import opened Cursor
  import opened Ast

  type ParseResult<T> = Result<Parsed<T>, ParseError>

  /** The characters a backslash escapes in text. */
  predicate IsEscapable(c: char) {
    c == '@' || c == '{' || c == '}'
  }

  /** The trees the parser builds: bodies are blocks, blocks do not nest
      directly, every name is a `word`, every text node is non-empty and
      a deferred macro argument carries no transforms. */
  predicate Shaped(n: Node) {
    match n
    case Block(nodes) => forall i | 0 <= i < |nodes| :: !nodes[i].Block? && Shaped(nodes[i])
    case If(condition, consequence, alternative) =>
      && IsWord(condition)
      && consequence.Block? && Shaped(consequence)
      && alternative.Block? && Shaped(alternative)
    case For(name, iterable, body) => IsWord(name) && IsWord(iterable) && body.Block? && Shaped(body)
    case Include(source) => IsWord(source)
    case Macro(name, parameters, body) =>
      && IsWord(name)
      && (forall i | 0 <= i < |parameters| :: IsWord(parameters[i]))
      && body.Block? && Shaped(body)
    case Text(text) => text != []
    case Lookup(name, transforms) => IsWord(name) && forall i | 0 <= i < |transforms| :: IsWord(transforms[i])
    case Call(name, arguments) => IsWord(name) && ShapedArgs(arguments)
  }

  predicate ShapedArgs(arguments: map<string, Arg>) {
    forall k | k in arguments :: IsWord(k) && ShapedArg(arguments[k])
  }

  predicate ShapedArg(a: Arg) {
    a.Deferred? ==> IsWord(a.name) && a.transforms == []
  }

  /** A node that can stand in a block's child list. */
  predicate Child(n: Node) {
    !n.Block? && Shaped(n)
  }

  predicate Children(nodes: seq<Node>) {
    forall i | 0 <= i < |nodes| :: Child(nodes[i])
  }

  /** `parse`: the block at the start of the source.  The rest of the
      source after the block is not examined. */
  function Parse(src: string): (r: Result<Node, ParseError>)
    ensures r.Ok? ==> r.value.Block? && Shaped(r.value)
  {
    var nodes :- BlockNodes(src, 0);
    Ok(Block(nodes.value))
  }

  /** The loop of `block`: nodes are parsed until the end of the source or
      an `@` that starts none of the directives. */
  function BlockNodes(src: string, pos: nat): (r: ParseResult<seq<Node>>)
    requires pos <= |src|
    ensures r.Ok? ==> pos <= r.value.pos <= |src|
    ensures r.Ok? ==> r.value.pos == |src| || src[r.value.pos] == '@'
    ensures r.Ok? ==> Children(r.value.value)
    decreases |src| - pos, 9
  {
    if pos == |src| then
      Ok(Parsed([], pos))
    else
      var step :- BlockStep(src, pos);
      match step
      case None => Ok(Parsed([], pos))
      case Some(node) =>
        var rest :- BlockNodes(src, node.pos);
        Ok(Parsed([node.value] + rest.value, rest.pos))
  }

  /** One iteration of the `block` loop: the directive tests in priority
      order `@if ` > `@for ` > `@include ` > `@macro ` > `{` > text; None
      when the loop breaks on any other `@`.  Each test of the `elif`
      chain is one function. */
  function BlockStep(src: string, pos: nat): (r: Result<Option<Parsed<Node>>, ParseError>)
    requires pos < |src|
    ensures r.Ok? && r.value.Some? ==> pos < r.value.value.pos <= |src| && Child(r.value.value.value)
    ensures r.Ok? && r.value.None? ==> src[pos] == '@'
    decreases |src| - pos, 8
  {
    var isIf :- PeekMatch(src, pos, "@if ");
    if isIf then
      var n :- ParseIf(src, pos);
      Ok(Some(n))
    else
      StepFor(src, pos)
  }

  function StepFor(src: string, pos: nat): (r: Result<Option<Parsed<Node>>, ParseError>)
    requires pos < |src|
    ensures r.Ok? && r.value.Some? ==> pos < r.value.value.pos <= |src| && Child(r.value.value.value)
    ensures r.Ok? && r.value.None? ==> src[pos] == '@'
    decreases |src| - pos, 7
  {
    var isFor :- PeekMatch(src, pos, "@for ");
    if isFor then
      var n :- ParseFor(src, pos);
      Ok(Some(n))
    else
      StepInclude(src, pos)
  }

  function StepInclude(src: string, pos: nat): (r: Result<Option<Parsed<Node>>, ParseError>)
    requires pos < |src|
    ensures r.Ok? && r.value.Some? ==> pos < r.value.value.pos <= |src| && Child(r.value.value.value)
    ensures r.Ok? && r.value.None? ==> src[pos] == '@'
    decreases |src| - pos, 6
  {
    var isInclude :- PeekMatch(src, pos, "@include ");
    if isInclude then
      var n :- ParseInclude(src, pos);
      Ok(Some(n))
    else
      StepMacro(src, pos)
  }

  function StepMacro(src: string, pos: nat): (r: Result<Option<Parsed<Node>>, ParseError>)
    requires pos < |src|
    ensures r.Ok? && r.value.Some? ==> pos < r.value.value.pos <= |src| && Child(r.value.value.value)
    ensures r.Ok? && r.value.None? ==> src[pos] == '@'
    decreases |src| - pos, 5
  {
    var isMacro :- PeekMatch(src, pos, "@macro ");
    if isMacro then
      var n :- ParseMacro(src, pos);
      Ok(Some(n))
    else
      StepOther(src, pos)
  }

  /** The last two tests: a lookup or call at `{`, text at anything but `@`. */
  function StepOther(src: string, pos: nat): (r: Result<Option<Parsed<Node>>, ParseError>)
    requires pos < |src|
    ensures r.Ok? && r.value.Some? ==> pos < r.value.value.pos <= |src| && Child(r.value.value.value)
    ensures r.Ok? && r.value.None? ==> src[pos] == '@'
  {
    if src[pos] == '{' then
      var n :- ParseLookup(src, pos);
      Ok(Some(n))
    else if src[pos] != '@' then
      Ok(Some(ParseText(src, pos)))
    else
      Ok(None)
  }

  /** `if_stmt`: `@if word@ [nl] block [@else@ [nl] block] @endif@ [nl]`. */
  function ParseIf(src: string, pos: nat): (r: ParseResult<Node>)
    requires pos <= |src|
    ensures r.Ok? ==> pos < r.value.pos <= |src| && r.value.value.If? && Shaped(r.value.value)
    decreases |src| - pos, 0
  {
    var p1 :- Match(src, pos, "@if ", false);
    var condition :- TagWord(src, p1);
    var consequence :- BlockNodes(src, MaybeEatNewline(src, condition.pos));
    IfBranches(src, condition.value, consequence)
  }

  /** A word and the `@` that closes its tag, with whitespace allowed
      before the `@`: the condition of `if_stmt`, the iterable of
      `for_loop` and the name in `include`. */
  function TagWord(src: string, pos: nat): (r: ParseResult<string>)
    requires pos <= |src|
    ensures r.Ok? ==> pos < r.value.pos <= |src| && IsWord(r.value.value)
    ensures r.Ok? ==> r.value.value == Word(src, pos).value && src[r.value.pos - 1] == '@'
    ensures r.Ok? ==> Word(src, pos).pos < r.value.pos && AllWhitespace(src, Word(src, pos).pos, r.value.pos - 1)
  {
    var w := Word(src, pos);
    var p :- Match(src, w.pos, "@", true);
    Ok(Parsed(w.value, p))
  }

  /** `if_stmt` after the first branch: the optional `@else@` branch and
      the closing tag. */
  function IfBranches(src: string, condition: string, consequence: Parsed<seq<Node>>): (r: ParseResult<Node>)
    requires consequence.pos <= |src|
    ensures r.Ok? ==> consequence.pos < r.value.pos <= |src|
    ensures r.Ok? ==> r.value.value.If? && r.value.value.condition == condition
    ensures r.Ok? ==> r.value.value.consequence == Block(consequence.value)
    ensures r.Ok? ==> r.value.value.alternative.Block? && Children(r.value.value.alternative.nodes)
    decreases |src| - consequence.pos, 3
  {
    var hasElse :- PeekMatch(src, consequence.pos, "@else@");
    if hasElse then
      // cannot fail: `peek_match` has just seen `@else@`
      var p3 := Match(src, consequence.pos, "@else@", false).value;
      var alternative :- BlockNodes(src, MaybeEatNewline(src, p3));
      EndIf(src, condition, consequence.value, alternative)
    else
      EndIf(src, condition, consequence.value, Parsed([], consequence.pos))
  }

  /** The tail of `if_stmt`: `@endif@ [nl]` after the branches. */
  function EndIf(src: string, condition: string, consequence: seq<Node>, alternative: Parsed<seq<Node>>)
    : (r: ParseResult<Node>)
    requires alternative.pos <= |src|
    ensures r.Ok? ==> alternative.pos < r.value.pos <= |src|
    ensures r.Ok? ==> r.value.value == If(condition, Block(consequence), Block(alternative.value))
  {
    var p :- Match(src, alternative.pos, "@endif@", false);
    Ok(Parsed(If(condition, Block(consequence), Block(alternative.value)), MaybeEatNewline(src, p)))
  }

  /** `for_loop`: `@for word in word@ [nl] block @endfor@ [nl]`. */
  function ParseFor(src: string, pos: nat): (r: ParseResult<Node>)
    requires pos <= |src|
    ensures r.Ok? ==> pos < r.value.pos <= |src| && r.value.value.For? && Shaped(r.value.value)
    decreases |src| - pos, 0
  {
    var header :- ForHeader(src, pos);
    var body :- BlockNodes(src, MaybeEatNewline(src, header.pos));
    EndFor(src, header.value.0, header.value.1, body)
  }

  /** The closing tag of `for_stmt` and the newline it swallows. */
  function EndFor(src: string, name: string, iterable: string, body: Parsed<seq<Node>>)
    : (r: ParseResult<Node>)
    requires body.pos <= |src|
    ensures r.Ok? ==> body.pos < r.value.pos <= |src|
    ensures r.Ok? ==> r.value.value == For(name, iterable, Block(body.value))
    ensures r.Ok? && IsWord(name) && IsWord(iterable) && Children(body.value) ==> Shaped(r.value.value)
  {
    var p :- Match(src, body.pos, "@endfor@", false);
    Ok(Parsed(For(name, iterable, Block(body.value)), MaybeEatNewline(src, p)))
  }

  /** The opening tag of `for_stmt`, `@for word in word@`: the loop
      variable and the iterable. */
  function ForHeader(src: string, pos: nat): (r: ParseResult<(string, string)>)
    requires pos <= |src|
    ensures r.Ok? ==> pos < r.value.pos <= |src|
    ensures r.Ok? ==> IsWord(r.value.value.0)
    ensures r.Ok? ==> IsWord(r.value.value.1)
    ensures r.Ok? ==> PrefixAt(src, pos, "@for ") && r.value.value.0 == Word(src, pos + 5).value
    ensures r.Ok? ==> src[r.value.pos - 1] == '@'
  {
    var p1 :- Match(src, pos, "@for ", false);
    ForClause(src, p1)
  }

  /** `word in word@`, the rest of the opening tag of `for_loop`. */
  function ForClause(src: string, pos: nat): (r: ParseResult<(string, string)>)
    requires pos <= |src|
    ensures r.Ok? ==> pos < r.value.pos <= |src|
    ensures r.Ok? ==> IsWord(r.value.value.0)
    ensures r.Ok? ==> IsWord(r.value.value.1)
    ensures r.Ok? ==> r.value.value.0 == Word(src, pos).value && src[r.value.pos - 1] == '@'
    ensures r.Ok? ==> Match(src, Word(src, pos).pos, "in", true).Ok?
  {
    var name := Word(src, pos);
    var p2 :- Match(src, name.pos, "in", true);
    var p3 :- EatWhitespace(src, p2);
    var iterable :- TagWord(src, p3);
    Ok(Parsed((name.value, iterable.value), iterable.pos))
  }

  /** `include`: `@include word@`; no newline is swallowed after it. */
  function ParseInclude(src: string, pos: nat): (r: ParseResult<Node>)
    requires pos <= |src|
    ensures r.Ok? ==> pos < r.value.pos <= |src| && r.value.value.Include? && Shaped(r.value.value)
  {
    var p1 :- Match(src, pos, "@include ", false);
    var source :- TagWord(src, p1);
    Ok(Parsed(Include(source.value), source.pos))
  }

  /** `macro`: `@macro word(params)@ [nl] block @endmacro@`; no newline is
      swallowed after `@endmacro@`. */
  function ParseMacro(src: string, pos: nat): (r: ParseResult<Node>)
    requires pos <= |src|
    ensures r.Ok? ==> pos < r.value.pos <= |src| && r.value.value.Macro? && Shaped(r.value.value)
    decreases |src| - pos, 0
  {
    var header :- MacroHeader(src, pos);
    var body :- BlockNodes(src, MaybeEatNewline(src, header.pos));
    var p6 :- Match(src, body.pos, "@endmacro@", false);
    Ok(Parsed(Macro(header.value.0, header.value.1, Block(body.value)), p6))
  }

  /** The opening tag of `macro`, `@macro word(params)@`: the name and
      the parameters. */
  function MacroHeader(src: string, pos: nat): (r: ParseResult<(string, seq<string>)>)
    requires pos <= |src|
    ensures r.Ok? ==> pos < r.value.pos <= |src| && IsWord(r.value.value.0)
    ensures r.Ok? ==> forall i | 0 <= i < |r.value.value.1| :: IsWord(r.value.value.1[i])
  {
    var p1 :- Match(src, pos, "@macro ", false);
    MacroSignature(src, p1)
  }

  /** `word(params)@`, the rest of the opening tag of `macro`. */
  function MacroSignature(src: string, pos: nat): (r: ParseResult<(string, seq<string>)>)
    requires pos <= |src|
    ensures r.Ok? ==> pos < r.value.pos <= |src| && IsWord(r.value.value.0)
    ensures r.Ok? ==> forall i | 0 <= i < |r.value.value.1| :: IsWord(r.value.value.1[i])
  {
    var name := Word(src, pos);
    var p2 :- Match(src, name.pos, "(", true);
    var parameters :- ParameterList(src, p2);
    Ok(Parsed((name.value, parameters.value), parameters.pos))
  }

  /** `params)@`: the parameters, the closing parenthesis and the `@`. */
  function ParameterList(src: string, pos: nat): (r: ParseResult<seq<string>>)
    requires pos <= |src|
    ensures r.Ok? ==> pos < r.value.pos <= |src|
    ensures r.Ok? ==> forall i | 0 <= i < |r.value.value| :: IsWord(r.value.value[i])
  {
    var parameters :- Parameters(src, pos);
    var p4 :- Match(src, parameters.pos, ")", false);
    var p5 :- Match(src, p4, "@", true);
    Ok(Parsed(parameters.value, p5))
  }

  /** The parameter list of `macro` after `(`: a first word and, only when
      it is non-empty, the comma-separated rest. */
  function Parameters(src: string, pos: nat): (r: ParseResult<seq<string>>)
    requires pos <= |src|
    ensures r.Ok? ==> pos <= r.value.pos <= |src|
    ensures r.Ok? ==> forall i | 0 <= i < |r.value.value| :: IsWord(r.value.value[i])
  {
    var first := Word(src, pos);
    var p :- EatWhitespace(src, first.pos);
    if first.value != [] then
      var more :- MoreParameters(src, p);
      Ok(Parsed([first.value] + more.value, more.pos))
    else
      Ok(Parsed([], p))
  }

  /** The parameter loop of `macro`: `(, word)*`, whitespace around each. */
  function MoreParameters(src: string, pos: nat): (r: ParseResult<seq<string>>)
    requires pos <= |src|
    ensures r.Ok? ==> pos <= r.value.pos <= |src|
    ensures r.Ok? ==> forall i | 0 <= i < |r.value.value| :: IsWord(r.value.value[i])
    ensures r.Ok? && r.value.value == [] ==> r.value.pos == pos
    decreases |src| - pos
  {
    if pos < |src| && src[pos] == ',' then
      var p1 :- EatWhitespace(src, pos + 1);
      var parameter := Word(src, p1);
      var p2 :- EatWhitespace(src, parameter.pos);
      var rest :- MoreParameters(src, p2);
      Ok(Parsed([parameter.value] + rest.value, rest.pos))
    else
      Ok(Parsed([], pos))
  }

  /** `lookup`: `{word (| word)*}`, or a macro call when `!` follows `{`. */
  function ParseLookup(src: string, pos: nat): (r: ParseResult<Node>)
    requires pos <= |src|
    ensures r.Ok? ==> pos < r.value.pos <= |src| && (r.value.value.Lookup? || r.value.value.Call?)
    ensures r.Ok? ==> Shaped(r.value.value)
    ensures r.Ok? ==> src[pos] == '{' && EatWhitespace(src, pos + 1).Ok?
    ensures r.Ok? ==> (r.value.value.Call? <==> src[EatWhitespace(src, pos + 1).value] == '!')
  {
    var p1 :- Match(src, pos, "{", false);
    var p2 :- EatWhitespace(src, p1);
    if src[p2] == '!' then
      ParseCall(src, p2)
    else
      var name := Word(src, p2);
      var p3 :- EatWhitespace(src, name.pos);
      var transforms :- Transforms(src, p3);
      var p4 :- Match(src, transforms.pos, "}", false);
      Ok(Parsed(Lookup(name.value, transforms.value), p4))
  }

  /** The transform loop of `lookup`: `(| word)*`, whitespace around each. */
  function Transforms(src: string, pos: nat): (r: ParseResult<seq<string>>)
    requires pos <= |src|
    ensures r.Ok? ==> pos <= r.value.pos <= |src|
    ensures r.Ok? ==> forall i | 0 <= i < |r.value.value| :: IsWord(r.value.value[i])
    decreases |src| - pos
  {
    if pos < |src| && src[pos] == '|' then
      var p1 :- EatWhitespace(src, pos + 1);
      var transform := Word(src, p1);
      var p2 :- EatWhitespace(src, transform.pos);
      var rest :- Transforms(src, p2);
      Ok(Parsed([transform.value] + rest.value, rest.pos))
    else
      Ok(Parsed([], pos))
  }

  /** `call_macro`: `!word (word = ("literal" | 'literal' | word))* }`.
      Arguments are separated by whitespace only. */
  function ParseCall(src: string, pos: nat): (r: ParseResult<Node>)
    requires pos <= |src|
    ensures r.Ok? ==> pos < r.value.pos <= |src| && r.value.value.Call? && Shaped(r.value.value)
  {
    var p1 :- Match(src, pos, "!", false);
    var p2 :- EatWhitespace(src, p1);
    var name := Word(src, p2);
    var p3 :- EatWhitespace(src, name.pos);
    var arguments :- Arguments(src, p3, map[]);
    var p4 :- Match(src, arguments.pos, "}", false);
    Ok(Parsed(Call(name.value, arguments.value), p4))
  }

  /** The argument loop of `call_macro`, adding to `acc`: a later argument
      with the same name overwrites an earlier one. */
  function Arguments(src: string, pos: nat, acc: map<string, Arg>): (r: ParseResult<map<string, Arg>>)
    requires pos <= |src|
    ensures r.Ok? ==> pos <= r.value.pos <= |src|
    ensures r.Ok? && ShapedArgs(acc) ==> ShapedArgs(r.value.value)
    ensures r.Ok? ==> r.value.pos == |src| || src[r.value.pos] == '}'
    decreases |src| - pos
  {
    if pos < |src| && src[pos] != '}' then
      var argument :- Argument(src, pos);
      var acc' := acc[argument.value.0 := argument.value.1];
      assert ShapedArgs(acc) ==> ShapedArgs(acc');
      Arguments(src, argument.pos, acc')
    else
      Ok(Parsed(acc, pos))
  }

  /** One pass of the argument loop: `word = value` and the whitespace
      after it. */
  function Argument(src: string, pos: nat): (r: ParseResult<(string, Arg)>)
    requires pos <= |src|
    ensures r.Ok? ==> pos < r.value.pos <= |src| && IsWord(r.value.value.0) && ShapedArg(r.value.value.1)
  {
    var key := Word(src, pos);
    var p1 :- EatWhitespace(src, key.pos);
    var p2 :- Match(src, p1, "=", false);
    var p3 :- EatWhitespace(src, p2);
    var value :- ArgumentValue(src, p3);
    var p4 :- EatWhitespace(src, value.pos);
    Ok(Parsed((key.value, value.value), p4))
  }

  /** The value of one macro argument: a quoted literal when the cursor is
      on a quote, otherwise a word taken as a deferred lookup. */
  function ArgumentValue(src: string, pos: nat): (r: ParseResult<Arg>)
    requires pos < |src|
    ensures r.Ok? ==> pos <= r.value.pos <= |src| && ShapedArg(r.value.value)
    ensures r.Ok? ==> r.value.value.Literal? <==> src[pos] == '"' || src[pos] == '\''
  {
    if src[pos] == '"' || src[pos] == '\'' then
      var literal :- StringLiteral(src, pos);
      Ok(Parsed(Literal(literal.value), literal.pos))
    else
      var word := Word(src, pos);
      Ok(Parsed(Deferred(word.value, []), word.pos))
  }

  /** The loop of `text` from `pos`: stops at `@`, `{` or the end; a
      backslash before `@`, `{` or `}` is dropped and the next character
      kept; any other backslash is kept. */
  function TextFrom(src: string, pos: nat): (r: Parsed<string>)
    requires pos <= |src|
    ensures pos <= r.pos <= |src|
    ensures r.pos == |src| || src[r.pos] == '@' || src[r.pos] == '{'
    ensures |r.value| <= r.pos - pos
    ensures pos < |src| && src[pos] != '@' && src[pos] != '{' ==> pos < r.pos && r.value != []
    decreases |src| - pos
  {
    if pos == |src| || src[pos] == '@' || src[pos] == '{' then
      Parsed([], pos)
    else if src[pos] == '\\' && pos + 1 < |src| && IsEscapable(src[pos + 1]) then
      var rest := TextFrom(src, pos + 2);
      Parsed([src[pos + 1]] + rest.value, rest.pos)
    else
      var rest := TextFrom(src, pos + 1);
      Parsed([src[pos]] + rest.value, rest.pos)
  }

  /** `text` */
  function ParseText(src: string, pos: nat): (r: Parsed<Node>)
    requires pos <= |src|
    ensures pos <= r.pos <= |src| && r.value.Text?
    ensures pos < |src| && src[pos] != '@' && src[pos] != '{' ==> pos < r.pos && Shaped(r.value)
  {
    var text := TextFrom(src, pos);
    Parsed(Text(text.value), text.pos)
  }
}

=== FILE: printer.dfy ===
/** A printer from syntax trees back to template source, the inverse the
    parser is checked against: `Parse(Print(t)) == Ok(t)` for every tree
    the printer can express (see `RoundTrip`).  It writes the directive
    syntax of ziggurat/parser.py with the least whitespace the grammar
    accepts and one newline after each tag that swallows one. */
module Printer {
  import opened Cursor
  import opened Ast
  import opened Parser

  /** Text as template source: a backslash before each `@`, `{` and `}`. */
  function Escape(s: string): (e: string)
    ensures |e| >= |s|
    ensures s != [] ==> e != [] && !IsEscapable(e[0])
  {
    if s == [] then []
    else (if IsEscapable(s[0]) then ['\\', s[0]] else [s[0]]) + Escape(s[1..])
  }

  /** The trees the printer expresses without loss.  Beyond what the
      parser builds: adjacent text nodes would be read back as one, a
      trailing backslash would escape the next `@` or `{`, a call needs a
      name so its first argument is not read as the name, a deferred
      argument needs a name so the next argument is not read as its value,
      a literal cannot hold both quote characters, and every macro
      parameter is non-empty. */
  predicate PrintableNodes(nodes: seq<Node>) {
    && (forall i | 0 <= i < |nodes| :: PrintableChild(nodes[i]))
    && (forall i | 0 <= i < |nodes| - 1 :: !(nodes[i].Text? && nodes[i + 1].Text?))
  }

  predicate PrintableChild(n: Node) {
    match n
    case Block(_) => false
    case If(condition, consequence, alternative) =>
      && IsWord(condition)
      && consequence.Block? && PrintableNodes(consequence.nodes)
      && alternative.Block? && PrintableNodes(alternative.nodes)
    case For(name, iterable, body) =>
      IsWord(name) && IsWord(iterable) && body.Block? && PrintableNodes(body.nodes)
    case Include(source) => IsWord(source)
    case Macro(name, parameters, body) =>
      && IsWord(name)
      && (forall i | 0 <= i < |parameters| :: IsWord(parameters[i]) && parameters[i] != [])
      && body.Block? && PrintableNodes(body.nodes)
    case Text(text) => text != [] && text[|text| - 1] != '\\'
    case Lookup(name, transforms) => IsWord(name) && forall i | 0 <= i < |transforms| :: IsWord(transforms[i])
    case Call(name, arguments) =>
      IsWord(name) && name != [] && forall k | k in arguments :: IsWord(k) && PrintableArg(arguments[k])
  }

  predicate PrintableArg(a: Arg) {
    match a
    case Literal(text) => !('"' in text && '\'' in text)
    case Deferred(name, transforms) => IsWord(name) && name != [] && transforms == []
  }

  /** The quote character a literal argument is printed with. */
  function QuoteFor(text: string): char {
    if '"' in text then '\'' else '"'
  }

  ghost function Print(n: Node): string
    decreases n, 1
  {
    match n
    case Block(nodes) => PrintNodes(nodes)
    case If(condition, consequence, alternative) =>
      "@if " + condition + "@\n" + Print(consequence) + PrintElse(alternative) + "@endif@\n"
    case For(name, iterable, body) =>
      "@for " + name + " in " + iterable + "@\n" + Print(body) + "@endfor@\n"
    case Include(source) => "@include " + source + "@"
    case Macro(name, parameters, body) =>
      "@macro " + name + "(" + PrintParameters(parameters) + ")@\n" + Print(body) + "@endmacro@"
    case Text(text) => Escape(text)
    case Lookup(name, transforms) => "{" + name + PrintTransforms(transforms) + "}"
    case Call(name, arguments) => "{!" + name + PrintArguments(ArgumentList(arguments)) + "}"
  }

  /** The `@else@` branch; none when the alternative is the empty block. */
  ghost function PrintElse(alternative: Node): string
    decreases alternative, 2
  {
    if alternative == EmptyBlock then [] else "@else@\n" + Print(alternative)
  }

  ghost function PrintNodes(nodes: seq<Node>): string
    decreases nodes, 0
  {
    if nodes == [] then [] else Print(nodes[0]) + PrintNodes(nodes[1..])
  }

  function PrintTransforms(transforms: seq<string>): string {
    if transforms == [] then [] else "|" + transforms[0] + PrintTransforms(transforms[1..])
  }

  function PrintParameters(parameters: seq<string>): string {
    if parameters == [] then [] else parameters[0] + PrintMoreParameters(parameters[1..])
  }

  function PrintMoreParameters(parameters: seq<string>): string {
    if parameters == [] then [] else ", " + parameters[0] + PrintMoreParameters(parameters[1..])
  }

  function PrintArg(a: Arg): string {
    match a
    case Literal(text) => [QuoteFor(text)] + text + [QuoteFor(text)]
    case Deferred(name, _) => name
  }

  /** The arguments of a call in the order they are printed: a map has
      no order of its own, so the printer picks one. */
  ghost function ArgumentList(arguments: map<string, Arg>): (list: seq<(string, Arg)>)
    ensures forall i | 0 <= i < |list| :: list[i].0 in arguments && arguments[list[i].0] == list[i].1
    decreases |arguments|
  {
    if arguments == map[] then []
    else
      var k := FirstKey(arguments);
      [(k, arguments[k])] + ArgumentList(arguments - {k})
  }

  /** Each argument as ` name=value`. */
  function PrintArguments(list: seq<(string, Arg)>): string {
    if list == [] then [] else " " + list[0].0 + "=" + PrintArg(list[0].1) + PrintArguments(list[1..])
  }

  /** The key `ArgumentList` puts first. */
  ghost function FirstKey(arguments: map<string, Arg>): (k: string)
    requires arguments != map[]
    ensures k in arguments
  {
    var k :| k in arguments; k
  }
}

=== FILE: renderer.dfy ===
/** The tree-walking evaluator of ziggurat/visitor.py, class `Renderer`.

    `Render` follows `accept`/`visit_*` dispatch: one case per node kind.
    The Python renderer appends to `self.result` and mutates
    `self.context` in place; here each call returns the text it appends
    and the context as it leaves it.  Anything the Python code raises
    becomes an `Err`. */
module Renderer {
  import opened Results
  import opened Ast
  import opened Values

  /** The exceptions raised while rendering, by kind. */
  datatype RenderError =
    | KeyError(key: string)           // a context or dict key, or a filter name, is missing
    | AttributeError(name: string)    // `getattr` failed, or a `visit_*`/node field does not exist
    | NotIterable                     // TypeError from `for i in value`
    | NoBasePath                      // ValueError: `@include@` without a base path
    | IncludeFailed(path: string)     // the included template could not be loaded or rendered

  /** What the renderer is constructed with, besides the context.
      `filters` maps a name to a string function (`upper`, `lower`, ...);
      `repr` is Python's `str` of a list, dict or object; `load`
      stands for loading and rendering another template against the
      context: it receives the base path and the included name. */
  datatype Env = Env(
    filters: map<string, string -> string>,
    base: Option<string>,
    repr: Value -> string,
    load: (string, string, Context) -> Result<string, RenderError>)

  /** The text a node appends to `result` and the context after it. */
  datatype Rendered = Rendered(output: string, context: Context)

  /** One step of a dotted lookup: a key of a dict, else an attribute. */
  function Descend(v: Value, part: string): (r: Result<Value, RenderError>)
    ensures v.Dict? ==> (r.Ok? <==> DictGet(v.entries, part).Some?)
    ensures v.Dict? && r.Ok? ==> r.value == DictGet(v.entries, part).value
    ensures v.Dict? && r.Err? ==> r.error == KeyError(part)
    ensures v.Object? ==> (r.Ok? <==> part in v.attributes)
    ensures v.Object? && r.Ok? ==> r.value == v.attributes[part]
    ensures !v.Dict? && r.Err? ==> r.error == AttributeError(part)
    ensures !v.Dict? && !v.Object? ==> r.Err?
  {
    match v
    case Dict(entries) =>
      (match DictGet(entries, part)
       case Some(x) => Ok(x)
       case None => Err(KeyError(part)))
    case Object(attributes) =>
      if part in attributes then Ok(attributes[part]) else Err(AttributeError(part))
    case _ => Err(AttributeError(part))
  }

  /** The lookup loop after its first step, from left to right. */
  function Walk(v: Value, parts: seq<string>): (r: Result<Value, RenderError>)
    decreases |parts|
  {
    if parts == [] then Ok(v)
    else
      var next :- Descend(v, parts[0]);
      Walk(next, parts[1..])
  }

  /** How `visit_lookup` and `visit_if` find the value of a name: a name
      without dots is a context key; a dotted name is split on `.` and
      resolved from the context one part at a time. */
  function Resolve(ctx: Context, name: string): (r: Result<Value, RenderError>)
    ensures '.' !in name ==> (r.Ok? <==> name in ctx)
    ensures '.' !in name && r.Ok? ==> r.value == ctx[name]
    ensures '.' !in name && r.Err? ==> r.error == KeyError(name)
  {
    SplitWithoutSep(name, '.');
    var parts := Split(name, '.');
    if |parts| == 1 then
      if name in ctx then Ok(ctx[name]) else Err(KeyError(name))
    else
      if parts[0] in ctx then Walk(ctx[parts[0]], parts[1..]) else Err(KeyError(parts[0]))
  }

  /** Applies the named filters to `s`, first to last.  An unknown name
      raises KeyError (`self.filters[name]`). */
  function ApplyTransforms(filters: map<string, string -> string>, transforms: seq<string>, s: string)
    : (r: Result<string, RenderError>)
    ensures r.Ok? <==> forall i | 0 <= i < |transforms| :: transforms[i] in filters
    ensures r.Err? ==> r.error.KeyError? && r.error.key in transforms && r.error.key !in filters
    ensures transforms == [] ==> r == Ok(s)
    decreases |transforms|
  {
    if transforms == [] then Ok(s)
    else if transforms[0] !in filters then Err(KeyError(transforms[0]))
    else
      var r := ApplyTransforms(filters, transforms[1..], filters[transforms[0]](s));
      assert forall i | 1 <= i < |transforms| :: transforms[i] == transforms[1..][i - 1];
      assert r.Err? ==> r.error.key in transforms by {
        if r.Err? {
          var j :| 0 <= j < |transforms[1..]| && transforms[1..][j] == r.error.key;
          assert transforms[j + 1] == r.error.key;
        }
      }
      r
  }

  /** `visit_lookup` with the lookup's transforms applied in order to the
      value converted with `str` (strings are kept as they are). */
  function RenderLookup(env: Env, name: string, transforms: seq<string>, ctx: Context): (r: Result<string, RenderError>)
    ensures Resolve(ctx, name).Err? ==> r == Err(Resolve(ctx, name).error)
    ensures Resolve(ctx, name).Ok? && transforms == [] ==> r == Ok(ToStr(Resolve(ctx, name).value, env.repr))
    ensures Resolve(ctx, name).Ok? ==> (r.Ok? <==> forall i | 0 <= i < |transforms| :: transforms[i] in env.filters)
  {
    var value :- Resolve(ctx, name);
    ApplyTransforms(env.filters, transforms, ToStr(value, env.repr))
  }

  /** `visit_lookup` as the source writes it: after resolving and
      converting the value it reads `node.filter`, a field `ast.Lookup`
      does not have, so every lookup that resolves raises AttributeError. */
  function RenderLookupAsWritten(env: Env, name: string, ctx: Context): (r: Result<string, RenderError>)
    ensures r.Err?
    ensures Resolve(ctx, name).Ok? ==> r.error == AttributeError("filter")
  {
    var value :- Resolve(ctx, name);
    var text := ToStr(value, env.repr);
    Err(AttributeError("filter"))
  }

  /** The end of `visit_for`: put back the previous binding if it is
      truthy, otherwise delete the loop variable. */
  function Restore(ctx: Context, name: string, previous: Value): (r: Context)
    ensures name in r <==> Truthy(previous)
    ensures name in r ==> r[name] == previous
    ensures forall k | k != name :: (k in r <==> k in ctx) && (k in r ==> r[k] == ctx[k])
  {
    if Truthy(previous) then ctx[name := previous] else ctx - {name}
  }

  /** `after` is `before` with some keys deleted, each of them one of
      `names` bound to a falsy value; nothing is added or changed. */
  predicate OnlyDropsFalsy(before: Context, after: Context, names: set<string>) {
    && after.Keys <= before.Keys
    && (forall k | k in after :: after[k] == before[k])
    && (forall k | k in before && k !in after :: k in names && !Truthy(before[k]))
  }

  /** `OnlyDropsFalsy` for every key other than `name`. */
  predicate OnlyDropsFalsyExcept(before: Context, after: Context, names: set<string>, name: string) {
    && (forall k | k in after && k != name :: k in before && after[k] == before[k])
    && (forall k | k in before && k !in after && k != name :: k in names && !Truthy(before[k]))
  }

  lemma OnlyDropsFalsyTrans(a: Context, b: Context, c: Context, n1: set<string>, n2: set<string>)
    requires OnlyDropsFalsy(a, b, n1) && OnlyDropsFalsy(b, c, n2)
    ensures OnlyDropsFalsy(a, c, n1 + n2)
  {
  }

  /** The renderer: one case per `visit_*` method.  A render leaves the
      context as it found it except that a loop variable whose previous
      value was falsy may have been deleted.  A `Lookup` is rendered as
      intended (`RenderLookup`: transforms applied in order), not as
      `visit_lookup` is written (`RenderLookupAsWritten`, which always
      fails once the name resolves). */
  function Render(env: Env, n: Node, ctx: Context): (r: Result<Rendered, RenderError>)
    ensures r.Ok? ==> OnlyDropsFalsy(ctx, r.value.context, ForNames(n))
    decreases n, 0
  {
    match n
    case Block(nodes) => RenderNodes(env, nodes, ctx)
    case Text(text) => Ok(Rendered(text, ctx))
    case Lookup(name, transforms) =>
      var text :- RenderLookup(env, name, transforms, ctx);
      Ok(Rendered(text, ctx))
    case If(condition, consequence, alternative) =>
      var value :- Resolve(ctx, condition);
      if Truthy(value) then Render(env, consequence, ctx) else Render(env, alternative, ctx)
    case For(name, iterable, body) =>
      if iterable !in ctx then Err(KeyError(iterable))
      else
        var previous := if name in ctx then ctx[name] else NoneValue;
        (match Iterate(ctx[iterable])
         case None => Err(NotIterable)
         case Some(items) =>
           var looped :- RenderLoop(env, name, items, body, ctx);
           Ok(Rendered(looped.output, Restore(looped.context, name, previous))))
    case Include(source) =>
      if env.base.None? then Err(NoBasePath)
      else
        var text :- env.load(env.base.value, source, ctx);
        Ok(Rendered(text, ctx))
    case Macro(_, _, _) => Err(AttributeError("visit_macro"))
    case Call(_, _) => Err(AttributeError("visit_call"))
  }

  /** `visit_block`: the children in order, each seeing the context the
      previous one left; the outputs are concatenated. */
  function RenderNodes(env: Env, nodes: seq<Node>, ctx: Context): (r: Result<Rendered, RenderError>)
    ensures r.Ok? ==> OnlyDropsFalsy(ctx, r.value.context, ForNamesOf(nodes))
    decreases nodes, 0
  {
    if nodes == [] then Ok(Rendered("", ctx))
    else
      var first :- Render(env, nodes[0], ctx);
      var rest :- RenderNodes(env, nodes[1..], first.context);
      OnlyDropsFalsyTrans(ctx, first.context, rest.context, ForNames(nodes[0]), ForNamesOf(nodes[1..]));
      Ok(Rendered(first.output + rest.output, rest.context))
  }

  /** The loop of `visit_for`: bind each item under `name`, render the
      body, concatenate the outputs. */
  function RenderLoop(env: Env, name: string, items: seq<Value>, body: Node, ctx: Context)
    : (r: Result<Rendered, RenderError>)
    ensures r.Ok? ==> OnlyDropsFalsyExcept(ctx, r.value.context, ForNames(body), name)
    ensures r.Ok? && items == [] ==> r.value == Rendered("", ctx)
    decreases body, |items| + 1
  {
    if items == [] then Ok(Rendered("", ctx))
    else
      var once :- Render(env, body, ctx[name := items[0]]);
      var rest :- RenderLoop(env, name, items[1..], body, once.context);
      Ok(Rendered(once.output + rest.output, rest.context))
  }
}

=== FILE: renderfacts.dfy ===
/** Properties of the renderer of ziggurat/visitor.py, stated against
    definitions independent of `Render`: how block outputs compose, how a
    dotted name resolves one part at a time, how a transform chain folds,
    and what a loop whose body binds no loop variable produces. */
module RenderFacts {
  import opened Results
  import opened Ast
  import opened Values
  import opened Renderer

  /** The value of `previous` in `visit_for`: `self.context.get(name)`. */
  function Previous(ctx: Context, name: string): Value {
    if name in ctx then ctx[name] else NoneValue
  }

  /** Binding a key twice keeps the second binding only. */
  lemma {:induction false} RebindTwice<K, V>(m: map<K, V>, k: K, a: V, b: V)
    ensures m[k := a][k := b] == m[k := b]
  {
  }

  /** Deleting a key forgets what it was bound to. */
  lemma {:induction false} RebindDelete<K, V>(m: map<K, V>, k: K, a: V)
    ensures m[k := a] - {k} == m - {k}
  {
  }

  /** A render that may delete only loop variables, with no loop
      variables, changes nothing. */
  lemma {:induction false} NothingDropped(before: Context, after: Context)
    requires OnlyDropsFalsy(before, after, {})
    ensures after == before
  {
    assert after.Keys == before.Keys;
  }

  // ---- Blocks

  /** `visit_block` over two runs of children: the second run starts from
      the context the first left, and the outputs are concatenated. */
  lemma {:induction false} RenderNodesAppend(env: Env, a: seq<Node>, b: seq<Node>, ctx: Context)
    ensures RenderNodes(env, a + b, ctx) ==
      (match RenderNodes(env, a, ctx)
       case Err(e) => Err(e)
       case Ok(x) =>
         (match RenderNodes(env, b, x.context)
          case Err(e) => Err(e)
          case Ok(y) => Ok(Rendered(x.output + y.output, y.context))))
    decreases |a|
  {
    if a == [] {
      assert a + b == b;
      var y := RenderNodes(env, b, ctx);
      if y.Ok? {
        assert "" + y.value.output == y.value.output;
      }
    } else {
      assert (a + b)[0] == a[0];
      assert (a + b)[1..] == a[1..] + b;
      var first := Render(env, a[0], ctx);
      if first.Ok? {
        RenderNodesAppend(env, a[1..], b, first.value.context);
        var rest := RenderNodes(env, a[1..], first.value.context);
        if rest.Ok? {
          var y := RenderNodes(env, b, rest.value.context);
          if y.Ok? {
            assert first.value.output + (rest.value.output + y.value.output)
                == (first.value.output + rest.value.output) + y.value.output;
          }
        }
      }
    }
  }

  /** `visit_text` appends the text as it is and touches nothing else: a
      text node at the end of a block extends the block's output by
      exactly its text. */
  lemma {:induction false} TextAppendsVerbatim(env: Env, nodes: seq<Node>, text: string, ctx: Context)
    ensures RenderNodes(env, nodes + [Text(text)], ctx) ==
      (match RenderNodes(env, nodes, ctx)
       case Err(e) => Err(e)
       case Ok(x) => Ok(Rendered(x.output + text, x.context)))
  {
    RenderNodesAppend(env, nodes, [Text(text)], ctx);
    var x := RenderNodes(env, nodes, ctx);
    if x.Ok? {
      assert [Text(text)][1..] == [];
      assert RenderNodes(env, [Text(text)], x.value.context) == Ok(Rendered(text + "", x.value.context));
      assert text + "" == text;
    }
  }

  // ---- If

  /** `visit_if`: the condition is resolved as a lookup (dotted names
      included); a resolution error is the render's error, otherwise the
      consequence is rendered when the value is truthy and the alternative
      when it is not, in the same context.  On a plain name the error is
      KeyError exactly when the name is unbound. */
  lemma {:induction false} IfSelectsBranch(env: Env, condition: string, consequence: Node, alternative: Node, ctx: Context)
    ensures Resolve(ctx, condition).Err? ==>
      Render(env, If(condition, consequence, alternative), ctx) == Err(Resolve(ctx, condition).error)
    ensures Resolve(ctx, condition).Ok? && Truthy(Resolve(ctx, condition).value) ==>
      Render(env, If(condition, consequence, alternative), ctx) == Render(env, consequence, ctx)
    ensures Resolve(ctx, condition).Ok? && !Truthy(Resolve(ctx, condition).value) ==>
      Render(env, If(condition, consequence, alternative), ctx) == Render(env, alternative, ctx)
    ensures '.' !in condition && condition !in ctx ==>
      Render(env, If(condition, consequence, alternative), ctx) == Err(KeyError(condition))
  {
  }

  // ---- Include

  /** `visit_include` raises ValueError whenever the renderer has no
      base path, whatever is being included. */
  lemma {:induction false} IncludeNeedsBase(env: Env, source: string, ctx: Context)
    requires env.base.None?
    ensures Render(env, Include(source), ctx) == Err(NoBasePath)
  {
  }

  // ---- Dotted names

  lemma {:induction false} AppendAssoc<T>(x: seq<T>, y: seq<T>, z: seq<T>)
    ensures x + (y + z) == (x + y) + z
  {
  }

  /** Replacing the first element of `r` before appending `t` */
  lemma {:induction false} ConsFirst<T>(h: T, r: seq<T>, t: seq<T>)
    requires |r| >= 1
    ensures (r + t)[0] == r[0]
    ensures [h] + (r + t)[1..] == ([h] + r[1..]) + t
  {
    assert (r + t)[1..] == r[1..] + t;
  }

  /** One step of `str.split`: the first character either ends the first
      part or is prepended to it. */
  lemma {:induction false} SplitCons(c: char, t: string, sep: char)
    ensures Split([c] + t, sep) ==
      if c == sep then [""] + Split(t, sep)
      else [[c] + Split(t, sep)[0]] + Split(t, sep)[1..]
  {
    assert ([c] + t)[0] == c && ([c] + t)[1..] == t;
  }

  /** `str.split` of two strings joined by the separator is the split of
      each, one after the other. */
  lemma {:induction false} SplitAppend(a: string, b: string, sep: char)
    ensures Split(a + [sep] + b, sep) == Split(a, sep) + Split(b, sep)
    decreases |a|
  {
    if a == [] {
      assert a + [sep] + b == [sep] + b;
      SplitCons(sep, b, sep);
      assert Split(a, sep) == [""];
    } else {
      var c, a' := a[0], a[1..];
      assert a == [c] + a';
      assert a + [sep] + b == [c] + (a' + [sep] + b);
      SplitAppend(a', b, sep);
      SplitCons(c, a' + [sep] + b, sep);
      SplitCons(c, a', sep);
      var rest, tail := Split(a', sep), Split(b, sep);
      if c == sep {
        AppendAssoc([""], rest, tail);
      } else {
        ConsFirst([c] + rest[0], rest, tail);
      }
    }
  }

  /** The lookup loop over two runs of parts: the second run continues
      from the value the first reached, and the first error stops it. */
  lemma {:induction false} WalkAppend(v: Value, p: seq<string>, q: seq<string>)
    ensures Walk(v, p + q) ==
      (match Walk(v, p)
       case Err(e) => Err(e)
       case Ok(w) => Walk(w, q))
    decreases |p|
  {
    if p == [] {
      assert p + q == q;
    } else {
      assert (p + q)[0] == p[0];
      assert (p + q)[1..] == p[1..] + q;
      var next := Descend(v, p[0]);
      if next.Ok? {
        WalkAppend(next.value, p[1..], q);
      }
    }
  }

  /** A dotted name `a.b` resolves as `a` does and then walks the parts
      of `b` from the value found: the loop in `visit_lookup` and
      `visit_if` is a left fold of `Descend` over the parts. */
  lemma {:induction false} ResolveDotted(ctx: Context, a: string, b: string)
    ensures Resolve(ctx, a + "." + b) ==
      (match Resolve(ctx, a)
       case Err(e) => Err(e)
       case Ok(v) => Walk(v, Split(b, '.')))
  {
    var name := a + "." + b;
    SplitAppend(a, b, '.');
    var pa, pb := Split(a, '.'), Split(b, '.');
    var parts := Split(name, '.');
    assert parts == pa + pb;
    assert parts[0] == pa[0];
    if |pa| == 1 {
      SplitJoin(a, '.');
      assert a == pa[0];
      assert parts[1..] == pb;
    } else {
      assert parts[1..] == pa[1..] + pb;
      if pa[0] in ctx {
        WalkAppend(ctx[pa[0]], pa[1..], pb);
      }
    }
  }

  /** One more part, without a dot: a dict key or else an attribute of
      the value `a` resolves to. */
  lemma {:induction false} ResolveChild(ctx: Context, a: string, b: string)
    requires '.' !in b
    ensures Resolve(ctx, a + "." + b) ==
      (match Resolve(ctx, a)
       case Err(e) => Err(e)
       case Ok(v) => Descend(v, b))
  {
    ResolveDotted(ctx, a, b);
    SplitWithoutSep(b, '.');
    var v := Resolve(ctx, a);
    if v.Ok? {
      var next := Descend(v.value, b);
      if next.Ok? {
        assert [b][1..] == [];
      }
    }
  }

  /** `foo.bar` against `{"foo": {"bar": "baz"}}` is "baz". */
  lemma {:induction false} DottedDictExample(env: Env)
    ensures RenderLookup(env, "foo.bar", [], map["foo" := Dict([("bar", Str("baz"))])]) == Ok("baz")
  {
    var v := Dict([("bar", Str("baz"))]);
    var ctx: Context := map["foo" := v];
    assert "foo.bar" == "foo" + "." + "bar";
    assert '.' !in "foo" && '.' !in "bar";
    assert Resolve(ctx, "foo") == Ok(v);
    assert DictGet(v.entries, "bar") == Some(Str("baz"));
    ResolveChild(ctx, "foo", "bar");
    assert Resolve(ctx, "foo.bar") == Ok(Str("baz"));
  }

  /** `str(42)` is "42". */
  lemma {:induction false} FortyTwo(repr: Value -> string)
    ensures ToStr(Int(42), repr) == "42"
  {
    assert 42 / 10 == 4 && 42 % 10 == 2;
    assert DigitChar(4) == '4' && DigitChar(2) == '2';
    assert NatToString(4) == ['4'];
    assert NatToString(42) == ['4'] + ['2'];
  }

  /** `foo.bar` against an object whose attribute `bar` is 42 is "42". */
  lemma {:induction false} DottedObjectExample(env: Env)
    ensures RenderLookup(env, "foo.bar", [], map["foo" := Object(map["bar" := Int(42)])]) == Ok("42")
  {
    var v := Object(map["bar" := Int(42)]);
    var ctx: Context := map["foo" := v];
    assert "foo.bar" == "foo" + "." + "bar";
    assert '.' !in "foo" && '.' !in "bar";
    assert Resolve(ctx, "foo") == Ok(v);
    ResolveChild(ctx, "foo", "bar");
    assert Resolve(ctx, "foo.bar") == Ok(Int(42));
    FortyTwo(env.repr);
  }

  // ---- Transforms

  /** Reference meaning of a transform chain, folded from its last name:
      the last filter is applied to what all the others made of `s`. */
  function Chain(filters: map<string, string -> string>, transforms: seq<string>, s: string): string
    requires forall i | 0 <= i < |transforms| :: transforms[i] in filters
    decreases |transforms|
  {
    if transforms == [] then s
    else filters[transforms[|transforms| - 1]](Chain(filters, transforms[..|transforms| - 1], s))
  }

  /** A chain of transforms split in two: the second part is applied to
      the result of the first, and the first unknown name is reported. */
  lemma {:induction false} TransformsAppend(filters: map<string, string -> string>, a: seq<string>, b: seq<string>, s: string)
    ensures ApplyTransforms(filters, a + b, s) ==
      (match ApplyTransforms(filters, a, s)
       case Err(e) => Err(e)
       case Ok(t) => ApplyTransforms(filters, b, t))
    decreases |a|
  {
    if a == [] {
      assert a + b == b;
    } else {
      assert (a + b)[0] == a[0];
      assert (a + b)[1..] == a[1..] + b;
      if a[0] in filters {
        TransformsAppend(filters, a[1..], b, filters[a[0]](s));
      }
    }
  }

  /** When every name is a known filter, the transforms of a lookup
      compute the chain: each filter applied to the previous one's
      result, first to last. */
  lemma {:induction false} TransformsChain(filters: map<string, string -> string>, transforms: seq<string>, s: string)
    requires forall i | 0 <= i < |transforms| :: transforms[i] in filters
    ensures ApplyTransforms(filters, transforms, s) == Ok(Chain(filters, transforms, s))
    decreases |transforms|
  {
    if transforms != [] {
      var n := |transforms| - 1;
      var init, last := transforms[..n], transforms[n];
      assert transforms == init + [last];
      TransformsChain(filters, init, s);
      TransformsAppend(filters, init, [last], s);
      assert [last][1..] == [];
    }
  }

  /** ASCII case mapping, standing for `str.upper` and `str.lower` on
      ASCII text. */
  function UpperChar(c: char): char {
    if 'a' <= c <= 'z' then (c as int - 32) as char else c
  }

  function LowerChar(c: char): char {
    if 'A' <= c <= 'Z' then (c as int + 32) as char else c
  }

  function Upper(s: string): (r: string)
    ensures |r| == |s| && forall i | 0 <= i < |s| :: r[i] == UpperChar(s[i])
  {
    seq(|s|, i requires 0 <= i < |s| => UpperChar(s[i]))
  }

  function Lower(s: string): (r: string)
    ensures |r| == |s| && forall i | 0 <= i < |s| :: r[i] == LowerChar(s[i])
  {
    seq(|s|, i requires 0 <= i < |s| => LowerChar(s[i]))
  }

  /** `{foo|upper|lower}` with `foo` bound to "BaR" renders "bar": the
      transforms run in the order written. */
  lemma {:induction false} UpperThenLower(env: Env)
    requires env.filters == map["upper" := Upper, "lower" := Lower]
    ensures RenderLookup(env, "foo", ["upper", "lower"], map["foo" := Str("BaR")]) == Ok("bar")
  {
    TransformsChain(env.filters, ["upper", "lower"], "BaR");
    assert ["upper", "lower"][..1] == ["upper"];
    assert ["upper"][..0] == [];
    assert Upper("BaR") == "BAR";
    assert Lower("BAR") == "bar";
  }

  // ---- For

  /** The loop of `visit_for` over `a + b`, for any body: the items of
      `b` are rendered from the context the items of `a` left, and the
      outputs are concatenated in item order. */
  lemma {:induction false} RenderLoopAppend(env: Env, name: string, a: seq<Value>, b: seq<Value>, body: Node, ctx: Context)
    ensures RenderLoop(env, name, a + b, body, ctx) ==
      (match RenderLoop(env, name, a, body, ctx)
       case Err(e) => Err(e)
       case Ok(x) =>
         (match RenderLoop(env, name, b, body, x.context)
          case Err(e) => Err(e)
          case Ok(y) => Ok(Rendered(x.output + y.output, y.context))))
    decreases |a|
  {
    if a == [] {
      assert a + b == b;
      var y := RenderLoop(env, name, b, body, ctx);
      if y.Ok? {
        assert "" + y.value.output == y.value.output;
      }
    } else {
      assert (a + b)[0] == a[0];
      assert (a + b)[1..] == a[1..] + b;
      var once := Render(env, body, ctx[name := a[0]]);
      if once.Ok? {
        RenderLoopAppend(env, name, a[1..], b, body, once.value.context);
        var rest := RenderLoop(env, name, a[1..], body, once.value.context);
        if rest.Ok? {
          var y := RenderLoop(env, name, b, body, rest.value.context);
          if y.Ok? {
            assert once.value.output + (rest.value.output + y.value.output)
                == (once.value.output + rest.value.output) + y.value.output;
          }
        }
      }
    }
  }

  /** One pass of the loop, for any body: the body rendered once with
      the variable bound to the item. */
  lemma {:induction false} RenderLoopOne(env: Env, name: string, item: Value, body: Node, ctx: Context)
    ensures RenderLoop(env, name, [item], body, ctx) == Render(env, body, ctx[name := item])
  {
    var once := Render(env, body, ctx[name := item]);
    assert [item][1..] == [];
    if once.Ok? {
      assert once.value.output + "" == once.value.output;
    }
  }

  /** Reference meaning of a loop whose body binds no loop variable: the
      body rendered once per item, each time in the context the loop
      started from with the variable bound to that item, outputs
      concatenated; the first failing item's error. */
  function EachItem(env: Env, name: string, items: seq<Value>, body: Node, ctx: Context): Result<string, RenderError>
    decreases |items|
  {
    if items == [] then Ok("")
    else
      var once :- Render(env, body, ctx[name := items[0]]);
      var rest :- EachItem(env, name, items[1..], body, ctx);
      Ok(once.output + rest)
  }

  /** `EachItem` reads the starting context only with `name` rebound, so
      the starting value of `name` does not matter. */
  lemma {:induction false} EachItemRebind(env: Env, name: string, items: seq<Value>, body: Node, ctx: Context, v: Value)
    ensures EachItem(env, name, items, body, ctx[name := v]) == EachItem(env, name, items, body, ctx)
    decreases |items|
  {
    if items != [] {
      RebindTwice(ctx, name, v, items[0]);
      EachItemRebind(env, name, items[1..], body, ctx, v);
    }
  }

  /** The loop of `visit_for` when the body binds no loop variable: the
      output is `EachItem`'s, and the context afterwards is the starting
      one with the variable bound to the last item. */
  lemma {:induction false} LoopWithoutNesting(env: Env, name: string, items: seq<Value>, body: Node, ctx: Context)
    requires ForNames(body) == {}
    ensures RenderLoop(env, name, items, body, ctx) ==
      (match EachItem(env, name, items, body, ctx)
       case Err(e) => Err(e)
       case Ok(out) => Ok(Rendered(out, if items == [] then ctx else ctx[name := items[|items| - 1]])))
    decreases |items|
  {
    if items != [] {
      var bound := ctx[name := items[0]];
      var once := Render(env, body, bound);
      if once.Ok? {
        NothingDropped(bound, once.value.context);
        LoopWithoutNesting(env, name, items[1..], body, bound);
        EachItemRebind(env, name, items[1..], body, ctx, items[0]);
        if items[1..] != [] {
          assert items[1..][|items[1..]| - 1] == items[|items| - 1];
          RebindTwice(ctx, name, items[0], items[|items| - 1]);
        }
      }
    }
  }

  /** A `Restore` does not depend on what the loop left in the variable. */
  lemma {:induction false} RestoreRebind(ctx: Context, name: string, v: Value, previous: Value)
    ensures Restore(ctx[name := v], name, previous) == Restore(ctx, name, previous)
  {
    RebindTwice(ctx, name, v, previous);
    RebindDelete(ctx, name, v);
  }

  /** `visit_for` with a body that binds no loop variable: the output is
      the body rendered with each item bound in turn, and the context
      afterwards is exactly the starting one with the previous binding
      restored when truthy and the variable deleted otherwise. */
  lemma {:induction false} ForWithoutNesting(env: Env, name: string, iterable: string, body: Node, ctx: Context, items: seq<Value>)
    requires ForNames(body) == {}
    requires iterable in ctx && Iterate(ctx[iterable]) == Some(items)
    ensures Render(env, For(name, iterable, body), ctx) ==
      (match EachItem(env, name, items, body, ctx)
       case Err(e) => Err(e)
       case Ok(out) => Ok(Rendered(out, Restore(ctx, name, Previous(ctx, name)))))
  {
    LoopWithoutNesting(env, name, items, body, ctx);
    if items != [] {
      RestoreRebind(ctx, name, items[|items| - 1], Previous(ctx, name));
    }
  }

  /** Whatever the body, a loop that completes leaves its variable bound
      to the previous value when that was truthy and unbound otherwise. */
  lemma {:induction false} ForRestoresVariable(env: Env, name: string, iterable: string, body: Node, ctx: Context)
    requires Render(env, For(name, iterable, body), ctx).Ok?
    ensures var after := Render(env, For(name, iterable, body), ctx).value.context;
            && (name in after <==> Truthy(Previous(ctx, name)))
            && (name in after ==> after[name] == Previous(ctx, name))
  {
  }

  /** A loop over an empty list renders nothing and leaves the context
      as it was. */
  lemma {:induction false} ForEmptyExample(env: Env, body: Node)
    ensures Render(env, For("item", "list", body), map["list" := List([])]) == Ok(Rendered("", map["list" := List([])]))
  {
    var ctx: Context := map["list" := List([])];
    assert Restore(ctx, "item", NoneValue) == ctx;
  }

  /** `visit_for` reads the iterable as `self.context[node.iterator]`:
      a plain key, never a dotted path, so an unbound key raises KeyError;
      a bound value that cannot be iterated raises TypeError. */
  lemma {:induction false} ForErrors(env: Env, name: string, iterable: string, body: Node, ctx: Context)
    ensures iterable !in ctx ==> Render(env, For(name, iterable, body), ctx) == Err(KeyError(iterable))
    ensures iterable in ctx && Iterate(ctx[iterable]).None? ==>
      Render(env, For(name, iterable, body), ctx) == Err(NotIterable)
  {
  }

  /** A dotted iterable is not walked: `a.b` is a missing key even when
      `a` is a dict holding `b`. */
  lemma {:induction false} ForDottedExample(env: Env, body: Node)
    ensures Resolve(map["a" := Dict([("b", List([Int(1)]))])], "a.b") == Ok(List([Int(1)]))
    ensures Render(env, For("x", "a.b", body), map["a" := Dict([("b", List([Int(1)]))])]) == Err(KeyError("a.b"))
  {
    var ctx: Context := map["a" := Dict([("b", List([Int(1)]))])];
    ResolveChild(ctx, "a", "b");
    assert "a" + "." + "b" == "a.b";
  }

  // ---- Lookup (see the finding on `visit_lookup`)

  /** Every lookup of a bound plain name fails as the source is written,
      and renders the bound value's text once the transforms are used. */
  lemma {:induction false} LookupAsWrittenFails(env: Env, name: string, ctx: Context)
    requires '.' !in name && name in ctx
    ensures RenderLookupAsWritten(env, name, ctx) == Err(AttributeError("filter"))
    ensures RenderLookup(env, name, [], ctx) == Ok(ToStr(ctx[name], env.repr))
  {
  }

  /** `{foo}` with `foo` bound to "bar": the corrected lookup renders
      "bar", the lookup as written raises AttributeError. */
  lemma {:induction false} LookupExample(env: Env)
    ensures RenderLookupAsWritten(env, "foo", map["foo" := Str("bar")]) == Err(AttributeError("filter"))
    ensures Render(env, Lookup("foo", []), map["foo" := Str("bar")]) == Ok(Rendered("bar", map["foo" := Str("bar")]))
  {
  }
}

=== FILE: results.dfy ===
/** Failure-compatible wrappers shared by the parser and the renderer.
    The template engine signals every failure by raising an exception; the
    model returns an `Err` carrying the kind of the exception instead. */
module Results {

  /** A value that may be absent, like Python's `Optional[...]` (None). */
  datatype Option<+T> = None | Some(value: T)

  /** Either a value or the error the engine would have raised.
      Usable with `:-`, which propagates the first error. */
  datatype Result<+T, +E> = Ok(value: T) | Err(error: E) {

    predicate IsFailure() {
      Err?
    }

    function PropagateFailure<U>(): Result<U, E>
      requires Err?
    {
      Err(error)
    }

    function Extract(): T
      requires Ok?
    {
      value
    }
  }
}

=== FILE: roundtrip.dfy ===
/** The parser reads back what the printer writes: for every printable
    block, `Parse(PrintNodes(nodes)) == Ok(Block(nodes))`.  The proof walks
    the grammar production by production; each lemma says where in the
    source a printed fragment sits and what follows it, and concludes what
    the production returns there. */
module RoundTrip {
  import opened Results
  import opened Cursor
  import opened Ast
  import opened Parser
  import opened Printer

  /** `x` occurs in `src` at `pos`.  The same as `PrefixAt`, stated one
      character at a time so that the solver unfolds it only on demand. */
  predicate Has(src: string, pos: nat, x: string)
    ensures Has(src, pos, x) ==> pos + |x| <= |src|
    decreases |x|
  {
    if x == [] then pos <= |src|
    else pos < |src| && src[pos] == x[0] && Has(src, pos + 1, x[1..])
  }

  lemma {:induction false} HasSplit(src: string, pos: nat, x: string, y: string)
    requires Has(src, pos, x + y)
    ensures Has(src, pos, x) && Has(src, pos + |x|, y)
    decreases |x|
  {
    if x == [] {
      assert x + y == y;
    } else {
      assert (x + y)[0] == x[0] && (x + y)[1..] == x[1..] + y;
      HasSplit(src, pos + 1, x[1..], y);
    }
  }

  lemma {:induction false} HasFirst(src: string, pos: nat, x: string)
    requires Has(src, pos, x) && x != []
    ensures pos < |src| && src[pos] == x[0]
  {
  }

  lemma {:induction false} HasLast(src: string, pos: nat, x: string, c: char)
    requires Has(src, pos, x + [c])
    ensures pos + |x| < |src| && src[pos + |x|] == c
  {
    HasSplit(src, pos, x, [c]);
  }

  lemma {:induction false} HasCharAt(src: string, pos: nat, x: string, i: nat)
    requires Has(src, pos, x) && i < |x|
    ensures pos + i < |src| && src[pos + i] == x[i]
    decreases i
  {
    if i > 0 {
      HasCharAt(src, pos + 1, x[1..], i - 1);
    }
  }

  lemma {:induction false} HasPrefixAt(src: string, pos: nat, x: string)
    ensures Has(src, pos, x) <==> PrefixAt(src, pos, x)
    decreases |x|
  {
    if x != [] {
      HasPrefixAt(src, pos + 1, x[1..]);
      if PrefixAt(src, pos, x) {
        assert forall i | 0 <= i < |x[1..]| :: src[pos + 1 + i] == x[1..][i] by {
          forall i | 0 <= i < |x[1..]| ensures src[pos + 1 + i] == x[1..][i] {
            assert src[pos + (i + 1)] == x[i + 1];
          }
        }
      }
      if Has(src, pos, x) {
        forall i | 0 <= i < |x| ensures src[pos + i] == x[i] {
          if i > 0 { assert src[pos + 1 + (i - 1)] == x[1..][i - 1]; }
        }
      }
    }
  }

  /** The production succeeded with `value`, leaving the cursor at `pos`. */
  predicate Yields<T(==)>(r: ParseResult<T>, value: T, pos: nat) {
    r.Ok? && r.value == Parsed(value, pos)
  }

  /** Text that does not end in a backslash is read back from its escaped
      form, up to the next `@`, `{` or the end. */
  lemma {:induction false} TextFromEscape(src: string, pos: nat, s: string, end: nat)
    requires Has(src, pos, Escape(s)) && end == pos + |Escape(s)|
    requires s == [] || s[|s| - 1] != '\\'
    requires end == |src| || src[end] == '@' || src[end] == '{'
    ensures TextFrom(src, pos) == Parsed(s, end)
    decreases |s|
  {
    if s != [] {
      var c, tail := s[0], s[1..];
      var head: string := if IsEscapable(c) then ['\\', c] else [c];
      var next := pos + |head|;
      assert Escape(s) == head + Escape(tail);
      HasSplit(src, pos, head, Escape(tail));
      assert tail == [] || tail[|tail| - 1] == s[|s| - 1];
      TextFromEscape(src, next, tail, end);
      if IsEscapable(c) {
        HasCharAt(src, pos, head, 0);
        HasCharAt(src, pos, head, 1);
        TextEscapeStep(src, pos, c, next, TextFrom(src, next));
      } else {
        HasFirst(src, pos, head);
        if c == '\\' {
          HasFirst(src, next, Escape(tail));
        }
        TextPlainStep(src, pos, c, next, TextFrom(src, next));
      }
      assert [c] + tail == s;
    }
  }

  /** One escaped character of text: a backslash and an escapable character. */
  lemma {:induction false} TextEscapeStep(src: string, pos: nat, c: char, next: nat, rest: Parsed<string>)
    requires next == pos + 2 && next <= |src| && src[pos] == '\\' && src[pos + 1] == c && IsEscapable(c)
    requires TextFrom(src, next) == rest
    ensures TextFrom(src, pos) == Parsed([c] + rest.value, rest.pos)
  {
  }

  /** One character of text taken as it is. */
  lemma {:induction false} TextPlainStep(src: string, pos: nat, c: char, next: nat, rest: Parsed<string>)
    requires next == pos + 1 && pos < |src| && src[pos] == c && c != '@' && c != '{'
    requires c == '\\' ==> next < |src| && !IsEscapable(src[next])
    requires TextFrom(src, next) == rest
    ensures TextFrom(src, pos) == Parsed([c] + rest.value, rest.pos)
  {
  }

  /** Three pieces printed one after another. */
  lemma {:induction false} HasThree(src: string, pos: nat, a: string, b: string, c: string)
    requires Has(src, pos, a + b + c)
    ensures Has(src, pos, a) && Has(src, pos + |a|, b) && Has(src, pos + |a| + |b|, c)
  {
    HasSplit(src, pos, a + b, c);
    HasSplit(src, pos, a, b);
  }

  /** A word followed by a character that cannot continue it is read whole. */
  lemma {:induction false} WordAt(src: string, pos: nat, w: string, end: nat)
    requires Has(src, pos, w) && IsWord(w) && end == pos + |w|
    requires end == |src| || !IsWordChar(src[end])
    ensures Word(src, pos) == Parsed(w, end)
  {
    HasPrefixAt(src, pos, w);
    forall i | pos <= i < end ensures IsWordChar(src[i]) {
      assert src[pos + (i - pos)] == w[i - pos];
    }
    var r := Word(src, pos);
    assert src[pos..r.pos] == w;
  }

  lemma {:induction false} TagWordStep(src: string, pos: nat, w: string, q: nat, end: nat)
    requires pos <= |src| && Word(src, pos) == Parsed(w, q)
    requires Match(src, q, "@", true) == Ok(end)
    ensures Yields(TagWord(src, pos), w, end)
  {
  }

  /** A word printed before the `@` that closes its tag. */
  lemma {:induction false} TagWordPrinted(src: string, pos: nat, w: string, end: nat)
    requires IsWord(w) && Has(src, pos, w + "@") && end == pos + |w| + 1
    ensures Yields(TagWord(src, pos), w, end)
  {
    var q := pos + |w|;
    HasLast(src, pos, w, '@');
    HasSplit(src, pos, w, "@");
    WordAt(src, pos, w, q);
    MatchChar(src, q, "@", end);
    TagWordStep(src, pos, w, q, end);
  }

  /** A cursor on a character other than whitespace stays where it is. */
  lemma {:induction false} EatNothing(src: string, pos: nat)
    requires pos < |src| && !IsWhitespace(src[pos])
    ensures EatWhitespace(src, pos) == Ok(pos)
  {
  }

  /** Tokens that occur under the cursor are matched. */
  lemma {:induction false} MatchAt(src: string, pos: nat, tokens: string, end: nat)
    requires PrefixAt(src, pos, tokens) && end == pos + |tokens|
    ensures Match(src, pos, tokens, false) == Ok(end)
  {
  }

  /** A one-character token under the cursor is matched. */
  lemma {:induction false} MatchChar(src: string, pos: nat, token: string, end: nat)
    requires |token| == 1 && pos < |src| && src[pos] == token[0] && end == pos + 1
    ensures Match(src, pos, token, false) == Ok(end)
    ensures !IsWhitespace(token[0]) ==> Match(src, pos, token, true) == Ok(end)
  {
    assert src[pos + 0] == token[0];
    assert PrefixAt(src, pos, token);
  }

  lemma {:induction false} TransformsStep(src: string, pos: nat, p1: nat, t: string, q: nat, rest: seq<string>, end: nat)
    requires pos < |src| && src[pos] == '|'
    requires EatWhitespace(src, pos + 1) == Ok(p1)
    requires Word(src, p1) == Parsed(t, q)
    requires EatWhitespace(src, q) == Ok(q)
    requires Yields(Transforms(src, q), rest, end)
    ensures Yields(Transforms(src, pos), [t] + rest, end)
  {
  }

  /** `|name` followed by the rest of printed transforms. */
  lemma {:induction false} TransformAt(src: string, pos: nat, p1: nat, t: string, q: nat, more: string)
    requires IsWord(t) && Has(src, pos, "|" + t + more) && p1 == pos + 1 && q == p1 + |t|
    requires more != [] && (more[0] == '|' || more[0] == '}')
    ensures pos < |src| && src[pos] == '|'
    ensures EatWhitespace(src, p1) == Ok(p1)
    ensures Word(src, p1) == Parsed(t, q)
    ensures EatWhitespace(src, q) == Ok(q)
    ensures Has(src, q, more)
  {
    TransformLayout(src, pos, p1, t, q, more);
    EatNothing(src, p1);
    WordAt(src, p1, t, q);
    EatNothing(src, q);
  }

  lemma {:induction false} TransformLayout(src: string, pos: nat, p1: nat, t: string, q: nat, more: string)
    requires IsWord(t) && Has(src, pos, "|" + t + more) && p1 == pos + 1 && q == p1 + |t|
    requires more != [] && (more[0] == '|' || more[0] == '}')
    ensures pos < |src| && src[pos] == '|' && Has(src, p1, t) && Has(src, q, more)
    ensures p1 < |src| && !IsWhitespace(src[p1])
    ensures q < |src| && !IsWordChar(src[q]) && !IsWhitespace(src[q])
  {
    HasSplit(src, pos, "|" + t, more);
    HasSplit(src, pos, "|", t);
    HasCharAt(src, q, more, 0);
    if t != [] {
      HasCharAt(src, p1, t, 0);
      assert IsWordChar(t[0]);
    }
  }

  lemma {:induction false} TransformsPrinted(src: string, pos: nat, transforms: seq<string>, end: nat)
    requires forall i | 0 <= i < |transforms| :: IsWord(transforms[i])
    requires Has(src, pos, PrintTransforms(transforms) + "}") && end == pos + |PrintTransforms(transforms)|
    ensures Yields(Transforms(src, pos), transforms, end)
    decreases |transforms|
  {
    if transforms == [] {
      assert PrintTransforms(transforms) + "}" == "}";
    } else {
      var t, rest := transforms[0], transforms[1..];
      var more := PrintTransforms(rest) + "}";
      assert PrintTransforms(transforms) + "}" == "|" + t + more;
      assert more[0] == '|' || more[0] == '}';
      var p1 := pos + 1;
      var q := p1 + |t|;
      TransformAt(src, pos, p1, t, q, more);
      TransformsPrinted(src, q, rest, end);
      TransformsStep(src, pos, p1, t, q, rest, end);
      assert [t] + rest == transforms;
    }
  }

  lemma {:induction false} LookupStep(src: string, pos: nat, p1: nat, name: string, q: nat, transforms: seq<string>, end: nat, last: nat)
    requires pos <= |src| && Match(src, pos, "{", false) == Ok(p1)
    requires EatWhitespace(src, p1) == Ok(p1) && src[p1] != '!'
    requires Word(src, p1) == Parsed(name, q)
    requires EatWhitespace(src, q) == Ok(q)
    requires Yields(Transforms(src, q), transforms, end)
    requires end <= |src| && Match(src, end, "}", false) == Ok(last)
    ensures Yields(ParseLookup(src, pos), Lookup(name, transforms), last)
  {
  }

  /** The fixed tokens of a lookup, each matched where it is printed. */
  lemma {:induction false} LookupTokens(src: string, pos: nat, p1: nat, q: nat, end: nat, last: nat)
    requires p1 == pos + 1 && last == end + 1
    requires p1 < |src| && src[pos] == '{' && !IsWhitespace(src[p1])
    requires q < |src| && !IsWhitespace(src[q])
    requires end < |src| && src[end] == '}'
    ensures Match(src, pos, "{", false) == Ok(p1)
    ensures EatWhitespace(src, p1) == Ok(p1)
    ensures EatWhitespace(src, q) == Ok(q)
    ensures Match(src, end, "}", false) == Ok(last)
  {
    MatchChar(src, pos, "{", p1);
    EatNothing(src, p1);
    EatNothing(src, q);
    MatchChar(src, end, "}", last);
  }

  /** The opening of a printed lookup: `{` and the name. */
  lemma {:induction false} LookupHead(src: string, pos: nat, p1: nat, name: string, q: nat)
    requires IsWord(name) && Has(src, pos, "{" + name) && p1 == pos + 1 && q == p1 + |name|
    requires q < |src| && (src[q] == '|' || src[q] == '}')
    ensures p1 < |src| && src[pos] == '{' && src[p1] != '!' && !IsWhitespace(src[p1])
    ensures Word(src, p1) == Parsed(name, q)
  {
    HasSplit(src, pos, "{", name);
    if name != [] { HasCharAt(src, p1, name, 0); }
    WordAt(src, p1, name, q);
  }

  /** The transforms of a printed lookup and the closing `}`. */
  lemma {:induction false} LookupTail(src: string, q: nat, transforms: seq<string>, end: nat)
    requires forall i | 0 <= i < |transforms| :: IsWord(transforms[i])
    requires Has(src, q, PrintTransforms(transforms) + "}") && end == q + |PrintTransforms(transforms)|
    ensures Yields(Transforms(src, q), transforms, end)
    ensures end < |src| && src[end] == '}'
  {
    TransformsPrinted(src, q, transforms, end);
    HasLast(src, q, PrintTransforms(transforms), '}');
  }

  /** Printed transforms and the closing brace start with `|` or `}`. */
  lemma {:induction false} TransformsOpen(src: string, q: nat, transforms: seq<string>)
    requires Has(src, q, PrintTransforms(transforms) + "}")
    ensures q < |src| && (src[q] == '|' || src[q] == '}')
  {
    HasCharAt(src, q, PrintTransforms(transforms) + "}", 0);
  }

  lemma {:induction false} LookupPrinted(src: string, pos: nat, name: string, transforms: seq<string>, last: nat)
    requires PrintableChild(Lookup(name, transforms))
    requires Has(src, pos, Print(Lookup(name, transforms))) && last == pos + |Print(Lookup(name, transforms))|
    ensures Yields(ParseLookup(src, pos), Lookup(name, transforms), last)
  {
    var tail := PrintTransforms(transforms) + "}";
    assert Print(Lookup(name, transforms)) == ("{" + name) + tail;
    HasSplit(src, pos, "{" + name, tail);
    var p1 := pos + 1;
    var q := p1 + |name|;
    var end := q + |PrintTransforms(transforms)|;
    LookupTail(src, q, transforms, end);
    TransformsOpen(src, q, transforms);
    LookupHead(src, pos, p1, name, q);
    LookupTokens(src, pos, p1, q, end, last);
    LookupStep(src, pos, p1, name, q, transforms, end, last);
  }

  /** One iteration of the block loop produced `n` and moved to `pos`. */
  predicate StepYields(r: Result<Option<Parsed<Node>>, ParseError>, n: Node, pos: nat) {
    r.Ok? && r.value == Some(Parsed(n, pos))
  }

  /** `peek_match` answers false when the source differs from `tokens`
      before either runs out. */
  lemma {:induction false} PeekMiss(src: string, pos: nat, tokens: string, m: nat)
    requires AgreeAt(src, pos, tokens, m) && m < |tokens| && pos + m < |src| && src[pos + m] != tokens[m]
    ensures PeekMatch(src, pos, tokens) == Ok(false)
  {
    assert MismatchAt(src, pos, tokens, m);
  }

  lemma {:induction false} PeekMissAll(src: string, pos: nat, m1: nat, m2: nat, m3: nat, m4: nat)
    requires pos <= |src|
    requires AgreeAt(src, pos, "@if ", m1) && m1 < 4 && pos + m1 < |src| && src[pos + m1] != "@if "[m1]
    requires AgreeAt(src, pos, "@for ", m2) && m2 < 5 && pos + m2 < |src| && src[pos + m2] != "@for "[m2]
    requires AgreeAt(src, pos, "@include ", m3) && m3 < 9 && pos + m3 < |src| && src[pos + m3] != "@include "[m3]
    requires AgreeAt(src, pos, "@macro ", m4) && m4 < 7 && pos + m4 < |src| && src[pos + m4] != "@macro "[m4]
    ensures PeekMatch(src, pos, "@if ") == Ok(false)
    ensures PeekMatch(src, pos, "@for ") == Ok(false)
    ensures PeekMatch(src, pos, "@include ") == Ok(false)
    ensures PeekMatch(src, pos, "@macro ") == Ok(false)
  {
    PeekMiss(src, pos, "@if ", m1);
    PeekMiss(src, pos, "@for ", m2);
    PeekMiss(src, pos, "@include ", m3);
    PeekMiss(src, pos, "@macro ", m4);
  }

  /** Past the four directive tests, the block loop is at its last two. */
  lemma {:induction false} PastDirectives(src: string, pos: nat)
    requires pos < |src|
    requires PeekMatch(src, pos, "@if ") == Ok(false)
    requires PeekMatch(src, pos, "@for ") == Ok(false)
    requires PeekMatch(src, pos, "@include ") == Ok(false)
    requires PeekMatch(src, pos, "@macro ") == Ok(false)
    ensures BlockStep(src, pos) == StepOther(src, pos)
  {
    assert StepMacro(src, pos) == StepOther(src, pos);
    assert StepInclude(src, pos) == StepOther(src, pos);
    assert StepFor(src, pos) == StepOther(src, pos);
  }

  /** An `@` followed by anything but `i`, `f` or `m` ends a block. */
  lemma {:induction false} StepAtStop(src: string, pos: nat)
    requires pos + 1 < |src| && src[pos] == '@' && src[pos + 1] != 'i' && src[pos + 1] != 'f' && src[pos + 1] != 'm'
    ensures BlockStep(src, pos) == Ok(None)
  {
    PeekMissAll(src, pos, 1, 1, 1, 1);
    PastDirectives(src, pos);
  }

  /** Anything but `@` skips the four directive tests. */
  lemma {:induction false} NotDirective(src: string, pos: nat)
    requires pos < |src| && src[pos] != '@'
    ensures BlockStep(src, pos) == StepOther(src, pos)
  {
    assert src[pos + 0] != '@';
    PeekMissAll(src, pos, 0, 0, 0, 0);
    PastDirectives(src, pos);
  }

  lemma {:induction false} StepAtText(src: string, pos: nat, text: string, end: nat)
    requires pos < |src| && src[pos] != '@' && src[pos] != '{'
    requires TextFrom(src, pos) == Parsed(text, end)
    ensures StepYields(BlockStep(src, pos), Text(text), end)
  {
    NotDirective(src, pos);
  }

  lemma {:induction false} StepAtBrace(src: string, pos: nat, n: Node, end: nat)
    requires pos < |src| && src[pos] == '{'
    requires Yields(ParseLookup(src, pos), n, end)
    ensures StepYields(BlockStep(src, pos), n, end)
  {
    NotDirective(src, pos);
  }

  /** `@include ` fails the first two directive tests and passes the third. */
  lemma {:induction false} IncludeDirective(src: string, pos: nat)
    requires PrefixAt(src, pos, "@include ")
    ensures BlockStep(src, pos) == StepInclude(src, pos)
    ensures PeekMatch(src, pos, "@include ") == Ok(true)
  {
    assert src[pos + 0] == "@include "[0] && src[pos + 1] == "@include "[1] && src[pos + 2] == "@include "[2];
    PeekMiss(src, pos, "@if ", 2);
    PeekMiss(src, pos, "@for ", 1);
    assert StepFor(src, pos) == StepInclude(src, pos);
  }

  lemma {:induction false} StepAtInclude(src: string, pos: nat, n: Node, end: nat)
    requires PrefixAt(src, pos, "@include ")
    requires Yields(ParseInclude(src, pos), n, end)
    ensures StepYields(BlockStep(src, pos), n, end)
  {
    IncludeDirective(src, pos);
  }

  lemma {:induction false} IncludeStep(src: string, pos: nat, p1: nat, source: string, end: nat)
    requires pos <= |src| && Match(src, pos, "@include ", false) == Ok(p1)
    requires Yields(TagWord(src, p1), source, end)
    ensures Yields(ParseInclude(src, pos), Include(source), end)
  {
  }

  lemma {:induction false} IncludePrinted(src: string, pos: nat, source: string, end: nat)
    requires IsWord(source)
    requires Has(src, pos, "@include " + source + "@") && end == pos + 10 + |source|
    ensures PrefixAt(src, pos, "@include ")
    ensures Yields(ParseInclude(src, pos), Include(source), end)
  {
    var p1 := pos + 9;
    assert "@include " + source + "@" == "@include " + (source + "@");
    HasSplit(src, pos, "@include ", source + "@");
    HasPrefixAt(src, pos, "@include ");
    MatchAt(src, pos, "@include ", p1);
    TagWordPrinted(src, p1, source, end);
    IncludeStep(src, pos, p1, source, end);
  }

  lemma {:induction false} HasSlice(src: string, pos: nat, x: string, end: nat)
    requires Has(src, pos, x) && end == pos + |x|
    ensures end <= |src| && src[pos..end] == x
  {
    HasPrefixAt(src, pos, x);
    forall i | 0 <= i < |x| ensures src[pos..end][i] == x[i] {
      assert src[pos + i] == x[i];
    }
  }

  lemma {:induction false} ScanUntilAt(src: string, pos: nat, text: string, quote: char, end: nat)
    requires Has(src, pos, text) && quote !in text && end == pos + |text|
    requires end < |src| && src[end] == quote
    ensures ScanUntil(src, pos, quote) == end
    decreases |text|
  {
    if text != [] {
      assert text[0] != quote;
      var next := pos + 1;
      ScanUntilAt(src, next, text[1..], quote, end);
    }
  }

  lemma {:induction false} StringLiteralPrinted(src: string, pos: nat, text: string, quote: char, end: nat)
    requires quote !in text && Has(src, pos, [quote] + text + [quote]) && end == pos + |text| + 2
    ensures pos < |src| && src[pos] == quote
    ensures Yields(StringLiteral(src, pos), text, end)
  {
    var p1 := pos + 1;
    var close := p1 + |text|;
    HasSplit(src, pos, [quote] + text, [quote]);
    HasSplit(src, pos, [quote], text);
    ScanUntilAt(src, p1, text, quote, close);
    HasSlice(src, p1, text, close);
    StringLiteralAt(src, pos, p1, close, end);
  }

  lemma {:induction false} StringLiteralAt(src: string, pos: nat, p1: nat, close: nat, end: nat)
    requires p1 == pos + 1 && end == close + 1
    requires pos < close < |src| && ScanUntil(src, p1, src[pos]) == close
    ensures Yields(StringLiteral(src, pos), src[p1..close], end)
  {
  }

  /** A literal argument is read back between the quotes it is printed with. */
  lemma {:induction false} LiteralPrinted(src: string, pos: nat, text: string, end: nat)
    requires PrintableArg(Literal(text))
    requires Has(src, pos, PrintArg(Literal(text))) && end == pos + |text| + 2
    ensures pos < |src| && !IsWhitespace(src[pos])
    ensures Yields(ArgumentValue(src, pos), Literal(text), end)
  {
    var quote := QuoteFor(text);
    assert quote !in text;
    StringLiteralPrinted(src, pos, text, quote, end);
  }

  /** A deferred argument is read back as the word it is printed as. */
  lemma {:induction false} DeferredPrinted(src: string, pos: nat, name: string, end: nat)
    requires IsWord(name) && name != []
    requires Has(src, pos, name) && end == pos + |name|
    requires end == |src| || !IsWordChar(src[end])
    ensures pos < |src| && !IsWhitespace(src[pos])
    ensures Yields(ArgumentValue(src, pos), Deferred(name, []), end)
  {
    HasCharAt(src, pos, name, 0);
    WordAt(src, pos, name, end);
  }

  /** Where `ArgumentsPrinted` enters the argument loop: past the space
      before the first argument. */
  function ArgsStart(list: seq<(string, Arg)>, pos: nat): nat {
    if list == [] then pos else pos + 1
  }

  /** The map the argument loop builds from `list`, starting from `acc`:
      each argument in turn, a later one overwriting an earlier one. */
  function Assign(acc: map<string, Arg>, list: seq<(string, Arg)>): map<string, Arg>
    decreases |list|
  {
    if list == [] then acc else Assign(acc[list[0].0 := list[0].1], list[1..])
  }

  /** Assigning the printed argument list adds the arguments to `acc`. */
  lemma {:induction false} AssignArgumentList(acc: map<string, Arg>, arguments: map<string, Arg>)
    ensures Assign(acc, ArgumentList(arguments)) == acc + arguments
    decreases |arguments|
  {
    if arguments != map[] {
      var k := FirstKey(arguments);
      var list := ArgumentList(arguments);
      assert list[0] == (k, arguments[k]) && list[1..] == ArgumentList(arguments - {k});
      AssignArgumentList(acc[k := arguments[k]], arguments - {k});
      MergeFirst(acc, arguments, k);
    }
  }

  lemma {:induction false} MergeFirst(acc: map<string, Arg>, arguments: map<string, Arg>, key: string)
    requires key in arguments
    ensures acc[key := arguments[key]] + (arguments - {key}) == acc + arguments
  {
  }

  lemma {:induction false} ArgumentsStep(src: string, pos: nat, key: string, value: Arg, acc: map<string, Arg>,
                      next: nat, result: map<string, Arg>, last: nat)
    requires pos < |src| && src[pos] != '}'
    requires Yields(Argument(src, pos), (key, value), next)
    requires Yields(Arguments(src, next, acc[key := value]), result, last)
    ensures Yields(Arguments(src, pos, acc), result, last)
  {
  }

  lemma {:induction false} ArgumentStep(src: string, pos: nat, key: string, k: nat, p2: nat, value: Arg, end: nat, next: nat)
    requires pos <= |src| && Word(src, pos) == Parsed(key, k)
    requires EatWhitespace(src, k) == Ok(k) && Match(src, k, "=", false) == Ok(p2)
    requires EatWhitespace(src, p2) == Ok(p2)
    requires Yields(ArgumentValue(src, p2), value, end)
    requires EatWhitespace(src, end) == Ok(next)
    ensures Yields(Argument(src, pos), (key, value), next)
  {
  }

  /** `=` before a character that is not whitespace. */
  lemma {:induction false} EqualsAt(src: string, k: nat, v: nat)
    requires v == k + 1 && v < |src| && src[k] == '=' && !IsWhitespace(src[v])
    ensures EatWhitespace(src, k) == Ok(k) && Match(src, k, "=", false) == Ok(v)
    ensures EatWhitespace(src, v) == Ok(v)
  {
    EatNothing(src, k);
    MatchChar(src, k, "=", v);
    EatNothing(src, v);
  }

  /** A space before a character that is not whitespace. */
  lemma {:induction false} SpaceAt(src: string, pos: nat, next: nat)
    requires next == pos + 1 && next < |src| && src[pos] == ' ' && !IsWhitespace(src[next])
    ensures EatWhitespace(src, pos) == Ok(next)
  {
    EatNothing(src, next);
  }

  /** The first argument ` key=value` of a printed call, followed by `tail`. */
  lemma {:induction false} ArgumentLayout(src: string, pos: nat, p1: nat, key: string, k: nat, v: nat, value: Arg, tail: string, end: nat)
    requires IsWord(key) && PrintableArg(value)
    requires Has(src, pos, " " + key + "=" + PrintArg(value) + tail)
    requires tail != [] && (tail[0] == ' ' || tail[0] == '}')
    requires p1 == pos + 1 && k == p1 + |key| && v == k + 1 && end == v + |PrintArg(value)|
    ensures p1 < |src| && src[pos] == ' ' && !IsWhitespace(src[p1]) && src[p1] != '}'
    ensures Word(src, p1) == Parsed(key, k)
    ensures v < |src| && src[k] == '=' && !IsWhitespace(src[v])
    ensures Yields(ArgumentValue(src, v), value, end)
    ensures Has(src, end, tail)
  {
    ArgumentText(src, pos, p1, key, k, v, PrintArg(value), tail, end);
    WordAt(src, p1, key, k);
    match value
    case Literal(text) => LiteralPrinted(src, v, text, end);
    case Deferred(name, _) => DeferredPrinted(src, v, name, end);
  }

  lemma {:induction false} ArgumentText(src: string, pos: nat, p1: nat, key: string, k: nat, v: nat, value: string, tail: string, end: nat)
    requires IsWord(key)
    requires Has(src, pos, " " + key + "=" + value + tail)
    requires tail != [] && !IsWordChar(tail[0])
    requires p1 == pos + 1 && k == p1 + |key| && v == k + 1 && end == v + |value|
    ensures pos < |src| && src[pos] == ' ' && Has(src, p1, key)
    ensures p1 < |src| && !IsWhitespace(src[p1]) && src[p1] != '}'
    ensures k < |src| && src[k] == '=' && Has(src, v, value)
    ensures end < |src| && !IsWordChar(src[end]) && Has(src, end, tail)
  {
    HasSplit(src, pos, " " + key + "=" + value, tail);
    HasSplit(src, pos, " " + key + "=", value);
    HasSplit(src, pos, " " + key, "=");
    HasSplit(src, pos, " ", key);
    HasFirst(src, pos, " ");
    HasFirst(src, k, "=");
    if key != [] { HasCharAt(src, p1, key, 0); assert IsWordChar(key[0]); }
    HasCharAt(src, end, tail, 0);
  }

  /** An argument laid out as ` key=value` is read by one pass of the loop. */
  lemma {:induction false} ArgumentRead(src: string, pos: nat, p1: nat, key: string, k: nat, v: nat, value: Arg, end: nat, next: nat)
    requires p1 == pos + 1 && k == p1 + |key| && v == k + 1
    requires p1 < |src| && src[pos] == ' ' && !IsWhitespace(src[p1]) && src[p1] != '}'
    requires Word(src, p1) == Parsed(key, k)
    requires v < |src| && src[k] == '=' && !IsWhitespace(src[v])
    requires Yields(ArgumentValue(src, v), value, end)
    requires end <= |src| && EatWhitespace(src, end) == Ok(next)
    ensures EatWhitespace(src, pos) == Ok(p1)
    ensures Yields(Argument(src, p1), (key, value), next)
  {
    SpaceAt(src, pos, p1);
    EqualsAt(src, k, v);
    ArgumentStep(src, p1, key, k, v, value, end, next);
  }

  lemma {:induction false} ArgumentsOpen(src: string, pos: nat, list: seq<(string, Arg)>)
    requires Has(src, pos, PrintArguments(list) + "}")
    ensures pos < |src| && (src[pos] == ' ' || src[pos] == '}')
    ensures list == [] ==> src[pos] == '}'
  {
    HasCharAt(src, pos, PrintArguments(list) + "}", 0);
  }

  /** Printed arguments are read back one by one, each assigned in turn. */
  lemma {:induction false} ArgumentsPrinted(src: string, pos: nat, list: seq<(string, Arg)>, acc: map<string, Arg>, last: nat)
    requires forall i | 0 <= i < |list| :: IsWord(list[i].0) && PrintableArg(list[i].1)
    requires Has(src, pos, PrintArguments(list) + "}") && last == pos + |PrintArguments(list)|
    ensures EatWhitespace(src, pos) == Ok(ArgsStart(list, pos))
    ensures Yields(Arguments(src, ArgsStart(list, pos), acc), Assign(acc, list), last)
    decreases |list|
  {
    ArgumentsOpen(src, pos, list);
    if list != [] {
      var key, value, rest := list[0].0, list[0].1, list[1..];
      var tail := PrintArguments(rest) + "}";
      assert PrintArguments(list) + "}" == " " + key + "=" + PrintArg(value) + tail;
      var p1 := pos + 1;
      var k := p1 + |key|;
      var v := k + 1;
      var end := v + |PrintArg(value)|;
      var next := ArgsStart(rest, end);
      HasSplit(src, pos, " " + key + "=" + PrintArg(value), tail);
      ArgumentsPrinted(src, end, rest, acc[key := value], last);
      ArgumentsOpen(src, end, rest);
      ArgumentLayout(src, pos, p1, key, k, v, value, tail, end);
      ArgumentRead(src, pos, p1, key, k, v, value, end, next);
      ArgumentsStep(src, p1, key, value, acc, next, Assign(acc, list), last);
    }
  }

  lemma {:induction false} CallStep(src: string, pos: nat, p1: nat, name: string, q: nat, start: nat, arguments: map<string, Arg>, end: nat, last: nat)
    requires pos <= |src| && Match(src, pos, "!", false) == Ok(p1)
    requires EatWhitespace(src, p1) == Ok(p1)
    requires Word(src, p1) == Parsed(name, q)
    requires EatWhitespace(src, q) == Ok(start)
    requires Yields(Arguments(src, start, map[]), arguments, end)
    requires end <= |src| && Match(src, end, "}", false) == Ok(last)
    ensures Yields(ParseCall(src, pos), Call(name, arguments), last)
  {
  }

  /** `{` then `!` opens a call. */
  lemma {:induction false} LookupCall(src: string, pos: nat, p1: nat, n: Node, end: nat)
    requires p1 == pos + 1 && p1 + 1 < |src| && src[pos] == '{' && src[p1] == '!'
    requires Yields(ParseCall(src, p1), n, end)
    ensures Yields(ParseLookup(src, pos), n, end)
  {
    MatchChar(src, pos, "{", p1);
    EatNothing(src, p1);
  }

  /** The fixed tokens of a call, each matched where it is printed. */
  lemma {:induction false} CallTokens(src: string, p1: nat, p2: nat, end: nat, last: nat)
    requires p2 == p1 + 1 && last == end + 1
    requires p2 < |src| && src[p1] == '!' && !IsWhitespace(src[p2])
    requires end < |src| && src[end] == '}'
    ensures Match(src, p1, "!", false) == Ok(p2)
    ensures EatWhitespace(src, p2) == Ok(p2)
    ensures Match(src, end, "}", false) == Ok(last)
  {
    MatchChar(src, p1, "!", p2);
    EatNothing(src, p2);
    MatchChar(src, end, "}", last);
  }

  /** The opening of a printed call: `{!` and the name. */
  lemma {:induction false} CallHead(src: string, pos: nat, p1: nat, p2: nat, name: string, q: nat)
    requires IsWord(name) && name != [] && Has(src, pos, "{!" + name)
    requires p1 == pos + 1 && p2 == p1 + 1 && q == p2 + |name|
    requires q < |src| && (src[q] == ' ' || src[q] == '}')
    ensures p2 < |src| && src[pos] == '{' && src[p1] == '!' && !IsWhitespace(src[p2])
    ensures Word(src, p2) == Parsed(name, q)
  {
    HasSplit(src, pos, "{!", name);
    HasCharAt(src, p2, name, 0);
    WordAt(src, p2, name, q);
  }

  lemma {:induction false} CallPrinted(src: string, pos: nat, name: string, arguments: map<string, Arg>, last: nat)
    requires PrintableChild(Call(name, arguments))
    requires Has(src, pos, Print(Call(name, arguments))) && last == pos + |Print(Call(name, arguments))|
    ensures Yields(ParseLookup(src, pos), Call(name, arguments), last)
  {
    var list := ArgumentList(arguments);
    var p1 := pos + 1;
    var p2 := p1 + 1;
    var q := p2 + |name|;
    var end := q + |PrintArguments(list)|;
    var start := ArgsStart(list, q);
    CallLayout(src, pos, name, arguments, list, q, last);
    ArgumentsOpen(src, q, list);
    CallHead(src, pos, p1, p2, name, q);
    ArgumentsPrinted(src, q, list, map[], end);
    AssignArgumentList(map[], arguments);
    assert map[] + arguments == arguments;
    HasLast(src, q, PrintArguments(list), '}');
    CallRead(src, pos, p1, p2, name, q, start, arguments, end, last);
  }

  lemma {:induction false} CallLayout(src: string, pos: nat, name: string, arguments: map<string, Arg>,
                                      list: seq<(string, Arg)>, q: nat, last: nat)
    requires list == ArgumentList(arguments) && q == pos + 2 + |name|
    requires Has(src, pos, Print(Call(name, arguments))) && last == pos + |Print(Call(name, arguments))|
    ensures Has(src, pos, "{!" + name) && Has(src, q, PrintArguments(list) + "}")
    ensures last == q + |PrintArguments(list)| + 1
  {
    assert Print(Call(name, arguments)) == ("{!" + name) + (PrintArguments(list) + "}");
    HasSplit(src, pos, "{!" + name, PrintArguments(list) + "}");
  }

  /** A call laid out as `{!name arguments}` is read back. */
  lemma {:induction false} CallRead(src: string, pos: nat, p1: nat, p2: nat, name: string, q: nat, start: nat,
                 arguments: map<string, Arg>, end: nat, last: nat)
    requires p1 == pos + 1 && p2 == p1 + 1 && last == end + 1
    requires p2 < |src| && src[pos] == '{' && src[p1] == '!' && !IsWhitespace(src[p2])
    requires Word(src, p2) == Parsed(name, q)
    requires q <= |src| && EatWhitespace(src, q) == Ok(start)
    requires Yields(Arguments(src, start, map[]), arguments, end)
    requires end < |src| && src[end] == '}'
    ensures Yields(ParseLookup(src, pos), Call(name, arguments), last)
  {
    CallTokens(src, p1, p2, end, last);
    CallStep(src, p1, p2, name, q, start, arguments, end, last);
    LookupCall(src, pos, p1, Call(name, arguments), last);
  }

  /** The block loop stops at `pos`: the end of the source, or an `@` that
      opens none of the directives (the `@else@`/`@end...@` tags). */
  predicate Stops(src: string, pos: nat) {
    pos == |src| || (pos + 1 < |src| && src[pos] == '@' && src[pos + 1] != 'i' && src[pos + 1] != 'f' && src[pos + 1] != 'm')
  }

  lemma {:induction false} NodesEnd(src: string, pos: nat)
    requires pos <= |src| && Stops(src, pos)
    ensures Yields(BlockNodes(src, pos), [], pos)
  {
    if pos < |src| {
      StepAtStop(src, pos);
    }
  }

  lemma {:induction false} NodesCons(src: string, pos: nat, n: Node, mid: nat, rest: seq<Node>, end: nat)
    requires pos < |src| && StepYields(BlockStep(src, pos), n, mid)
    requires mid <= |src| && Yields(BlockNodes(src, mid), rest, end)
    ensures Yields(BlockNodes(src, pos), [n] + rest, end)
  {
  }

  lemma {:induction false} StepAtIf(src: string, pos: nat, n: Node, end: nat)
    requires PrefixAt(src, pos, "@if ")
    requires Yields(ParseIf(src, pos), n, end)
    ensures StepYields(BlockStep(src, pos), n, end)
  {
  }

  /** `@for ` fails the first directive test and passes the second. */
  lemma {:induction false} ForDirective(src: string, pos: nat)
    requires PrefixAt(src, pos, "@for ")
    ensures BlockStep(src, pos) == StepFor(src, pos)
    ensures PeekMatch(src, pos, "@for ") == Ok(true)
  {
    assert src[pos + 0] == "@for "[0] && src[pos + 1] == "@for "[1];
    PeekMiss(src, pos, "@if ", 1);
  }

  lemma {:induction false} StepAtFor(src: string, pos: nat, n: Node, end: nat)
    requires PrefixAt(src, pos, "@for ")
    requires Yields(ParseFor(src, pos), n, end)
    ensures StepYields(BlockStep(src, pos), n, end)
  {
    ForDirective(src, pos);
  }

  /** `@macro ` fails the first three directive tests and passes the fourth. */
  lemma {:induction false} MacroDirective(src: string, pos: nat)
    requires PrefixAt(src, pos, "@macro ")
    ensures BlockStep(src, pos) == StepMacro(src, pos)
    ensures PeekMatch(src, pos, "@macro ") == Ok(true)
  {
    assert src[pos + 0] == "@macro "[0] && src[pos + 1] == "@macro "[1];
    PeekMiss(src, pos, "@if ", 1);
    PeekMiss(src, pos, "@for ", 1);
    PeekMiss(src, pos, "@include ", 1);
    assert StepInclude(src, pos) == StepMacro(src, pos);
    assert StepFor(src, pos) == StepMacro(src, pos);
  }

  lemma {:induction false} StepAtMacro(src: string, pos: nat, n: Node, end: nat)
    requires PrefixAt(src, pos, "@macro ")
    requires Yields(ParseMacro(src, pos), n, end)
    ensures StepYields(BlockStep(src, pos), n, end)
  {
    MacroDirective(src, pos);
  }

  /** A closing tag: `@` then `e`, where the block loop stops. */
  lemma {:induction false} TagAt(src: string, pos: nat, tag: string)
    requires Has(src, pos, tag) && |tag| >= 2 && tag[0] == '@' && tag[1] == 'e'
    ensures PrefixAt(src, pos, tag) && Stops(src, pos)
  {
    HasPrefixAt(src, pos, tag);
    assert src[pos + 0] == tag[0] && src[pos + 1] == tag[1];
  }

  /** A tag followed by the newline printed after it. */
  lemma {:induction false} TagLineAt(src: string, pos: nat, tag: string, end: nat)
    requires Has(src, pos, tag + "\n") && |tag| >= 2 && tag[0] == '@' && tag[1] == 'e' && end == pos + |tag|
    ensures PrefixAt(src, pos, tag) && Stops(src, pos)
    ensures end < |src| && src[end] == '\n'
  {
    HasSplit(src, pos, tag, "\n");
    TagAt(src, pos, tag);
  }

  /** The first character of a printed node that is not text. */
  lemma {:induction false} PrintOpens(n: Node)
    requires PrintableChild(n) && !n.Text?
    ensures Print(n) != [] && (Print(n)[0] == '@' || Print(n)[0] == '{')
  {
  }

  lemma {:induction false} NodesOpen(src: string, pos: nat, nodes: seq<Node>)
    requires nodes != [] && PrintableChild(nodes[0]) && !nodes[0].Text?
    requires Has(src, pos, PrintNodes(nodes))
    ensures pos < |src| && (src[pos] == '@' || src[pos] == '{')
  {
    PrintOpens(nodes[0]);
    assert PrintNodes(nodes) == Print(nodes[0]) + PrintNodes(nodes[1..]);
    HasCharAt(src, pos, PrintNodes(nodes), 0);
  }

  /** Printed child nodes are read back one by one, up to where the
      block loop stops. */
  lemma {:induction false} NodesPrinted(src: string, pos: nat, nodes: seq<Node>, end: nat)
    requires PrintableNodes(nodes)
    requires Has(src, pos, PrintNodes(nodes)) && end == pos + |PrintNodes(nodes)|
    requires Stops(src, end)
    ensures Yields(BlockNodes(src, pos), nodes, end)
    decreases nodes, 2
  {
    if nodes == [] {
      NodesEnd(src, pos);
    } else {
      var n := nodes[0];
      var rest := nodes[1..];
      assert PrintNodes(nodes) == Print(n) + PrintNodes(rest);
      HasSplit(src, pos, Print(n), PrintNodes(rest));
      var mid := pos + |Print(n)|;
      assert PrintableNodes(rest) by {
        assert forall i | 0 <= i < |rest| :: rest[i] == nodes[i + 1];
      }
      if n.Text? && rest != [] {
        assert !rest[0].Text? && PrintableChild(rest[0]);
        NodesOpen(src, mid, rest);
      }
      ChildPrinted(src, pos, n, mid);
      NodesPrinted(src, mid, rest, end);
      NodesCons(src, pos, n, mid, rest, end);
      assert [n] + rest == nodes;
    }
  }

  /** A printed child node is read back by one iteration of the block loop. */
  lemma {:induction false} ChildPrinted(src: string, pos: nat, n: Node, end: nat)
    requires PrintableChild(n)
    requires Has(src, pos, Print(n)) && end == pos + |Print(n)|
    requires n.Text? ==> end == |src| || src[end] == '@' || src[end] == '{'
    ensures StepYields(BlockStep(src, pos), n, end)
    decreases n, 1
  {
    match n
    case Text(text) =>
      TextFromEscape(src, pos, text, end);
      HasCharAt(src, pos, Escape(text), 0);
      StepAtText(src, pos, text, end);
    case Lookup(name, transforms) =>
      LookupPrinted(src, pos, name, transforms, end);
      HasCharAt(src, pos, Print(n), 0);
      StepAtBrace(src, pos, n, end);
    case Call(name, arguments) =>
      CallPrinted(src, pos, name, arguments, end);
      HasCharAt(src, pos, Print(n), 0);
      StepAtBrace(src, pos, n, end);
    case Include(source) =>
      IncludePrinted(src, pos, source, end);
      StepAtInclude(src, pos, n, end);
    case If(_, _, _) =>
      IfPrinted(src, pos, n, end);
      StepAtIf(src, pos, n, end);
    case For(_, _, _) =>
      ForPrinted(src, pos, n, end);
      StepAtFor(src, pos, n, end);
    case Macro(_, _, _) =>
      MacroPrinted(src, pos, n, end);
      StepAtMacro(src, pos, n, end);
  }

  // ---- @if ----

  /** The opening tag of a printed `@if` and the newline after it. */
  lemma {:induction false} IfHead(src: string, pos: nat, p1: nat, condition: string, e: nat)
    requires IsWord(condition) && Has(src, pos, "@if " + condition + "@\n")
    requires p1 == pos + 4 && e == p1 + |condition| + 1
    ensures PrefixAt(src, pos, "@if ")
    ensures Yields(TagWord(src, p1), condition, e)
    ensures e < |src| && src[e] == '\n'
  {
    assert "@if " + condition + "@\n" == "@if " + (condition + "@") + "\n";
    HasThree(src, pos, "@if ", condition + "@", "\n");
    HasPrefixAt(src, pos, "@if ");
    HasCharAt(src, e, "\n", 0);
    TagWordPrinted(src, p1, condition, e);
  }

  /** Where the pieces of a printed `@if` sit: the opening tag, the first
      branch, then the optional `@else@` branch with the closing tag, which
      both start with `@e` and so end the first branch. */
  lemma {:induction false} IfLayout(src: string, pos: nat, n: Node, b: nat, q1: nat, end: nat)
    requires n.If? && n.consequence.Block?
    requires Has(src, pos, Print(n)) && end == pos + |Print(n)|
    requires b == pos + 6 + |n.condition| && q1 == b + |PrintNodes(n.consequence.nodes)|
    ensures Has(src, pos, "@if " + n.condition + "@\n")
    ensures Has(src, b, PrintNodes(n.consequence.nodes))
    ensures Has(src, q1, PrintElse(n.alternative) + "@endif@\n")
    ensures end == q1 + |PrintElse(n.alternative)| + 8
    ensures Stops(src, q1)
  {
    var head := "@if " + n.condition + "@\n";
    var tail := PrintElse(n.alternative) + "@endif@\n";
    assert Print(n) == head + PrintNodes(n.consequence.nodes) + tail;
    HasSplit(src, pos, head + PrintNodes(n.consequence.nodes), tail);
    HasSplit(src, pos, head, PrintNodes(n.consequence.nodes));
    assert tail[0] == '@' && tail[1] == 'e';
    HasCharAt(src, q1, tail, 0);
    HasCharAt(src, q1, tail, 1);
  }

  lemma {:induction false} IfStep(src: string, pos: nat, p1: nat, condition: string, q: nat, b: nat, consequence: seq<Node>, q1: nat, n: Node, end: nat)
    requires pos <= |src| && Match(src, pos, "@if ", false) == Ok(p1)
    requires Yields(TagWord(src, p1), condition, q) && MaybeEatNewline(src, q) == b
    requires Yields(BlockNodes(src, b), consequence, q1)
    requires Yields(IfBranches(src, condition, Parsed(consequence, q1)), n, end)
    ensures Yields(ParseIf(src, pos), n, end)
  {
  }

  /** The fixed tokens of an `@if` line, each matched where it is printed. */
  lemma {:induction false} IfTokens(src: string, pos: nat, p1: nat, e: nat, b: nat)
    requires p1 == pos + 4 && b == e + 1
    requires PrefixAt(src, pos, "@if ")
    requires e < |src| && src[e] == '\n'
    ensures p1 <= |src| && Match(src, pos, "@if ", false) == Ok(p1)
    ensures MaybeEatNewline(src, e) == b
  {
    MatchAt(src, pos, "@if ", p1);
  }

  /** `@endif@` and the newline printed after it. */
  lemma {:induction false} EndIfAt(src: string, condition: string, consequence: seq<Node>, alternative: seq<Node>, q2: nat, q3: nat, end: nat)
    requires q3 == q2 + 7 && end == q3 + 1
    requires PrefixAt(src, q2, "@endif@") && q3 < |src| && src[q3] == '\n'
    ensures Yields(EndIf(src, condition, consequence, Parsed(alternative, q2)),
                   If(condition, Block(consequence), Block(alternative)), end)
  {
    MatchAt(src, q2, "@endif@", q3);
    NewlineAt(src, q3, end);
  }

  lemma {:induction false} IfBranchesNoElse(src: string, condition: string, consequence: seq<Node>, q1: nat, end: nat)
    requires q1 <= |src| && PeekMatch(src, q1, "@else@") == Ok(false)
    requires Yields(EndIf(src, condition, consequence, Parsed([], q1)), If(condition, Block(consequence), EmptyBlock), end)
    ensures Yields(IfBranches(src, condition, Parsed(consequence, q1)), If(condition, Block(consequence), EmptyBlock), end)
  {
  }

  /** `@endif@` is not `@else@`. */
  lemma {:induction false} NotElse(src: string, q1: nat)
    requires PrefixAt(src, q1, "@endif@")
    ensures q1 <= |src| && PeekMatch(src, q1, "@else@") == Ok(false)
  {
    assert src[q1 + 0] == "@endif@"[0] && src[q1 + 1] == "@endif@"[1] && src[q1 + 2] == "@endif@"[2];
    PeekMiss(src, q1, "@else@", 2);
  }

  lemma {:induction false} IfBranchesElse(src: string, condition: string, consequence: seq<Node>, q1: nat, p3: nat, b: nat,
                        alternative: seq<Node>, q2: nat, end: nat)
    requires q1 <= |src| && PeekMatch(src, q1, "@else@") == Ok(true) && Match(src, q1, "@else@", false) == Ok(p3)
    requires MaybeEatNewline(src, p3) == b
    requires Yields(BlockNodes(src, b), alternative, q2)
    requires Yields(EndIf(src, condition, consequence, Parsed(alternative, q2)),
                    If(condition, Block(consequence), Block(alternative)), end)
    ensures Yields(IfBranches(src, condition, Parsed(consequence, q1)),
                   If(condition, Block(consequence), Block(alternative)), end)
  {
  }

  /** `@else@` and the newline printed after it. */
  lemma {:induction false} ElseTokens(src: string, q1: nat, p3: nat, b: nat)
    requires p3 == q1 + 6 && b == p3 + 1
    requires PrefixAt(src, q1, "@else@") && p3 < |src| && src[p3] == '\n'
    ensures p3 <= |src| && PeekMatch(src, q1, "@else@") == Ok(true) && Match(src, q1, "@else@", false) == Ok(p3)
    ensures MaybeEatNewline(src, p3) == b
  {
    MatchAt(src, q1, "@else@", p3);
  }

  lemma {:induction false} ElseLayout(src: string, q1: nat, alt: Node, b: nat, q2: nat, end: nat)
    requires alt.Block? && alt != EmptyBlock
    requires Has(src, q1, PrintElse(alt) + "@endif@\n") && end == q1 + |PrintElse(alt)| + 8
    requires b == q1 + 7 && q2 == b + |PrintNodes(alt.nodes)|
    ensures Has(src, q1, "@else@" + "\n") && Has(src, b, PrintNodes(alt.nodes)) && Has(src, q2, "@endif@" + "\n")
    ensures end == q2 + 8
  {
    assert PrintElse(alt) + "@endif@\n" == ("@else@" + "\n") + PrintNodes(alt.nodes) + ("@endif@" + "\n");
    HasSplit(src, q1, ("@else@" + "\n") + PrintNodes(alt.nodes), "@endif@" + "\n");
    HasSplit(src, q1, "@else@" + "\n", PrintNodes(alt.nodes));
  }

  /** The printed `@else@` branch, if any, and the closing tag are read
      back by the rest of `if_stmt`. */
  lemma {:induction false} ElsePrinted(src: string, condition: string, consequence: seq<Node>, q1: nat, alt: Node, end: nat)
    requires alt.Block? && PrintableNodes(alt.nodes)
    requires Has(src, q1, PrintElse(alt) + "@endif@\n") && end == q1 + |PrintElse(alt)| + 8
    ensures Yields(IfBranches(src, condition, Parsed(consequence, q1)), If(condition, Block(consequence), alt), end)
    decreases alt, 3
  {
    if alt == EmptyBlock {
      var q3 := q1 + 7;
      assert PrintElse(alt) + "@endif@\n" == "@endif@" + "\n";
      TagLineAt(src, q1, "@endif@", q3);
      NotElse(src, q1);
      EndIfAt(src, condition, consequence, [], q1, q3, end);
      IfBranchesNoElse(src, condition, consequence, q1, end);
    } else {
      var p3 := q1 + 6;
      var b := p3 + 1;
      var q2 := b + |PrintNodes(alt.nodes)|;
      var q3 := q2 + 7;
      ElseLayout(src, q1, alt, b, q2, end);
      TagLineAt(src, q1, "@else@", p3);
      TagLineAt(src, q2, "@endif@", q3);
      NodesPrinted(src, b, alt.nodes, q2);
      ElseTokens(src, q1, p3, b);
      EndIfAt(src, condition, consequence, alt.nodes, q2, q3, end);
      IfBranchesElse(src, condition, consequence, q1, p3, b, alt.nodes, q2, end);
    }
  }

  lemma {:induction false} IfPrinted(src: string, pos: nat, n: Node, end: nat)
    requires n.If? && PrintableChild(n)
    requires Has(src, pos, Print(n)) && end == pos + |Print(n)|
    ensures PrefixAt(src, pos, "@if ")
    ensures Yields(ParseIf(src, pos), n, end)
    decreases n, 0
  {
    var condition, a := n.condition, n.consequence.nodes;
    var p1 := pos + 4;
    var e := p1 + |condition| + 1;
    var b := e + 1;
    var q1 := b + |PrintNodes(a)|;
    IfLayout(src, pos, n, b, q1, end);
    IfHead(src, pos, p1, condition, e);
    NodesPrinted(src, b, a, q1);
    ElsePrinted(src, condition, a, q1, n.alternative, end);
    IfTokens(src, pos, p1, e, b);
    IfStep(src, pos, p1, condition, e, b, a, q1, n, end);
  }

  // ---- @for ----

  /** ` in ` before a character that is not whitespace: `match("in")`
      skips the space before the keyword, `eat_whitespace` the one after. */
  lemma {:induction false} InAt(src: string, q: nat, p2: nat, p3: nat)
    requires p2 == q + 3 && p3 == p2 + 1
    requires PrefixAt(src, q, " in ") && p3 < |src| && !IsWhitespace(src[p3])
    ensures Match(src, q, "in", true) == Ok(p2)
    ensures EatWhitespace(src, p2) == Ok(p3)
  {
    assert src[q + 0] == " in "[0] && src[q + 1] == " in "[1] && src[q + 2] == " in "[2] && src[q + 3] == " in "[3];
    assert EatWhitespace(src, q) == Ok(q + 1);
    assert EatWhitespace(src, p3) == Ok(p3);
  }

  lemma {:induction false} ForClauseStep(src: string, pos: nat, name: string, q: nat, p2: nat, p3: nat, iterable: string, end: nat)
    requires pos <= |src| && Word(src, pos) == Parsed(name, q)
    requires Match(src, q, "in", true) == Ok(p2)
    requires EatWhitespace(src, p2) == Ok(p3)
    requires Yields(TagWord(src, p3), iterable, end)
    ensures Yields(ForClause(src, pos), (name, iterable), end)
  {
  }

  /** `name in iterable@` as printed. */
  lemma {:induction false} ForClausePrinted(src: string, pos: nat, name: string, iterable: string, end: nat)
    requires IsWord(name) && IsWord(iterable)
    requires Has(src, pos, name + " in " + (iterable + "@")) && end == pos + |name| + 5 + |iterable|
    ensures Yields(ForClause(src, pos), (name, iterable), end)
  {
    var q := pos + |name|;
    var p2 := q + 3;
    var p3 := p2 + 1;
    HasThree(src, pos, name, " in ", iterable + "@");
    HasCharAt(src, q, " in ", 0);
    HasPrefixAt(src, q, " in ");
    WordAt(src, pos, name, q);
    HasCharAt(src, p3, iterable + "@", 0);
    if iterable != [] { assert IsWordChar(iterable[0]); }
    InAt(src, q, p2, p3);
    TagWordPrinted(src, p3, iterable, end);
    ForClauseStep(src, pos, name, q, p2, p3, iterable, end);
  }

  lemma {:induction false} ForHeaderStep(src: string, pos: nat, p1: nat, name: string, iterable: string, end: nat)
    requires pos <= |src| && Match(src, pos, "@for ", false) == Ok(p1)
    requires Yields(ForClause(src, p1), (name, iterable), end)
    ensures Yields(ForHeader(src, pos), (name, iterable), end)
  {
  }

  lemma {:induction false} ForHeaderPrinted(src: string, pos: nat, name: string, iterable: string, end: nat)
    requires IsWord(name) && IsWord(iterable)
    requires Has(src, pos, "@for " + name + " in " + iterable + "@") && end == pos + 10 + |name| + |iterable|
    ensures PrefixAt(src, pos, "@for ")
    ensures Yields(ForHeader(src, pos), (name, iterable), end)
  {
    var p1 := pos + 5;
    ForHeaderLayout(src, pos, p1, name, iterable);
    MatchAt(src, pos, "@for ", p1);
    ForClausePrinted(src, p1, name, iterable, end);
    ForHeaderStep(src, pos, p1, name, iterable, end);
  }

  lemma {:induction false} ForHeaderLayout(src: string, pos: nat, p1: nat, name: string, iterable: string)
    requires Has(src, pos, "@for " + name + " in " + iterable + "@") && p1 == pos + 5
    ensures PrefixAt(src, pos, "@for ") && Has(src, p1, name + " in " + (iterable + "@"))
  {
    assert "@for " + name + " in " + iterable + "@" == "@for " + (name + " in " + (iterable + "@"));
    HasSplit(src, pos, "@for ", name + " in " + (iterable + "@"));
    HasPrefixAt(src, pos, "@for ");
  }

  lemma {:induction false} ForLayout(src: string, pos: nat, n: Node, q1: nat, b: nat, q2: nat, end: nat)
    requires n.For? && n.body.Block? && Has(src, pos, Print(n)) && end == pos + |Print(n)|
    requires q1 == pos + 10 + |n.name| + |n.iterable| && b == q1 + 1 && q2 == b + |PrintNodes(n.body.nodes)|
    ensures Has(src, pos, "@for " + n.name + " in " + n.iterable + "@")
    ensures q1 < |src| && src[q1] == '\n'
    ensures Has(src, b, PrintNodes(n.body.nodes))
    ensures Has(src, q2, "@endfor@" + "\n")
    ensures end == q2 + 9
  {
    var header := "@for " + n.name + " in " + n.iterable + "@";
    assert Print(n) == header + "\n" + PrintNodes(n.body.nodes) + ("@endfor@" + "\n");
    TagAround(src, pos, header, PrintNodes(n.body.nodes), "@endfor@" + "\n", q1, b, q2);
  }

  lemma {:induction false} EndForAt(src: string, name: string, iterable: string, body: seq<Node>, q2: nat, q3: nat, end: nat)
    requires q3 == q2 + 8 && end == q3 + 1
    requires PrefixAt(src, q2, "@endfor@") && q3 < |src| && src[q3] == '\n'
    ensures Yields(EndFor(src, name, iterable, Parsed(body, q2)), For(name, iterable, Block(body)), end)
  {
    MatchAt(src, q2, "@endfor@", q3);
    NewlineAt(src, q3, end);
  }

  lemma {:induction false} ForStep(src: string, pos: nat, name: string, iterable: string, q1: nat, b: nat, body: seq<Node>, q2: nat, end: nat)
    requires pos <= |src| && Yields(ForHeader(src, pos), (name, iterable), q1) && MaybeEatNewline(src, q1) == b
    requires Yields(BlockNodes(src, b), body, q2)
    requires Yields(EndFor(src, name, iterable, Parsed(body, q2)), For(name, iterable, Block(body)), end)
    ensures Yields(ParseFor(src, pos), For(name, iterable, Block(body)), end)
  {
  }

  /** The body of a printed `@for` and its closing tag. */
  lemma {:induction false} ForBodyPrinted(src: string, name: string, iterable: string, b: nat, body: seq<Node>, q2: nat, end: nat)
    requires PrintableNodes(body)
    requires Has(src, b, PrintNodes(body)) && q2 == b + |PrintNodes(body)|
    requires Has(src, q2, "@endfor@" + "\n") && end == q2 + 9
    ensures Yields(BlockNodes(src, b), body, q2)
    ensures q2 <= |src| && Yields(EndFor(src, name, iterable, Parsed(body, q2)), For(name, iterable, Block(body)), end)
    decreases body, 3
  {
    var q3 := q2 + 8;
    TagLineAt(src, q2, "@endfor@", q3);
    NodesPrinted(src, b, body, q2);
    EndForAt(src, name, iterable, body, q2, q3, end);
  }

  lemma {:induction false} ForPrinted(src: string, pos: nat, n: Node, end: nat)
    requires n.For? && PrintableChild(n)
    requires Has(src, pos, Print(n)) && end == pos + |Print(n)|
    ensures PrefixAt(src, pos, "@for ")
    ensures Yields(ParseFor(src, pos), n, end)
    decreases n, 0
  {
    var name, iterable, body := n.name, n.iterable, n.body.nodes;
    var q1 := pos + 10 + |name| + |iterable|;
    var b := q1 + 1;
    var q2 := b + |PrintNodes(body)|;
    ForLayout(src, pos, n, q1, b, q2, end);
    ForHeaderPrinted(src, pos, name, iterable, q1);
    ForBodyPrinted(src, name, iterable, b, body, q2, end);
    NewlineAt(src, q1, b);
    ForStep(src, pos, name, iterable, q1, b, body, q2, end);
  }

  // ---- @macro ----

  lemma {:induction false} MoreParametersPrinted(src: string, pos: nat, parameters: seq<string>, end: nat)
    requires forall i | 0 <= i < |parameters| :: IsWord(parameters[i]) && parameters[i] != []
    requires Has(src, pos, PrintMoreParameters(parameters) + ")") && end == pos + |PrintMoreParameters(parameters)|
    ensures Yields(MoreParameters(src, pos), parameters, end)
    decreases |parameters|
  {
    if parameters == [] {
      assert PrintMoreParameters(parameters) + ")" == ")";
      HasCharAt(src, pos, ")", 0);
    } else {
      var p, rest := parameters[0], parameters[1..];
      var p1 := pos + 1;
      var p2 := p1 + 1;
      var q := p2 + |p|;
      assert PrintMoreParameters(parameters) + ")" == ", " + p + (PrintMoreParameters(rest) + ")");
      assert p2 < |src| && src[pos] == ',' && src[p1] == ' ' && !IsWhitespace(src[p2])
          && Word(src, p2) == Parsed(p, q) && q < |src| && !IsWhitespace(src[q])
          && Yields(MoreParameters(src, q), rest, end) by {
        ParameterAt(src, pos, p1, p2, p, q, PrintMoreParameters(rest) + ")");
        MoreParametersPrinted(src, q, rest, end);
      }
      SpaceAt(src, p1, p2);
      EatNothing(src, q);
      MoreParametersStep(src, pos, p2, parameters, q, end);
    }
  }

  /** `, name` followed by the rest of a printed parameter list. */
  lemma {:induction false} ParameterAt(src: string, pos: nat, p1: nat, p2: nat, p: string, q: nat, more: string)
    requires IsWord(p) && p != []
    requires Has(src, pos, ", " + p + more) && more != [] && (more[0] == ',' || more[0] == ')')
    requires p1 == pos + 1 && p2 == p1 + 1 && q == p2 + |p|
    ensures p2 < |src| && src[pos] == ',' && src[p1] == ' ' && !IsWhitespace(src[p2])
    ensures Word(src, p2) == Parsed(p, q)
    ensures q < |src| && !IsWhitespace(src[q])
    ensures Has(src, q, more)
  {
    ParameterText(src, pos, p1, p2, p, q, more);
    WordAt(src, p2, p, q);
  }

  lemma {:induction false} ParameterText(src: string, pos: nat, p1: nat, p2: nat, p: string, q: nat, more: string)
    requires IsWord(p) && p != []
    requires Has(src, pos, ", " + p + more) && more != [] && (more[0] == ',' || more[0] == ')')
    requires p1 == pos + 1 && p2 == p1 + 1 && q == p2 + |p|
    ensures p2 < |src| && src[pos] == ',' && src[p1] == ' ' && !IsWhitespace(src[p2]) && Has(src, p2, p)
    ensures q < |src| && !IsWhitespace(src[q]) && !IsWordChar(src[q]) && Has(src, q, more)
  {
    HasSplit(src, pos, ", " + p, more);
    HasSplit(src, pos, ", ", p);
    HasCharAt(src, pos, ", ", 0);
    HasCharAt(src, pos, ", ", 1);
    HasCharAt(src, p2, p, 0);
    HasCharAt(src, q, more, 0);
    assert IsWordChar(p[0]);
  }

  lemma {:induction false} MoreParametersStep(src: string, pos: nat, p1: nat, parameters: seq<string>, q: nat, end: nat)
    requires parameters != []
    requires pos < |src| && src[pos] == ',' && EatWhitespace(src, pos + 1) == Ok(p1)
    requires Word(src, p1) == Parsed(parameters[0], q)
    requires EatWhitespace(src, q) == Ok(q)
    requires Yields(MoreParameters(src, q), parameters[1..], end)
    ensures Yields(MoreParameters(src, pos), parameters, end)
  {
    assert [parameters[0]] + parameters[1..] == parameters;
  }

  /** An empty parameter list: `word` reads nothing before `)`. */
  lemma {:induction false} ParametersEmpty(src: string, pos: nat)
    requires pos < |src| && src[pos] == ')'
    ensures Yields(Parameters(src, pos), [], pos)
  {
    assert Word(src, pos).pos == pos;
    assert EatWhitespace(src, pos) == Ok(pos);
  }

  /** The first parameter of a printed list, followed by the rest of it. */
  lemma {:induction false} FirstParameterAt(src: string, pos: nat, p: string, q: nat, more: string)
    requires IsWord(p) && p != [] && q == pos + |p|
    requires Has(src, pos, p + more) && more != [] && (more[0] == ',' || more[0] == ')')
    ensures q < |src| && Word(src, pos) == Parsed(p, q) && !IsWhitespace(src[q])
    ensures Has(src, q, more)
  {
    HasSplit(src, pos, p, more);
    HasCharAt(src, q, more, 0);
    WordAt(src, pos, p, q);
  }

  lemma {:induction false} ParametersPrinted(src: string, pos: nat, parameters: seq<string>, end: nat)
    requires forall i | 0 <= i < |parameters| :: IsWord(parameters[i]) && parameters[i] != []
    requires Has(src, pos, PrintParameters(parameters) + ")") && end == pos + |PrintParameters(parameters)|
    ensures Yields(Parameters(src, pos), parameters, end)
  {
    if parameters == [] {
      assert PrintParameters(parameters) + ")" == ")";
      HasCharAt(src, pos, ")", 0);
      ParametersEmpty(src, pos);
    } else {
      var p, rest := parameters[0], parameters[1..];
      var q := pos + |p|;
      assert q < |src| && Word(src, pos) == Parsed(p, q) && EatWhitespace(src, q) == Ok(q)
          && Yields(MoreParameters(src, q), rest, end) by {
        assert PrintParameters(parameters) + ")" == p + (PrintMoreParameters(rest) + ")");
        FirstParameterAt(src, pos, p, q, PrintMoreParameters(rest) + ")");
        EatNothing(src, q);
        MoreParametersPrinted(src, q, rest, end);
      }
      ParametersStep(src, pos, parameters, q, end);
    }
  }

  lemma {:induction false} ParametersStep(src: string, pos: nat, parameters: seq<string>, q: nat, end: nat)
    requires parameters != [] && parameters[0] != []
    requires pos <= q <= |src| && Word(src, pos) == Parsed(parameters[0], q) && EatWhitespace(src, q) == Ok(q)
    requires Yields(MoreParameters(src, q), parameters[1..], end)
    ensures Yields(Parameters(src, pos), parameters, end)
  {
    assert [parameters[0]] + parameters[1..] == parameters;
  }

  lemma {:induction false} ParameterListStep(src: string, pos: nat, parameters: seq<string>, q1: nat, p4: nat, end: nat)
    requires pos <= |src| && Yields(Parameters(src, pos), parameters, q1)
    requires Match(src, q1, ")", false) == Ok(p4)
    requires Match(src, p4, "@", true) == Ok(end)
    ensures Yields(ParameterList(src, pos), parameters, end)
  {
  }

  /** `params)@` as printed. */
  lemma {:induction false} ParameterListPrinted(src: string, pos: nat, parameters: seq<string>, end: nat)
    requires forall i | 0 <= i < |parameters| :: IsWord(parameters[i]) && parameters[i] != []
    requires Has(src, pos, PrintParameters(parameters) + ")@") && end == pos + |PrintParameters(parameters)| + 2
    ensures Yields(ParameterList(src, pos), parameters, end)
  {
    var params := PrintParameters(parameters);
    var q1 := pos + |params|;
    var p4 := q1 + 1;
    assert params + ")@" == (params + ")") + "@";
    HasSplit(src, pos, params + ")", "@");
    HasLast(src, pos, params, ')');
    HasCharAt(src, p4, "@", 0);
    ParametersPrinted(src, pos, parameters, q1);
    MatchChar(src, q1, ")", p4);
    MatchChar(src, p4, "@", end);
    ParameterListStep(src, pos, parameters, q1, p4, end);
  }

  lemma {:induction false} SignatureStep(src: string, pos: nat, name: string, q: nat, p2: nat, parameters: seq<string>, end: nat)
    requires pos <= |src| && Word(src, pos) == Parsed(name, q)
    requires Match(src, q, "(", true) == Ok(p2)
    requires Yields(ParameterList(src, p2), parameters, end)
    ensures Yields(MacroSignature(src, pos), (name, parameters), end)
  {
  }

  /** `name(params)@` as printed. */
  lemma {:induction false} SignaturePrinted(src: string, pos: nat, name: string, parameters: seq<string>, end: nat)
    requires IsWord(name)
    requires forall i | 0 <= i < |parameters| :: IsWord(parameters[i]) && parameters[i] != []
    requires Has(src, pos, name + "(" + (PrintParameters(parameters) + ")@"))
    requires end == pos + |name| + 3 + |PrintParameters(parameters)|
    ensures Yields(MacroSignature(src, pos), (name, parameters), end)
  {
    var q := pos + |name|;
    var p2 := q + 1;
    HasThree(src, pos, name, "(", PrintParameters(parameters) + ")@");
    HasCharAt(src, q, "(", 0);
    WordAt(src, pos, name, q);
    MatchChar(src, q, "(", p2);
    ParameterListPrinted(src, p2, parameters, end);
    SignatureStep(src, pos, name, q, p2, parameters, end);
  }

  lemma {:induction false} MacroHeaderStep(src: string, pos: nat, p1: nat, name: string, parameters: seq<string>, end: nat)
    requires pos <= |src| && Match(src, pos, "@macro ", false) == Ok(p1)
    requires Yields(MacroSignature(src, p1), (name, parameters), end)
    ensures Yields(MacroHeader(src, pos), (name, parameters), end)
  {
  }

  lemma {:induction false} MacroHeaderPrinted(src: string, pos: nat, name: string, parameters: seq<string>, end: nat)
    requires IsWord(name)
    requires forall i | 0 <= i < |parameters| :: IsWord(parameters[i]) && parameters[i] != []
    requires Has(src, pos, "@macro " + name + "(" + PrintParameters(parameters) + ")@")
    requires end == pos + 10 + |name| + |PrintParameters(parameters)|
    ensures PrefixAt(src, pos, "@macro ")
    ensures Yields(MacroHeader(src, pos), (name, parameters), end)
  {
    var p1 := pos + 7;
    MacroHeaderLayout(src, pos, p1, name, PrintParameters(parameters));
    MatchAt(src, pos, "@macro ", p1);
    SignaturePrinted(src, p1, name, parameters, end);
    MacroHeaderStep(src, pos, p1, name, parameters, end);
  }

  lemma {:induction false} MacroHeaderLayout(src: string, pos: nat, p1: nat, name: string, params: string)
    requires Has(src, pos, "@macro " + name + "(" + params + ")@") && p1 == pos + 7
    ensures PrefixAt(src, pos, "@macro ") && Has(src, p1, name + "(" + (params + ")@"))
  {
    assert "@macro " + name + "(" + params + ")@" == "@macro " + (name + "(" + (params + ")@"));
    HasSplit(src, pos, "@macro ", name + "(" + (params + ")@"));
    HasPrefixAt(src, pos, "@macro ");
  }

  lemma {:induction false} MacroLayout(src: string, pos: nat, n: Node, q1: nat, b: nat, q2: nat, end: nat)
    requires n.Macro? && n.body.Block? && Has(src, pos, Print(n)) && end == pos + |Print(n)|
    requires q1 == pos + 10 + |n.name| + |PrintParameters(n.parameters)| && b == q1 + 1
    requires q2 == b + |PrintNodes(n.body.nodes)|
    ensures Has(src, pos, "@macro " + n.name + "(" + PrintParameters(n.parameters) + ")@")
    ensures q1 < |src| && src[q1] == '\n'
    ensures Has(src, b, PrintNodes(n.body.nodes))
    ensures Has(src, q2, "@endmacro@")
    ensures end == q2 + 10
  {
    var header := "@macro " + n.name + "(" + PrintParameters(n.parameters) + ")@";
    assert Print(n) == header + "\n" + PrintNodes(n.body.nodes) + "@endmacro@";
    TagAround(src, pos, header, PrintNodes(n.body.nodes), "@endmacro@", q1, b, q2);
  }

  /** A tag, a newline, a body and a closing tag, printed one after another. */
  lemma {:induction false} TagAround(src: string, pos: nat, header: string, body: string, close: string, q1: nat, b: nat, q2: nat)
    requires Has(src, pos, header + "\n" + body + close)
    requires q1 == pos + |header| && b == q1 + 1 && q2 == b + |body|
    ensures Has(src, pos, header) && q1 < |src| && src[q1] == '\n'
    ensures Has(src, b, body) && Has(src, q2, close)
  {
    HasSplit(src, pos, header + "\n" + body, close);
    HasSplit(src, pos, header + "\n", body);
    HasLast(src, pos, header, '\n');
    HasSplit(src, pos, header, "\n");
  }

  /** The body of a printed `@macro` and its closing tag. */
  lemma {:induction false} MacroBodyPrinted(src: string, b: nat, body: seq<Node>, q2: nat, end: nat)
    requires PrintableNodes(body)
    requires Has(src, b, PrintNodes(body)) && q2 == b + |PrintNodes(body)|
    requires Has(src, q2, "@endmacro@") && end == q2 + 10
    ensures Yields(BlockNodes(src, b), body, q2)
    ensures q2 <= |src| && Match(src, q2, "@endmacro@", false) == Ok(end)
    decreases body, 3
  {
    TagAt(src, q2, "@endmacro@");
    MatchAt(src, q2, "@endmacro@", end);
    NodesPrinted(src, b, body, q2);
  }

  lemma {:induction false} MacroStep(src: string, pos: nat, name: string, parameters: seq<string>, q1: nat, b: nat, body: seq<Node>, q2: nat, end: nat)
    requires pos <= |src| && Yields(MacroHeader(src, pos), (name, parameters), q1) && MaybeEatNewline(src, q1) == b
    requires Yields(BlockNodes(src, b), body, q2)
    requires Match(src, q2, "@endmacro@", false) == Ok(end)
    ensures Yields(ParseMacro(src, pos), Macro(name, parameters, Block(body)), end)
  {
  }

  lemma {:induction false} MacroPrinted(src: string, pos: nat, n: Node, end: nat)
    requires n.Macro? && PrintableChild(n)
    requires Has(src, pos, Print(n)) && end == pos + |Print(n)|
    ensures PrefixAt(src, pos, "@macro ")
    ensures Yields(ParseMacro(src, pos), n, end)
    decreases n, 0
  {
    var name, parameters, body := n.name, n.parameters, n.body.nodes;
    var q1 := pos + 10 + |name| + |PrintParameters(parameters)|;
    var b := q1 + 1;
    var q2 := b + |PrintNodes(body)|;
    MacroLayout(src, pos, n, q1, b, q2, end);
    MacroHeaderPrinted(src, pos, name, parameters, q1);
    MacroBodyPrinted(src, b, body, q2, end);
    NewlineAt(src, q1, b);
    MacroStep(src, pos, name, parameters, q1, b, body, q2, end);
  }

  /** `maybe_eat_newline` on a newline. */
  lemma {:induction false} NewlineAt(src: string, q: nat, b: nat)
    requires q < |src| && src[q] == '\n' && b == q + 1
    ensures MaybeEatNewline(src, q) == b
  {
  }

  /** The parser reads back every printable block. */
  lemma {:induction false} ParsePrinted(nodes: seq<Node>)
    requires PrintableNodes(nodes)
    ensures Parse(PrintNodes(nodes)) == Ok(Block(nodes))
  {
    var src := PrintNodes(nodes);
    HasWhole(src);
    NodesPrinted(src, 0, nodes, |src|);
  }

  lemma {:induction false} HasWhole(src: string)
    ensures Has(src, 0, src)
  {
    HasPrefixAt(src, 0, src);
  }
}

=== FILE: values.dfy ===
/** The run-time values a template context holds, with the three pieces of
    Python behaviour the renderer relies on made explicit: truthiness
    (`if value:`), iteration (`for i in value`) and string conversion
    (`str(value)`), plus `str.split(".")` for dotted names. */
module Values {
  import opened Results

  /** A closed set of value kinds.  A dict keeps its entries in insertion
      order (iterating it yields its keys in that order); an object is a
      record of named attributes. */
  datatype Value =
    | Str(s: string)
    | Int(i: int)
    | Bool(b: bool)
    | NoneValue
    | List(items: seq<Value>)
    | Dict(entries: seq<(string, Value)>)
    | Object(attributes: map<string, Value>)

  /** The render context: a mapping from names to values. */
  type Context = map<string, Value>

  /** Python truthiness: empty strings and containers, zero, False and
      None are falsy; an object without `__bool__`/`__len__` is truthy. */
  predicate Truthy(v: Value) {
    match v
    case Str(s) => s != []
    case Int(i) => i != 0
    case Bool(b) => b
    case NoneValue => false
    case List(items) => items != []
    case Dict(entries) => entries != []
    case Object(_) => true
  }

  /** `dict[key]`: the value of the first entry with that key. */
  function DictGet(entries: seq<(string, Value)>, key: string): (r: Option<Value>)
    ensures r.Some? <==> exists i :: 0 <= i < |entries| && entries[i].0 == key
    ensures r.Some? ==> exists i :: 0 <= i < |entries| && entries[i] == (key, r.value)
  {
    if entries == [] then None
    else if entries[0].0 == key then
      assert entries[0] == (key, entries[0].1);
      Some(entries[0].1)
    else
      var r := DictGet(entries[1..], key);
      if r.Some? then
        var j :| 0 <= j < |entries[1..]| && entries[1..][j] == (key, r.value);
        assert entries[j + 1] == (key, r.value);
        r
      else
        r
  }

  /** What `for i in value` iterates over: a list's items, a string's
      characters, a dict's keys; None when Python raises TypeError. */
  function Iterate(v: Value): (r: Option<seq<Value>>)
    ensures r.Some? <==> v.List? || v.Str? || v.Dict?
    ensures v.List? ==> r == Some(v.items)
    ensures v.Str? ==> r.Some? && |r.value| == |v.s| && forall i | 0 <= i < |v.s| :: r.value[i] == Str([v.s[i]])
    ensures v.Dict? ==> r.Some? && |r.value| == |v.entries| && forall i | 0 <= i < |v.entries| :: r.value[i] == Str(v.entries[i].0)
  {
    match v
    case List(items) => Some(items)
    case Str(s) => Some(seq(|s|, i requires 0 <= i < |s| => Str([s[i]])))
    case Dict(entries) => Some(seq(|entries|, i requires 0 <= i < |entries| => Str(entries[i].0)))
    case _ => None
  }

  /** The decimal digit for `d`. */
  function DigitChar(d: nat): (c: char)
    requires d < 10
    ensures '0' <= c <= '9' && c as int - '0' as int == d
  {
    ('0' as int + d) as char
  }

  /** Python's `str` of a non-negative int: decimal, no leading zeros. */
  function NatToString(n: nat): (s: string)
    ensures |s| >= 1
    ensures forall i | 0 <= i < |s| :: '0' <= s[i] <= '9'
    ensures s[0] == '0' ==> n == 0 && |s| == 1
    decreases n
  {
    if n < 10 then [DigitChar(n)] else NatToString(n / 10) + [DigitChar(n % 10)]
  }

  /** Python's `str` of an int. */
  function IntToString(i: int): (s: string)
    ensures |s| >= 1
    ensures i < 0 <==> s[0] == '-'
    ensures var k := if i < 0 then 1 else 0;
            && k < |s|
            && (forall j | k <= j < |s| :: '0' <= s[j] <= '9')
            && (s[k] == '0' ==> i == 0 && |s| == 1)
            && DigitsValue(s[k..]) == if i < 0 then -i else i
  {
    if i < 0 then
      var digits := NatToString(-i);
      NatToStringValue(-i);
      assert ("-" + digits)[1..] == digits;
      "-" + digits
    else
      NatToStringValue(i);
      NatToString(i)
  }

  /** The value of a string of decimal digits: the inverse of `NatToString`. */
  function DigitsValue(s: string): nat
    requires forall i | 0 <= i < |s| :: '0' <= s[i] <= '9'
  {
    if s == [] then 0 else DigitsValue(s[..|s| - 1]) * 10 + (s[|s| - 1] as int - '0' as int)
  }

  /** Reading back the digits `NatToString` writes gives the number. */
  lemma {:induction false} NatToStringValue(n: nat)
    ensures DigitsValue(NatToString(n)) == n
    decreases n
  {
    var s := NatToString(n);
    if n < 10 {
      assert s[..0] == [];
    } else {
      var d := DigitChar(n % 10);
      assert s[..|s| - 1] == NatToString(n / 10) && s[|s| - 1] == d;
      NatToStringValue(n / 10);
    }
  }

  /** `str(value)` for values that are not already strings.  Strings,
      ints, booleans and None have their Python forms; the text Python
      gives a list, dict or object is left to `repr`. */
  function ToStr(v: Value, repr: Value -> string): (s: string)
    ensures v.Str? ==> s == v.s
    ensures v.Int? ==> s == IntToString(v.i)
    ensures v == Bool(true) ==> s == "True"
    ensures v == Bool(false) ==> s == "False"
    ensures v.NoneValue? ==> s == "None"
    ensures v.List? || v.Dict? || v.Object? ==> s == repr(v)
  {
    match v
    case Str(s) => s
    case Int(i) => IntToString(i)
    case Bool(b) => if b then "True" else "False"
    case NoneValue => "None"
    case _ => repr(v)
  }

  /** `s.split(sep)` for a one-character separator. */
  function Split(s: string, sep: char): (parts: seq<string>)
    ensures |parts| >= 1
  {
    if s == [] then
      [""]
    else
      var rest := Split(s[1..], sep);
      if s[0] == sep then [""] + rest else [[s[0]] + rest[0]] + rest[1..]
  }

  /** `sep.join(parts)` */
  function Join(parts: seq<string>, sep: char): string
    requires |parts| >= 1
  {
    if |parts| == 1 then parts[0] else parts[0] + [sep] + Join(parts[1..], sep)
  }

  /** The parts `Split` cuts a string into hold no separator, and joining
      them with the separator gives the string back. */
  lemma {:induction false} SplitJoin(s: string, sep: char)
    ensures forall i | 0 <= i < |Split(s, sep)| :: sep !in Split(s, sep)[i]
    ensures Join(Split(s, sep), sep) == s
    decreases |s|
  {
    if s != [] {
      var rest := Split(s[1..], sep);
      SplitJoin(s[1..], sep);
      if s[0] == sep {
        assert Split(s, sep) == [""] + rest;
        assert Split(s, sep)[1..] == rest;
        assert s == [sep] + s[1..];
      } else {
        var parts := Split(s, sep);
        assert parts == [[s[0]] + rest[0]] + rest[1..];
        assert forall i | 1 <= i < |parts| :: parts[i] == rest[i];
        JoinConsFirst(s[0], rest, sep);
        assert s == [s[0]] + s[1..];
      }
    }
  }

  /** A string without the separator is one part. */
  lemma {:induction false} SplitWithoutSep(s: string, sep: char)
    ensures sep !in s ==> Split(s, sep) == [s]
    decreases |s|
  {
    if s != [] && sep !in s {
      assert sep != s[0] && sep !in s[1..];
      SplitWithoutSep(s[1..], sep);
      assert [s[0]] + s[1..] == s;
    }
  }

  lemma {:induction false} JoinConsFirst(c: char, parts: seq<string>, sep: char)
    requires |parts| >= 1
    ensures Join([[c] + parts[0]] + parts[1..], sep) == [c] + Join(parts, sep)
  {
    var parts' := [[c] + parts[0]] + parts[1..];
    assert parts'[1..] == parts[1..];
  }
}
